=== FILE: README.md ===
# nandtool ECC engine, modelled in Dafny

nandtool reads a raw NAND flash image, corrects every page of every configured
partition with a BCH code, and keeps each page's user bytes. It can also append a
synthesized ETFS transaction record to each page. The result is one corrected byte
buffer per partition. This project models that engine as pure functions over
immutable data, and proves what it computes.

The model covers:
- the byte transforms around the decoder (invert, bit reversal, nibble shift);
- one chunk's correction (`bch_correct_chunk`);
- one page's correction: the erasure check, the chunk loop, re-splitting, and
  rebuilding the page buffer;
- the per-page output record and its ETFS transaction;
- the partition loop with its geometry and strict / non-strict policy;
- the loop over all partitions;
- the configuration augmentation that resolves sections and fills in defaults.

Modules, in dependency order:

| module | file | models |
|---|---|---|
| `Outcomes` | outcomes.dfy | `Option`, `Result`, and the exceptions the engine raises, as `Fault` values |
| `PySeq` | pyseq.dfy | Python slicing, floor division, `range`, `b"".join`, `zip` |
| `ByteBuf` | bytebuf.dfy | `modify_buffer` and the hex nibble shift |
| `Bch` | bch.dfy | the BCH codec as an oracle: `decode` gives a verdict, `correct` gives repaired buffers |
| `Layouts` | layouts.dfy | `Layout` and its construction from a configured section |
| `ChunkCorrection` | chunk.dfy | `NAND.bch_correct_chunk` |
| `PageBuffer` | rebuild.dfy | `NAND.rebuild_buffer` |
| `PageCorrection` | page.dfy | `NAND.correct_page` |
| `Partition` | partition.dfy | `NAND.__init__`, `correct_partition`, `build_transaction`, `build_partitions` |
| `Config` | config.dfy | `check_and_augment_conf` |

Behaviour that the model reproduces as the code has it:
- **Swapped transform flags.** `modify_buffer(buffer, reverse, invert)` is called
  as `(buffer, *_invert, *_reverse)`. A layout's `invert` flag therefore selects
  bit reversal, and its `reverse` flag selects inversion.
- **`zip` truncation.** The chunk loop pairs data chunks with parity chunks
  through `zip`, so surplus chunks on the longer side are never decoded. They
  still count in the erasure check.
- **Erased filler.** The page is rebuilt from the corrected regions only. Every
  byte outside a decoded chunk comes back as 0xFF, user bytes included. An erased
  page comes back entirely 0xFF.
- **Empty buffers reach the decoder.** An empty buffer becomes `None` and is
  still handed on. The model reports this as a fault: `bchlib` cannot read `None`,
  and a `None` parity buffer has no `.hex()` for the nibble shift.
- **Declared size.** `corrected_partition_size` counts 16 bytes per page for
  ETFS. The record actually appended is 4 bytes plus the four fields' lengths.
  The two agree exactly when the fields span 12 bytes.

Three of these points go against what the code's own names and comments
suggest. The model follows what the code does:
- The parameter names of `modify_buffer` suggest that `*_invert` inverts and
  `*_reverse` reverses. The call sites pass them the other way round.
- The comment "correct if page not empty" suggests that an erased page is left
  alone. The page is still rebuilt, from an empty mapping, so only 0xFF comes
  back.
- `modify_buffer` returns `None` for an empty buffer, as if to skip it. Nothing
  downstream checks for `None`, so it reaches `.hex()` or the decoder.

Integers are unbounded, as in Python.

## Model

| member | source | states |
|---|---|---|
| `ByteBuf.ModifyBuffer` | nandtool/nand.py:11-21 | an empty or absent buffer gives `None`; otherwise the result has the same length, and each byte is the input byte inverted and/or bit-reversed as flagged |
| `ByteBuf.ModifyBufferPointwise` | nandtool/nand.py:11-21 | for a non-empty buffer, `t` is the transform's result if and only if it has the same length and agrees byte by byte with the per-byte transform |
| `ByteBuf.ModifyBufferInvolution` | nandtool/nand.py:139-143 | applying the transform twice with the same flags gives the buffer back (or `None` for an empty buffer), which is how the chunk code undoes it |
| `ByteBuf.ReverseFixedPoints` | nandtool/nand.py:16-20 | bit reversal fixes 0x00 and 0xFF, and inversion swaps them |
| `ByteBuf.ModifyBufferExampleBoth` | nandtool/nand.py:16-20 | on a fixed ten-byte buffer, inverting and then bit-reversing gives the bytes a per-bit reading predicts |
| `ByteBuf.ShiftLeftBytes` | nandtool/nand.py:121-122 | shifting the hex string one digit left gives each byte's low nibble followed by the next byte's high nibble, and the last byte's low nibble followed by zero |
| `ByteBuf.FromHexBytes` | nandtool/nand.py:141 | `bytes.fromhex` of an even number of digits packs each pair of digits into one byte |
| `ByteBuf.ShiftRoundTrip` | nandtool/nand.py:140-141 | shifting right after shifting left gives the buffer back, except that the first byte loses its high nibble |
| `PySeq.Slice` | nandtool/nand.py:155 | a slice is never longer than the sequence; in-range bounds give the plain subsequence; reversed bounds give the empty sequence |
| `PySeq.SliceClamped` | nandtool/nand.py:205 | non-negative bounds past the end are clamped to the length, and a start past the end gives the empty sequence |
| `PySeq.FloorDiv` | nandtool/nand.py:84 | `//` rounds toward negative infinity, for either sign of the divisor |
| `PySeq.RangeSteps` | nandtool/nand.py:201-203 | `range(a, a + n*step, step)` with a positive step is exactly the `n` values `a + k*step` |
| `PySeq.Zip` | nandtool/nand.py:163-165 | `zip` pairs items by position and stops at the shorter list |
| `Layouts.FromConf` | nandtool/nand.py:39-71 | an absent ETFS section becomes the empty mapping; a codec exists exactly when an algorithm is configured; the raw page is pagesize plus oobsize; every other key lands in its own field, including the four transform flags, `left_shift_ecc_buf` and `ecc_strict` |
| `ChunkCorrection.DecoderInput` | nandtool/nand.py:119-122 | the buffers reach the decoder exactly when both are non-empty; otherwise the fault is the missing `.hex()` (an empty parity buffer under the nibble shift) or the `None` argument. The decoder gets each data byte transformed by `modify_buffer(data, data_invert, data_reverse)`. It gets each parity byte transformed the same way with the parity flags, and the whole parity buffer is also nibble-shifted left when `left_shift == 4` |
| `ChunkCorrection.DecoderFlagsSwapped` | nandtool/nand.py:119-120 | a byte the decoder receives is inverted when the layout's `reverse` flag is set, then bit-reversed when its `invert` flag is set; this holds for data, and for parity without the nibble shift |
| `ChunkCorrection.ConfFlagsSwapped` | nandtool/nand.py:119-120 | in a layout built from a section, `ecc_protected_data_reverse` inverts each data byte handed to the decoder and `ecc_protected_data_invert` then bit-reverses it; `ecc_reverse` and `ecc_invert` do the same to the parity bytes without the nibble shift |
| `ChunkCorrection.ShiftBack` | nandtool/nand.py:140-141 | undoing the nibble shift fails exactly on an empty buffer and otherwise keeps the length |
| `ChunkCorrection.BchCorrectChunk` | nandtool/nand.py:116-145 | the chunk is uncorrectable exactly when `decode` says so; the counter grows by the flip count exactly when that count is positive; failures are only the three buffer faults |
| `ChunkCorrection.ChunkBitsShift` | nandtool/nand.py:131-132 | the counter is only added to: a call from any starting count equals the call from zero, shifted by that count |
| `ChunkCorrection.ChunkPreservesLengths` | nandtool/nand.py:135-145 | with a length-preserving codec, two non-empty buffers always come back with their own lengths, and nandtool's own code raises no fault (the codec oracle never raises) |
| `ChunkCorrection.ChunkRepaired` | nandtool/nand.py:128-145 | when `decode` reports flips to repair and the codec keeps lengths, the chunk is not uncorrectable. Transforming the returned data with the layout's data flags gives exactly the data `correct` repaired. The same holds for the parity with the parity flags. Under the nibble shift, the transformed parity is `correct`'s parity shifted back right |
| `ChunkCorrection.ChunkUntouchedWithoutRepair` | nandtool/nand.py:128-145 | without repairs the data and the counter come back unchanged. Without the nibble shift the parity also comes back unchanged. Under the shift, every parity byte but the first comes back unchanged. The first byte loses the high nibble of its transformed value: it comes back as the transform of (transformed byte AND 0x0F). Which original bits are lost therefore depends on the flags |
| `PageBuffer.RebuildBuffer` | nandtool/nand.py:102-114 | the rebuilt page is never shorter than the raw page size |
| `PageBuffer.EmitExtends` | nandtool/nand.py:106-111 | the loop only appends: what is already written stays in front |
| `PageBuffer.EmitPlaces` | nandtool/nand.py:106-111 | disjoint regions ahead of the cursor each land at their own offset |
| `PageBuffer.EmitFillsGaps` | nandtool/nand.py:107-109 | every position past the cursor that no region covers is filled with 0xFF |
| `PageBuffer.RebuildPlaces` | nandtool/nand.py:102-114 | for disjoint regions inside the raw page: the page has exactly the raw size, each region's bytes sit at its offset, and every uncovered byte is 0xFF |
| `PageBuffer.RebuildEmpty` | nandtool/nand.py:112-113 | an empty mapping rebuilds to an all-0xFF page |
| `PageCorrection.CorrectPage` | nandtool/nand.py:147-193 | a corrected page is never shorter than the raw page |
| `PageCorrection.CorrectPageErased` | nandtool/nand.py:152-162 | a page whose protected and parity ranges are all 0xFF comes back entirely 0xFF, not uncorrectable, with the counter unchanged |
| `PageCorrection.CorrectPageFlag` | nandtool/nand.py:171-175 | a page is uncorrectable exactly when one of the zipped chunks is |
| `PageCorrection.SplitExact` | nandtool/nand.py:177-187 | a buffer whose length is the total region length splits without a leftover; exactly the region starts are added, each piece has its region's length, and other entries are untouched |
| `PageCorrection.SplitJoinRoundTrip` | nandtool/nand.py:166-187 | splitting the join of a chunk's region buffers gives those buffers back, at their start offsets |
| `PageCorrection.SplitPiece` | nandtool/nand.py:177-187 | the re-split hands a range the bytes of the buffer that begin at the summed lengths of the ranges listed before it and run for its own length, unless a later range has the same start |
| `PageCorrection.ChunksSucceed` | nandtool/nand.py:163-187 | with a length-preserving codec, the chunk loop over well-formed pairs raises no fault of nandtool's own (the codec oracle never raises); it keys exactly the pairs' starts, with their lengths, and leaves other entries alone |
| `PageCorrection.ChunksClean` | nandtool/nand.py:163-187 | when no chunk needs repair, the loop writes back exactly the original slices of the pairs' regions, with the counter unchanged |
| `PageCorrection.ChunksPiece` | nandtool/nand.py:163-187 | when no start is listed twice, the loop leaves at each range of each pair, data or parity, that range's piece of the buffer `bch_correct_chunk` returned for that pair; later pairs do not overwrite it |
| `PageCorrection.CorrectPageShape` | nandtool/nand.py:147-193 | for a well-formed layout and a length-preserving codec, correction raises no fault of nandtool's own (the codec oracle never raises), keeps the raw size, and every byte outside the zipped chunks is 0xFF |
| `PageCorrection.CorrectPageClean` | nandtool/nand.py:160-193 | when no chunk needs repair (and there is no nibble shift), each byte inside the zipped chunks is the page's own byte, every other byte is 0xFF, and the counter is unchanged |
| `PageCorrection.PageRangeRepaired` | nandtool/nand.py:147-193 | one range of one zipped pair of a page that is not erased holds, in the corrected page, its piece of that pair's corrected data or parity |
| `PageCorrection.CorrectPageRepaired` | nandtool/nand.py:147-193 | for a well-formed layout, a length-preserving codec, no start listed twice, and a page that is not erased: correction raises no fault of nandtool's own (the codec oracle never raises), and every range of every zipped pair holds in the corrected page its piece of the buffer `bch_correct_chunk` returned for that pair (with `ChunkRepaired`, the bytes `correct` repaired) |
| `PageCorrection.CorrectPageBitsShift` | nandtool/nand.py:131-132 | page correction from any counter equals correction from zero shifted by that counter; failures are the same and are only buffer faults |
| `PageCorrection.CorrectChunksBits` | nandtool/nand.py:163-173 | the chunk loop adds to the counter the sum, over the pairs it corrects, of the flip count `decode` reported when that count was positive |
| `PageCorrection.CorrectPageBits` | nandtool/nand.py:160-173 | a corrected page's counter is the starting count plus the repaired flips of its zipped chunk pairs, and unchanged for an erased page |
| `PageCorrection.CorrectPageCount` | nandtool/nand.py:147-193 | for a well-formed layout, a length-preserving codec and a page that is not erased, correction raises no fault of nandtool's own (the codec oracle never raises), and the counter grows by exactly the repaired flips of the zipped chunk pairs |
| `Partition.ResolveEnd` | nandtool/nand.py:82-84 | `endblock == -1` with a zero block size is the division fault; with a positive block size it resolves to the last block the image holds in full; any other value is kept |
| `Partition.NewNand` | nandtool/nand.py:75-100 | construction fails only on that division fault; the block count is `end + 1 - start`, the raw size is blocks times block size, and the declared size uses the hard-coded per-page yield |
| `Partition.UserBytesLength` | nandtool/nand.py:217-221 | user ranges inside the page yield exactly their total length |
| `Partition.BuildTransaction` | nandtool/nand.py:232-243 | the record exists exactly when all four fields are configured; the first missing field, in source order, is the fault; its length is 4 plus the fields' lengths |
| `Partition.TransactionRoundTrip` | nandtool/nand.py:232-243 | the record parses back into exactly the four field slices of the page |
| `Partition.PageRecord` | nandtool/nand.py:217-227 | a page's output exists exactly when there is no ETFS layout or all four fields are configured; the fault is `build_transaction`'s. It is the page's user bytes followed by `build_transaction`'s record, or by nothing without ETFS |
| `Partition.PageRecordRoundTrip` | nandtool/nand.py:222-243 | with an ETFS layout, what follows the user bytes in a page's output parses back into exactly that page's four transaction fields |
| `Partition.PageRecordLength` | nandtool/nand.py:217-225 | with user and ETFS ranges inside the page, the output has the configured record length |
| `Partition.RecordLengthAsExpected` | nandtool/nand.py:88-96 | the record length equals the declared per-page yield exactly when there is no ETFS layout or its fields span 12 bytes |
| `Partition.CorrectedPage` | nandtool/nand.py:205-215 | without parity, protected data or codec (any one missing), the raw page is passed on unchanged |
| `Partition.CorrectedPageAbort` | nandtool/nand.py:206-213 | an uncorrectable-page fault carries the page's offset, and arises only under `ecc_strict` for a page that correction flags; a non-strict layout never raises it |
| `Partition.StrictGate` | nandtool/nand.py:207-213 | the gate fails exactly when correction failed or, under `ecc_strict`, flagged the page; a flagged page's fault carries the page offset; otherwise the corrected page and counter go on |
| `Partition.WithRecord` | nandtool/nand.py:217-225 | a page's output exists exactly when its correction and its record both succeed, and is the record of the corrected page with the counter carried along |
| `Partition.GateAbort` | nandtool/nand.py:207-213 | whatever the page outcome, an uncorrectable-page stop names the page's own offset, needs `ecc_strict`, and needs an outcome that flags the page |
| `Partition.PageAt` | nandtool/nand.py:205 | a page inside the image is exactly the raw page's bytes at that offset |
| `Partition.ProcessPageAbort` | nandtool/nand.py:204-215 | the same, for a page read at offset `i` from the image |
| `Partition.ProcessPageBitsShift` | nandtool/nand.py:195-229 | a page's output does not depend on the running counter, which it only adds to |
| `Partition.PageLoopMap` | nandtool/nand.py:201-227 | a loop whose iterations only shift the count is a map: it succeeds exactly when every iteration does from zero, its pieces are their outputs in order, its count is the start plus their counts, and a failure is the first failing iteration's fault |
| `Partition.LoopStop` | nandtool/nand.py:201-209 | a failed loop stopped at an offset it visits, where the iteration from zero fails the same way |
| `Partition.PageStepShifts` | nandtool/nand.py:204-227 | every iteration of a partition's loop only shifts the count it is given |
| `Partition.Joined` | nandtool/nand.py:226-229 | the partition fails exactly when its loop fails, with the same fault, and otherwise is the join of the records with the loop's counter |
| `Partition.PartitionOffsets` | nandtool/nand.py:197-203 | the loop visits `num_blocks * pages_per_block` pages, the `k`-th at `start * blocksize + k * raw_pagesize` |
| `Partition.CorrectPagesMap` | nandtool/nand.py:201-229 | the loop succeeds exactly when every page succeeds on its own; the parts are the pages' own outputs; the counter is the sum of the pages' counts; a failure is the first failing page's fault |
| `Partition.CorrectPartitionPieces` | nandtool/nand.py:227-229 | the corrected partition is the join of the pages' outputs in page order, and the counter is the sum over pages |
| `Partition.PageAbortAt` | nandtool/nand.py:204-213 | a page that stops the loop as uncorrectable names its own offset, under `ecc_strict`, and its correction flags it |
| `Partition.StrictAbort` | nandtool/nand.py:208-209 | an uncorrectable-page abort happens only under `ecc_strict`, at a visited page offset, for a page that correction flags |
| `Partition.PassThrough` | nandtool/nand.py:214-215 | without parity, protected data or codec, each page's output is its raw page's record, and no bits are counted |
| `Partition.PageYieldLength` | nandtool/nand.py:217-225 | a page inside the image yields a record of the configured length, whether corrected or passed through |
| `Partition.OffsetsInImage` | nandtool/nand.py:197-205 | under the constructor's geometry, every visited page lies inside the image |
| `Partition.CorrectPartitionRecord` | nandtool/nand.py:201-229 | record `k` sits at `k` times the record length and is the output of the page at `start * blocksize + k * raw_pagesize` |
| `Partition.CorrectPartitionSize` | nandtool/nand.py:195-229 | the corrected partition is one record per page, `num_blocks * pages_per_block` records of the configured length, each holding its own page's output |
| `Partition.CorrectedSizeAsDeclared` | nandtool/nand.py:86-96 | when the ETFS fields (if any) span 12 bytes, the corrected buffer's length equals `corrected_partition_size` |
| `Partition.BuildFromSpec` | nandtool/nand.py:24-33 | the loop succeeds exactly when every listed section exists and builds on its own; each name maps to its own section's result; earlier entries are kept |
| `Partition.BuildPartitionsSpec` | nandtool/nand.py:24-33 | `build_partitions` succeeds exactly when every listed partition exists and constructs and corrects on its own, and each name maps to that partition |
| `Config.Resolve` | nandtool/config.py:30-48 | resolving the `ecc_algorithm` or `etfs` reference: a name with no section is the fault; otherwise a section is present exactly when the field is configured, looked up by name or kept in place |
| `Config.AugmentLayout` | nandtool/config.py:27-62 | a layout is accepted exactly when its references resolve, with the algorithm's failure reported first; the block size is always `(pagesize + oobsize) * pages_per_block` |
| `Config.AugmentFillsIn` | nandtool/config.py:39-62 | augmentation keeps every field the section sets, gives every omitted one its default (shift 0, flags false, strict true), and leaves every flag set |
| `Config.AugmentIdempotent` | nandtool/config.py:26-48 | augmenting an already augmented section, against any settings, changes nothing |
| `Config.AugmentedBlocksize` | nandtool/config.py:28 | the unpacked layout's block size is the raw page size times the pages per block |
| `Config.AugmentFromAccepts` | nandtool/config.py:24-27 | the loop succeeds exactly when the remaining names are distinct and fresh, and each resolves against the original settings |
| `Config.Accept` | nandtool/config.py:24-62 | a fresh, resolvable first partition is written back, and the loop then succeeds exactly when the rest are fresh and resolvable |
| `Config.Reject` | nandtool/config.py:22-47 | a first partition seen before or not resolvable stops the loop, and then the names are not all fresh and resolvable |
| `Config.AugmentFromValues` | nandtool/config.py:24-62 | each visited partition gets its own layout section augmented from the original settings, even when another partition has already rewritten that shared section |
| `Config.CheckAndAugmentSpec` | nandtool/config.py:22-62 | the configuration is accepted exactly when the partitions are distinct, exist, name an existing layout, and refer only to existing sections; each then gets its own section augmented |

## Left out

- The BCH code itself (`bchlib`) is an oracle supplied with the layout. The
  oracle is total: it never raises, and `decode` answers only -1 or a flip count
  of at least 0. The only further property assumed, where one is used, is that
  `correct` preserves buffer lengths (`LengthPreserving`).
- bchlib's own errors are not modelled. Its `decode` raises `ValueError` for a
  parity buffer that is not the code's `ecc_bytes` long, or for data longer than
  the code allows. A layout whose parity ranges do not match its `ecc_algorithm`
  does that. So where `ChunkPreservesLengths`, `ChunksSucceed`,
  `CorrectPageShape`, `CorrectPageCount` and `CorrectPageRepaired` say that
  correction succeeds, they mean that nandtool's own code raises no fault. For
  such a layout, bchlib would still raise.
- The numpy implementation of bit reversal is replaced by a per-bit definition.
  `ModifyBufferExampleBoth` pins that definition to concrete bytes.
- Logging, the `tqdm` progress bar, and the non-strict warning `print` are
  output only, and are left out.
- `mount.py`, the FUSE layer, the command line, `get_configs` and `load_config`
  are file system and I/O around the engine, outside the core.
- The configuration is typed. A field the file leaves out and a field set to
  `None` are the same `Option.None`. Wrong value types, missing required keys
  (`pagesize`, `startblock`, ...) and Dynaconf's case-insensitive lookup are not
  modelled.
- A partition listed twice, or whose layout is written in place, makes the source
  use a section as a lookup key. The model treats this as the fault
  `KeyNotAName`, not as Dynaconf's particular exception.
- The source never validates a layout. `WellFormedLayout`, `Geometry`,
  `InsidePage` and `EtfsInside` are hypotheses of the lemmas that need them, not
  checks the engine performs.
- `PageCorrection.CorrectPageRepaired` and `PageCorrection.ChunksPiece` assume
  that no start offset appears twice among the zipped ranges. When one does, the
  source keeps whatever was written last at that start. The lemmas do not
  describe that case.
- `PageCorrection.CorrectPage` requires the protected-data and parity lists to be
  present. The source only calls `correct_page` behind the gate that checks this.
- `Partition.CorrectPartitionSize` is stated under the constructor's geometry.
  It does not cover a block range that reaches past the image, where Python's
  slicing would hand short pages to the decoder.
- `Partition.CorrectedSizeAsDeclared` holds only when the ETFS fields span 12
  bytes. `Partition.RecordLengthAsExpected` characterises exactly when the
  hard-coded 16 is right.
- The external `read(offset, length)` interface over a finished partition belongs
  to the mount layer and is not part of this model.

=== FILE: bch.dfy ===
/** The BCH codec is the foreign `bchlib` library (nandtool/nand.py:4, 69, 125,
    137). It is an oracle here: nothing about syndromes or error locators is
    modelled, only the shape of its two calls. The oracle is total: the
    `ValueError` bchlib raises for buffers of the wrong size for the code is
    not modelled. */
module Bch {
  import opened ByteBuf

  /** What `decode` reports: `-1` for an uncorrectable codeword, otherwise the
      number of bit flips it located. */
  datatype Verdict = Uncorrectable | Flips(count: nat)

  /** One configured codec, `bchlib.BCH(prim_poly, t)`. `correct` returns the
      buffers that the in-place `correct(data, ecc)` call leaves behind. */
  datatype Codec = Codec(
    decode: (seq<byte>, seq<byte>) -> Verdict,
    correct: (seq<byte>, seq<byte>) -> (seq<byte>, seq<byte>))

  /** The property the engine needs from `correct`: it flips bits, it does not
      add or remove bytes. */
  ghost predicate LengthPreserving(codec: Codec) {
    forall d, e :: |codec.correct(d, e).0| == |d| && |codec.correct(d, e).1| == |e|
  }

  /** Whether a decode verdict leads to a call of `correct` (nandtool/nand.py:131). */
  predicate Repairs(v: Verdict) {
    v.Flips? && v.count > 0
  }
}

=== FILE: bytebuf.dfy ===
/** Byte-buffer transforms applied around the BCH decoder: per-byte inversion and
    bit reversal (`modify_buffer`, nandtool/nand.py:11-21) and the one-nibble
    shift of the parity buffer (nandtool/nand.py:121-122, 140-141). */
module ByteBuf {
  import opened Outcomes

  type byte = bv8

  /** A Python `bytes` value, or `None`. */
  type Buf = Option<seq<byte>>

  /** Python truthiness of a buffer: present and non-empty. */
  predicate Truthy(buf: Buf) {
    buf.Some? && |buf.value| > 0
  }

  /** Bit `i` of `b`, bit 0 being the least significant. */
  predicate BitSet(b: byte, i: nat)
    requires i < 8
  {
    (b >> i) & 1 == 1
  }

  function Invert(b: byte): (r: byte)
    ensures forall i | 0 <= i < 8 :: BitSet(r, i) == !BitSet(b, i)
  {
    b ^ 0xFF
  }

  /** The byte read back to front: bit `i` moves to bit `7 - i`. */
  function Reverse(b: byte): (r: byte)
    ensures forall i | 0 <= i < 8 :: BitSet(r, i) == BitSet(b, 7 - i)
  {
    ((b & 0x01) << 7) | ((b & 0x02) << 5) | ((b & 0x04) << 3) | ((b & 0x08) << 1)
    | ((b & 0x10) >> 1) | ((b & 0x20) >> 3) | ((b & 0x40) >> 5) | ((b & 0x80) >> 7)
  }

  /** What `modify_buffer` does to one byte: invert first, then reverse. */
  function ModifyByte(b: byte, reverse: bool, invert: bool): byte {
    var x := if invert then Invert(b) else b;
    if reverse then Reverse(x) else x
  }

  /** `modify_buffer(buffer, reverse, invert)`: `None` for an absent or empty
      buffer, otherwise the buffer transformed byte by byte. Call sites pass the
      configured flags positionally as `(buffer, *_invert, *_reverse)`, so the
      parameter order here is the source's, not the call sites'. */
  function ModifyBuffer(buf: Buf, reverse: bool, invert: bool): (r: Buf)
    ensures r.None? <==> !Truthy(buf)
    ensures r.Some? ==> |r.value| == |buf.value|
    ensures r.Some? ==> forall i | 0 <= i < |r.value| ::
      r.value[i] == ModifyByte(buf.value[i], reverse, invert)
  {
    if !Truthy(buf) then None
    else
      var s := buf.value;
      Some(seq(|s|, i requires 0 <= i < |s| => ModifyByte(s[i], reverse, invert)))
  }

  /** Both byte transforms are involutions and they commute, so applying the same
      transform twice restores the byte. */
  lemma ModifyByteInvolution(b: byte, reverse: bool, invert: bool)
    ensures ModifyByte(ModifyByte(b, reverse, invert), reverse, invert) == b
  {
  }

  /** 0x00 and 0xFF are the fixed points of bit reversal that erased flash needs. */
  lemma ReverseFixedPoints()
    ensures Reverse(0x00) == 0x00 && Reverse(0xFF) == 0xFF
    ensures Invert(0x00) == 0xFF && Invert(0xFF) == 0x00
  {
  }

  /** Undoing a transform is re-applying it with the same flags. */
  lemma ModifyBufferInvolution(s: seq<byte>, reverse: bool, invert: bool)
    ensures ModifyBuffer(ModifyBuffer(Some(s), reverse, invert), reverse, invert)
            == (if |s| == 0 then None else Some(s))
  {
    if |s| > 0 {
      var once := ModifyBuffer(Some(s), reverse, invert).value;
      var twice := ModifyBuffer(Some(once), reverse, invert).value;
      forall i | 0 <= i < |s|
        ensures twice[i] == s[i]
      {
        ModifyByteInvolution(s[i], reverse, invert);
      }
      assert twice == s;
    }
  }

  /** A non-empty buffer is transformed into `t` exactly when each byte of `t` is
      the transformed byte at the same position. */
  lemma ModifyBufferPointwise(s: seq<byte>, t: seq<byte>, reverse: bool, invert: bool)
    requires |s| > 0
    ensures ModifyBuffer(Some(s), reverse, invert) == Some(t)
            <==> |t| == |s| && forall i | 0 <= i < |s| :: t[i] == ModifyByte(s[i], reverse, invert)
  {
    var r := ModifyBuffer(Some(s), reverse, invert).value;
    if |t| == |s| && forall i | 0 <= i < |s| :: t[i] == ModifyByte(s[i], reverse, invert) {
      assert r == t;
    }
  }

  /** With both flags clear a non-empty buffer comes back unchanged. */
  lemma ModifyBufferNoFlags(s: seq<byte>)
    requires |s| > 0
    ensures ModifyBuffer(Some(s), false, false) == Some(s)
  {
    ModifyBufferPointwise(s, s, false, false);
  }

  /** The test buffer of `test_modify_buffer` (tests/test_nand.py:87). */
  function ExampleBuffer(): seq<byte> {
    [0xde, 0x3d, 0x54, 0xd9, 0x9b, 0xfa, 0xd6, 0x65, 0x3b, 0xff]
  }

  /** `test_modify_buffer` without flags, and with an absent buffer
      (tests/test_nand.py:89, 100). */
  lemma ModifyBufferExamplePlain()
    ensures ModifyBuffer(Some(ExampleBuffer()), false, false) == Some(ExampleBuffer())
    ensures ModifyBuffer(None, false, false) == None
  {
    ModifyBufferNoFlags(ExampleBuffer());
  }

  /** `test_modify_buffer`, the `invert` case (tests/test_nand.py:90-99). */
  lemma ModifyBufferExampleInverted()
    ensures ModifyBuffer(Some(ExampleBuffer()), false, true) == Some([0x21, 0xc2, 0xab, 0x26, 0x64, 0x05, 0x29, 0x9a, 0xc4, 0x00])
  {
    assert ModifyByte(0xde, false, true) == 0x21;
    assert ModifyByte(0x3d, false, true) == 0xc2;
    assert ModifyByte(0x54, false, true) == 0xab;
    assert ModifyByte(0xd9, false, true) == 0x26;
    assert ModifyByte(0x9b, false, true) == 0x64;
    assert ModifyByte(0xfa, false, true) == 0x05;
    assert ModifyByte(0xd6, false, true) == 0x29;
    assert ModifyByte(0x65, false, true) == 0x9a;
    assert ModifyByte(0x3b, false, true) == 0xc4;
    assert ModifyByte(0xff, false, true) == 0x00;
    ModifyBufferPointwise(ExampleBuffer(), [0x21, 0xc2, 0xab, 0x26, 0x64, 0x05, 0x29, 0x9a, 0xc4, 0x00], false, true);
  }

  /** `test_modify_buffer`, the `reverse` case (tests/test_nand.py:90-99). */
  lemma ModifyBufferExampleReversed()
    ensures ModifyBuffer(Some(ExampleBuffer()), true, false) == Some([0x7b, 0xbc, 0x2a, 0x9b, 0xd9, 0x5f, 0x6b, 0xa6, 0xdc, 0xff])
  {
    assert ModifyByte(0xde, true, false) == 0x7b;
    assert ModifyByte(0x3d, true, false) == 0xbc;
    assert ModifyByte(0x54, true, false) == 0x2a;
    assert ModifyByte(0xd9, true, false) == 0x9b;
    assert ModifyByte(0x9b, true, false) == 0xd9;
    assert ModifyByte(0xfa, true, false) == 0x5f;
    assert ModifyByte(0xd6, true, false) == 0x6b;
    assert ModifyByte(0x65, true, false) == 0xa6;
    assert ModifyByte(0x3b, true, false) == 0xdc;
    assert ModifyByte(0xff, true, false) == 0xff;
    ModifyBufferPointwise(ExampleBuffer(), [0x7b, 0xbc, 0x2a, 0x9b, 0xd9, 0x5f, 0x6b, 0xa6, 0xdc, 0xff], true, false);
  }

  /** `test_modify_buffer`, both flags (tests/test_nand.py:90-99). */
  lemma ModifyBufferExampleBoth()
    ensures ModifyBuffer(Some(ExampleBuffer()), true, true) == Some([0x84, 0x43, 0xd5, 0x64, 0x26, 0xa0, 0x94, 0x59, 0x23, 0x00])
  {
    assert ModifyByte(0xde, true, true) == 0x84;
    assert ModifyByte(0x3d, true, true) == 0x43;
    assert ModifyByte(0x54, true, true) == 0xd5;
    assert ModifyByte(0xd9, true, true) == 0x64;
    assert ModifyByte(0x9b, true, true) == 0x26;
    assert ModifyByte(0xfa, true, true) == 0xa0;
    assert ModifyByte(0xd6, true, true) == 0x94;
    assert ModifyByte(0x65, true, true) == 0x59;
    assert ModifyByte(0x3b, true, true) == 0x23;
    assert ModifyByte(0xff, true, true) == 0x00;
    ModifyBufferPointwise(ExampleBuffer(), [0x84, 0x43, 0xd5, 0x64, 0x26, 0xa0, 0x94, 0x59, 0x23, 0x00], true, true);
  }

  // ---------------------------------------------------------------------------
  // Nibble shift. The source shifts through the hexadecimal text of the buffer:
  // `bytes.fromhex(ecc.hex()[1:] + "0")` and `bytes.fromhex("0" + ecc.hex()[:-1])`.

  /** One hexadecimal digit. */
  type Nibble = x: byte | x < 16

  /** `b.hex()` as a sequence of digits, high nibble first. */
  function Hex(b: seq<byte>): (h: seq<Nibble>)
    ensures |h| == 2 * |b|
  {
    if |b| == 0 then [] else [b[0] >> 4, b[0] & 0x0F] + Hex(b[1..])
  }

  /** Digit `2i` of `b.hex()` is the high nibble of byte `i`, digit `2i + 1` its low nibble. */
  lemma {:induction false} HexDigits(b: seq<byte>)
    ensures forall i | 0 <= i < |b| :: Hex(b)[2 * i] == b[i] >> 4 && Hex(b)[2 * i + 1] == b[i] & 0x0F
  {
    if |b| > 0 {
      HexDigits(b[1..]);
      var h := Hex(b);
      var t := Hex(b[1..]);
      forall i | 1 <= i < |b|
        ensures h[2 * i] == b[i] >> 4 && h[2 * i + 1] == b[i] & 0x0F
      {
        assert h[2 * i] == t[2 * (i - 1)] && h[2 * i + 1] == t[2 * (i - 1) + 1];
      }
    }
  }

  /** `bytes.fromhex(h)`: fails on an odd number of digits, otherwise packs each
      pair of digits into one byte. */
  function FromHex(h: seq<Nibble>): (r: Option<seq<byte>>)
    ensures r.None? <==> |h| % 2 == 1
    ensures r.Some? ==> |r.value| == |h| / 2
  {
    if |h| == 0 then Some([])
    else if |h| == 1 then None
    else
      match FromHex(h[2..])
      case None => None
      case Some(t) => Some([((h[0] as byte) << 4) | (h[1] as byte)] + t)
  }

  /** Byte `i` of `bytes.fromhex(h)` packs digits `2i` and `2i + 1`. */
  lemma {:induction false} FromHexBytes(h: seq<Nibble>)
    requires |h| % 2 == 0
    ensures forall i | 0 <= i < |h| / 2 ::
      FromHex(h).value[i] == ((h[2 * i] as byte) << 4) | (h[2 * i + 1] as byte)
  {
    if |h| > 0 {
      FromHexBytes(h[2..]);
      var r := FromHex(h).value;
      var t := FromHex(h[2..]).value;
      forall i | 1 <= i < |h| / 2
        ensures r[i] == ((h[2 * i] as byte) << 4) | (h[2 * i + 1] as byte)
      {
        assert r[i] == t[i - 1];
        assert h[2 * i] == h[2..][2 * (i - 1)] && h[2 * i + 1] == h[2..][2 * (i - 1) + 1];
      }
    }
  }

  /** Python's `s[1:]` on the digit string. */
  function DropFirst(h: seq<Nibble>): seq<Nibble> {
    if |h| == 0 then [] else h[1..]
  }

  /** Python's `s[:-1]` on the digit string. */
  function DropLast(h: seq<Nibble>): seq<Nibble> {
    if |h| == 0 then [] else h[..|h| - 1]
  }

  /** Nibble shift to the left (nandtool/nand.py:122). An empty buffer yields the
      single digit "0", which `bytes.fromhex` rejects. */
  function ShiftLeft(b: seq<byte>): (r: Option<seq<byte>>)
    ensures r.None? <==> |b| == 0
    ensures r.Some? ==> |r.value| == |b|
  {
    var h := Hex(b);
    var shifted := DropFirst(h) + [0];
    assert |h| == 2 * |b|;
    assert |b| > 0 ==> |DropFirst(h)| == 2 * |b| - 1;
    assert |b| > 0 ==> |shifted| == 2 * |b|;
    assert |b| > 0 ==> |shifted| % 2 == 0;
    assert |b| == 0 ==> |shifted| == 1;
    FromHex(shifted)
  }

  /** Nibble shift to the right (nandtool/nand.py:141). */
  function ShiftRight(b: seq<byte>): (r: Option<seq<byte>>)
    ensures r.None? <==> |b| == 0
    ensures r.Some? ==> |r.value| == |b|
  {
    var h := Hex(b);
    var shifted := [0] + DropLast(h);
    assert |h| == 2 * |b|;
    assert |b| > 0 ==> |DropLast(h)| == 2 * |b| - 1;
    assert |b| > 0 ==> |shifted| == 2 * |b|;
    assert |b| > 0 ==> |shifted| % 2 == 0;
    assert |b| == 0 ==> |shifted| == 1;
    FromHex(shifted)
  }

  /** Byte by byte, the left shift takes the low nibble of each byte and the high
      nibble of the next one; the last byte receives a zero low nibble. */
  lemma ShiftLeftBytes(b: seq<byte>)
    requires |b| > 0
    ensures var r := ShiftLeft(b).value;
      && (forall i | 0 <= i < |b| - 1 :: r[i] == (b[i] << 4) | (b[i + 1] >> 4))
      && r[|b| - 1] == b[|b| - 1] << 4
  {
    var h := Hex(b);
    var h' := DropFirst(h) + [0];
    var r := ShiftLeft(b).value;
    HexDigits(b);
    FromHexBytes(h');
    forall i | 0 <= i < |b| - 1
      ensures r[i] == (b[i] << 4) | (b[i + 1] >> 4)
    {
      assert h'[2 * i] == h[2 * i + 1] && h'[2 * i + 1] == h[2 * (i + 1)];
    }
    assert h'[2 * (|b| - 1)] == h[2 * (|b| - 1) + 1];
  }

  /** Byte by byte, the right shift gives the first byte a zero high nibble and
      moves every other byte's high nibble in from the previous byte. */
  lemma ShiftRightBytes(b: seq<byte>)
    requires |b| > 0
    ensures var r := ShiftRight(b).value;
      && r[0] == b[0] >> 4
      && (forall i | 1 <= i < |b| :: r[i] == (b[i - 1] << 4) | (b[i] >> 4))
  {
    var h := Hex(b);
    var h' := [0] + DropLast(h);
    var r := ShiftRight(b).value;
    HexDigits(b);
    FromHexBytes(h');
    forall i | 1 <= i < |b|
      ensures r[i] == (b[i - 1] << 4) | (b[i] >> 4)
    {
      assert h'[2 * i] == h[2 * (i - 1) + 1] && h'[2 * i + 1] == h[2 * i];
    }
    assert h'[1] == h[0];
  }

  /** Shifting back after shifting out restores every byte except the high nibble
      of the first one, which is lost and comes back as zero. */
  lemma ShiftRoundTrip(b: seq<byte>)
    requires |b| > 0
    ensures ShiftLeft(b).Some?
    ensures ShiftRight(ShiftLeft(b).value) == Some(b[0 := b[0] & 0x0F])
  {
    var l := ShiftLeft(b).value;
    var r := ShiftRight(l).value;
    ShiftLeftBytes(b);
    ShiftRightBytes(l);
    var want := b[0 := b[0] & 0x0F];
    forall i | 0 <= i < |b|
      ensures r[i] == want[i]
    {
      if i == 0 {
        if |b| > 1 {
          assert l[0] == (b[0] << 4) | (b[1] >> 4);
        } else {
          assert l[0] == b[0] << 4;
        }
      } else {
        assert r[i] == (l[i - 1] << 4) | (l[i] >> 4);
        if i < |b| - 1 {
          assert l[i] == (b[i] << 4) | (b[i + 1] >> 4);
        } else {
          assert l[i] == b[i] << 4;
        }
        assert l[i - 1] == (b[i - 1] << 4) | (b[i] >> 4);
      }
    }
    assert r == want;
  }
}

=== FILE: chunk.dfy ===
/** `bch_correct_chunk` (nandtool/nand.py:116-145): transform one chunk's data and
    parity buffers, ask the codec for a verdict, repair when it found flips, and
    undo the transforms. The `corrected_bits` counter is threaded through as
    `bits`. */
module ChunkCorrection {
  import opened Outcomes
  import opened ByteBuf
  import opened Bch
  import opened Layouts

  /** What the call returns, `(data, ecc, uncorrectable)`, with the counter after it. */
  datatype ChunkOutcome = ChunkOutcome(data: Buf, ecc: Buf, uncorrectable: bool, bits: int)

  /** The buffers handed to `decode` (nandtool/nand.py:119-122). The configured
      flags go in positionally as `(buffer, *_invert, *_reverse)`, so the
      `invert` flag of the layout selects bit reversal and the `reverse` flag
      selects inversion. An empty buffer becomes `None`: a `None` parity buffer
      has no `.hex()`, and `None` is not a buffer the decoder can read. */
  function DecoderInput(layout: Layout, data: seq<byte>, ecc: seq<byte>): (r: Result<(seq<byte>, seq<byte>)>)
    ensures r.Success? <==> |data| > 0 && |ecc| > 0
    ensures r.Failure? ==> r.fault == (if |ecc| == 0 && layout.leftShift == 4 then HexOfNone else NoneToDecoder)
    ensures r.Success? ==> |r.value.0| == |data| && |r.value.1| == |ecc|
    ensures r.Success? ==> forall i | 0 <= i < |data| ::
      r.value.0[i] == ModifyByte(data[i], layout.dataInvert, layout.dataReverse)
    ensures r.Success? && layout.leftShift != 4 ==> forall i | 0 <= i < |ecc| ::
      r.value.1[i] == ModifyByte(ecc[i], layout.eccInvert, layout.eccReverse)
    ensures r.Success? && layout.leftShift == 4 ==>
      Some(r.value.1) == ShiftLeft(ModifyBuffer(Some(ecc), layout.eccInvert, layout.eccReverse).value)
  {
    var ecc1 := ModifyBuffer(Some(ecc), layout.eccInvert, layout.eccReverse);
    var data1 := ModifyBuffer(Some(data), layout.dataInvert, layout.dataReverse);
    var ecc2 :- if layout.leftShift != 4 then Success(ecc1)
                else if ecc1.None? then Failure(HexOfNone)
                else Success(ShiftLeft(ecc1.value));
    if data1.None? || ecc2.None? then Failure(NoneToDecoder)
    else Success((data1.value, ecc2.value))
  }

  /** The swap spelled out: the layout's `invert` flag bit-reverses each byte and
      its `reverse` flag inverts it, inversion being applied first. */
  lemma DecoderFlagsSwapped(layout: Layout, data: seq<byte>, ecc: seq<byte>)
    requires DecoderInput(layout, data, ecc).Success?
    ensures forall i | 0 <= i < |data| ::
      var x := if layout.dataReverse then Invert(data[i]) else data[i];
      DecoderInput(layout, data, ecc).value.0[i] == if layout.dataInvert then Reverse(x) else x
    ensures layout.leftShift != 4 ==> forall i | 0 <= i < |ecc| ::
      var x := if layout.eccReverse then Invert(ecc[i]) else ecc[i];
      DecoderInput(layout, data, ecc).value.1[i] == if layout.eccInvert then Reverse(x) else x
  {
  }

  /** The swap in the section's own key names: in a layout built from a section,
      `ecc_protected_data_reverse` inverts each data byte and
      `ecc_protected_data_invert` bit-reverses it, and likewise `ecc_reverse` and
      `ecc_invert` for the parity bytes. */
  lemma ConfFlagsSwapped(conf: LayoutConf, codecFor: (int, int) -> Codec, data: seq<byte>, ecc: seq<byte>)
    requires DecoderInput(FromConf(conf, codecFor), data, ecc).Success?
    ensures forall i | 0 <= i < |data| ::
      var x := if conf.eccProtectedDataReverse then Invert(data[i]) else data[i];
      DecoderInput(FromConf(conf, codecFor), data, ecc).value.0[i]
        == if conf.eccProtectedDataInvert then Reverse(x) else x
    ensures conf.leftShiftEccBuf != 4 ==> forall i | 0 <= i < |ecc| ::
      var x := if conf.eccReverse then Invert(ecc[i]) else ecc[i];
      DecoderInput(FromConf(conf, codecFor), data, ecc).value.1[i]
        == if conf.eccInvert then Reverse(x) else x
  {
    DecoderFlagsSwapped(FromConf(conf, codecFor), data, ecc);
  }

  /** The undo of the nibble shift (nandtool/nand.py:141): `bytes.fromhex` rejects
      the single digit left over from an empty buffer. */
  function ShiftBack(ecc: seq<byte>): (r: Result<seq<byte>>)
    ensures r.Success? <==> |ecc| > 0
    ensures r.Success? ==> |r.value| == |ecc|
  {
    match ShiftRight(ecc)
    case Some(e) => Success(e)
    case None => Failure(OddLengthHex)
  }

  /** The verdict of `decode` on a chunk whose buffers reach the decoder. */
  function DecodeVerdict(layout: Layout, data: seq<byte>, ecc: seq<byte>): Verdict
    requires layout.bch.Some?
    requires DecoderInput(layout, data, ecc).Success?
  {
    var input := DecoderInput(layout, data, ecc).value;
    layout.bch.value.decode(input.0, input.1)
  }

  /** `bch_correct_chunk(data, ecc)`. The chunk is uncorrectable exactly when
      `decode` reported -1, and the counter grows by the flip count exactly when
      that count is positive. */
  function BchCorrectChunk(layout: Layout, data: seq<byte>, ecc: seq<byte>, bits: int): (r: Result<ChunkOutcome>)
    requires layout.bch.Some?
    ensures r.Success? ==> DecoderInput(layout, data, ecc).Success?
    ensures DecoderInput(layout, data, ecc).Failure? ==> r == Failure(DecoderInput(layout, data, ecc).fault)
    ensures r.Failure? ==> r.fault.HexOfNone? || r.fault.NoneToDecoder? || r.fault.OddLengthHex?
    ensures r.Success? ==>
      (r.value.uncorrectable <==> DecodeVerdict(layout, data, ecc) == Uncorrectable)
    ensures r.Success? ==>
      r.value.bits == bits + (if Repairs(DecodeVerdict(layout, data, ecc))
                              then DecodeVerdict(layout, data, ecc).count else 0)
  {
    var input :- DecoderInput(layout, data, ecc);
    var codec := layout.bch.value;
    var verdict := codec.decode(input.0, input.1);
    var fixed := if Repairs(verdict) then codec.correct(input.0, input.1) else input;
    var bits' := if Repairs(verdict) then bits + verdict.count else bits;
    var ecc3 :- if layout.leftShift == 4 then ShiftBack(fixed.1) else Success(fixed.1);
    Success(ChunkOutcome(
      ModifyBuffer(Some(fixed.0), layout.dataInvert, layout.dataReverse),
      ModifyBuffer(Some(ecc3), layout.eccInvert, layout.eccReverse),
      verdict == Uncorrectable,
      bits'))
  }

  /** The counter is only added to: the call with any starting count is the call
      from zero, shifted by that count. */
  lemma ChunkBitsShift(layout: Layout, data: seq<byte>, ecc: seq<byte>, bits: int)
    requires layout.bch.Some?
    ensures var r := BchCorrectChunk(layout, data, ecc, bits);
      var z := BchCorrectChunk(layout, data, ecc, 0);
      && r.Success? == z.Success?
      && (r.Failure? ==> r.fault == z.fault)
      && (r.Success? ==> r.value == z.value.(bits := bits + z.value.bits))
  {
  }

  /** With a length-preserving codec, two non-empty buffers always come back, and
      with their input lengths. */
  lemma ChunkPreservesLengths(layout: Layout, data: seq<byte>, ecc: seq<byte>, bits: int)
    requires layout.bch.Some? && LengthPreserving(layout.bch.value)
    requires |data| > 0 && |ecc| > 0
    ensures var r := BchCorrectChunk(layout, data, ecc, bits);
      && r.Success?
      && r.value.data.Some? && |r.value.data.value| == |data|
      && r.value.ecc.Some? && |r.value.ecc.value| == |ecc|
  {
    var input := DecoderInput(layout, data, ecc).value;
    var codec := layout.bch.value;
    var fixed := if Repairs(codec.decode(input.0, input.1)) then codec.correct(input.0, input.1) else input;
    assert |fixed.0| == |data| && |fixed.1| == |ecc|;
  }

  /** When `decode` reports flips, `correct` repairs the buffers the decoder saw,
      and the chunk returns its repair with the shift and the transforms undone:
      transforming the returned buffers again gives back `correct`'s data and
      parity, the parity shifted right under the nibble shift. */
  lemma ChunkRepaired(layout: Layout, data: seq<byte>, ecc: seq<byte>, bits: int)
    requires layout.bch.Some? && LengthPreserving(layout.bch.value)
    requires |data| > 0 && |ecc| > 0
    requires Repairs(DecodeVerdict(layout, data, ecc))
    ensures var r := BchCorrectChunk(layout, data, ecc, bits);
      var input := DecoderInput(layout, data, ecc).value;
      var fixed := layout.bch.value.correct(input.0, input.1);
      && r.Success? && !r.value.uncorrectable
      && ModifyBuffer(r.value.data, layout.dataInvert, layout.dataReverse) == Some(fixed.0)
      && (layout.leftShift != 4 ==>
            ModifyBuffer(r.value.ecc, layout.eccInvert, layout.eccReverse) == Some(fixed.1))
      && (layout.leftShift == 4 ==>
            ModifyBuffer(r.value.ecc, layout.eccInvert, layout.eccReverse) == ShiftRight(fixed.1))
  {
    var input := DecoderInput(layout, data, ecc).value;
    var fixed := layout.bch.value.correct(input.0, input.1);
    assert |fixed.0| == |data| && |fixed.1| == |ecc|;
    ModifyBufferInvolution(fixed.0, layout.dataInvert, layout.dataReverse);
    if layout.leftShift == 4 {
      ModifyBufferInvolution(ShiftRight(fixed.1).value, layout.eccInvert, layout.eccReverse);
    } else {
      ModifyBufferInvolution(fixed.1, layout.eccInvert, layout.eccReverse);
    }
  }

  /** When `decode` reports no flips or an uncorrectable codeword, `correct` is not
      called and the transforms are undone exactly: the data comes back unchanged,
      and so does the parity unless it was nibble-shifted. Under the shift every
      parity byte but the first comes back; the first loses the high nibble of its
      TRANSFORMED value, so which bits of the original byte are lost depends on the
      flags. */
  lemma ChunkUntouchedWithoutRepair(layout: Layout, data: seq<byte>, ecc: seq<byte>, bits: int)
    requires layout.bch.Some?
    requires |data| > 0 && |ecc| > 0
    requires !Repairs(DecodeVerdict(layout, data, ecc))
    ensures var r := BchCorrectChunk(layout, data, ecc, bits);
      && r.Success?
      && r.value.bits == bits
      && r.value.data == Some(data)
      && (layout.leftShift != 4 ==> r.value.ecc == Some(ecc))
      && r.value.ecc.Some? && |r.value.ecc.value| == |ecc|
      && (forall i | 1 <= i < |ecc| :: r.value.ecc.value[i] == ecc[i])
      && (layout.leftShift == 4 ==> r.value.ecc.value[0] == ModifyByte(
            ModifyByte(ecc[0], layout.eccInvert, layout.eccReverse) & 0x0F, layout.eccInvert, layout.eccReverse))
  {
    var r := BchCorrectChunk(layout, data, ecc, bits).value;
    ModifyBufferInvolution(data, layout.dataInvert, layout.dataReverse);
    ModifyBufferInvolution(ecc, layout.eccInvert, layout.eccReverse);
    var ecc1 := ModifyBuffer(Some(ecc), layout.eccInvert, layout.eccReverse).value;
    if layout.leftShift == 4 {
      ShiftRoundTrip(ecc1);
      var back := ecc1[0 := ecc1[0] & 0x0F];
      assert r.ecc == ModifyBuffer(Some(back), layout.eccInvert, layout.eccReverse);
      forall i | 1 <= i < |ecc|
        ensures r.ecc.value[i] == ecc[i]
      {
        assert back[i] == ecc1[i];
        ModifyByteInvolution(ecc[i], layout.eccInvert, layout.eccReverse);
      }
    }
  }
}

=== FILE: config.dfy ===
/** `check_and_augment_conf` (nandtool/config.py:22-62): resolve every listed
    partition's layout section, compute its block size, resolve the `ecc_algorithm`
    and `etfs` references, and fill in the optional fields. The configuration is
    typed: sections of each kind live in their own map, and an optional field that
    the file leaves out is `None`. */
module Config {
  import opened Outcomes
  import opened Bch
  import opened Layouts
  import opened Partition

  /** A reference to another section: its name, or the section written in place. */
  datatype Ref<T> = ByName(name: string) | Inline(value: T)

  /** A layout section as the file gives it. */
  datatype RawLayout = RawLayout(
    pagesize: int,
    oobsize: int,
    pagesPerBlock: int,
    blocksize: Option<int>,
    ecc: Option<seq<Chunk>>,
    eccProtectedData: Option<seq<Chunk>>,
    userData: seq<Chunk>,
    leftShiftEccBuf: Option<int>,
    eccProtectedDataReverse: Option<bool>,
    eccProtectedDataInvert: Option<bool>,
    eccReverse: Option<bool>,
    eccInvert: Option<bool>,
    eccStrict: Option<bool>,
    etfs: Option<Ref<EtfsLayout>>,
    eccAlgorithm: Option<Ref<EccAlgorithm>>)

  /** A partition section: its layout and its inclusive block range. */
  datatype RawPart = RawPart(layout: Ref<RawLayout>, startblock: int, endblock: int)

  /** The loaded settings: the partition names in order and the sections by name. */
  datatype Settings = Settings(
    partitions: seq<string>,
    parts: map<string, RawPart>,
    layouts: map<string, RawLayout>,
    algorithms: map<string, EccAlgorithm>,
    etfsSections: map<string, EtfsLayout>)

  /** nandtool/config.py:30-38 and 44-48: a reference by name is looked up, a
      section written in place is kept, and an absent reference stays absent. The
      `ecc_algorithm` and `etfs` fields are both resolved this way. */
  function Resolve<T>(sections: map<string, T>, r: Option<Ref<T>>): (a: Result<Option<T>>)
    ensures a.Failure? <==> r.Some? && r.value.ByName? && r.value.name !in sections
    ensures a.Failure? ==> a.fault == MissingKey(r.value.name)
    ensures a.Success? ==> (a.value.Some? <==> r.Some?)
    ensures a.Success? && r.Some? ==>
      a.value.value == (if r.value.ByName? then sections[r.value.name] else r.value.value)
  {
    match r
    case None => Success(None)
    case Some(Inline(v)) => Success(Some(v))
    case Some(ByName(n)) => if n in sections then Success(Some(sections[n])) else Failure(MissingKey(n))
  }

  /** The augmentation of one layout section (nandtool/config.py:27-62). It fails
      exactly when a referenced algorithm or ETFS section does not exist, the
      algorithm's name reported first; the block size is always recomputed from
      the page geometry. */
  function AugmentLayout(s: Settings, raw: RawLayout): (r: Result<LayoutConf>)
    ensures r.Success? <==>
      Resolve(s.algorithms, raw.eccAlgorithm).Success? && Resolve(s.etfsSections, raw.etfs).Success?
    ensures Resolve(s.algorithms, raw.eccAlgorithm).Failure? ==>
      r == Failure(Resolve(s.algorithms, raw.eccAlgorithm).fault)
    ensures r.Success? ==> r.value.blocksize == (raw.pagesize + raw.oobsize) * raw.pagesPerBlock
  {
    var algorithm :- Resolve(s.algorithms, raw.eccAlgorithm);
    var etfs :- Resolve(s.etfsSections, raw.etfs);
    Success(LayoutConf(
      (raw.pagesize + raw.oobsize) * raw.pagesPerBlock,
      raw.pagesize, raw.oobsize, raw.pagesPerBlock,
      raw.ecc, raw.eccProtectedData, raw.userData,
      raw.leftShiftEccBuf.GetOr(0),
      raw.eccProtectedDataReverse.GetOr(false),
      raw.eccProtectedDataInvert.GetOr(false),
      raw.eccReverse.GetOr(false),
      raw.eccInvert.GetOr(false),
      raw.eccStrict.GetOr(true),
      etfs, algorithm))
  }

  /** An augmented layout written back as a section: every field present and both
      references resolved in place. This is what the source leaves behind in the
      settings, which later partitions sharing the section then read. */
  function ToRaw(conf: LayoutConf): RawLayout {
    RawLayout(
      conf.pagesize, conf.oobsize, conf.pagesPerBlock, Some(conf.blocksize),
      conf.ecc, conf.eccProtectedData, conf.userData,
      Some(conf.leftShiftEccBuf),
      Some(conf.eccProtectedDataReverse), Some(conf.eccProtectedDataInvert),
      Some(conf.eccReverse), Some(conf.eccInvert), Some(conf.eccStrict),
      match conf.etfs case Some(e) => Some(Inline(e)) case None => None,
      match conf.eccAlgorithm case Some(a) => Some(Inline(a)) case None => None)
  }

  /** `conf` keeps every optional field `raw` sets, references resolved. */
  ghost predicate Keeps(s: Settings, raw: RawLayout, conf: LayoutConf) {
    && conf.pagesize == raw.pagesize && conf.oobsize == raw.oobsize
    && conf.pagesPerBlock == raw.pagesPerBlock && conf.userData == raw.userData
    && conf.ecc == raw.ecc && conf.eccProtectedData == raw.eccProtectedData
    && (raw.leftShiftEccBuf.Some? ==> conf.leftShiftEccBuf == raw.leftShiftEccBuf.value)
    && (raw.eccProtectedDataReverse.Some? ==> conf.eccProtectedDataReverse == raw.eccProtectedDataReverse.value)
    && (raw.eccProtectedDataInvert.Some? ==> conf.eccProtectedDataInvert == raw.eccProtectedDataInvert.value)
    && (raw.eccReverse.Some? ==> conf.eccReverse == raw.eccReverse.value)
    && (raw.eccInvert.Some? ==> conf.eccInvert == raw.eccInvert.value)
    && (raw.eccStrict.Some? ==> conf.eccStrict == raw.eccStrict.value)
    && (raw.eccAlgorithm.Some? && raw.eccAlgorithm.value.Inline? ==>
          conf.eccAlgorithm == Some(raw.eccAlgorithm.value.value))
    && (raw.eccAlgorithm.Some? && raw.eccAlgorithm.value.ByName? ==>
          raw.eccAlgorithm.value.name in s.algorithms
          && conf.eccAlgorithm == Some(s.algorithms[raw.eccAlgorithm.value.name]))
    && (raw.etfs.Some? && raw.etfs.value.Inline? ==> conf.etfs == Some(raw.etfs.value.value))
    && (raw.etfs.Some? && raw.etfs.value.ByName? ==>
          raw.etfs.value.name in s.etfsSections && conf.etfs == Some(s.etfsSections[raw.etfs.value.name]))
  }

  /** `conf` takes the documented default for every optional field `raw` leaves out. */
  predicate Defaults(raw: RawLayout, conf: LayoutConf) {
    && (raw.leftShiftEccBuf.None? ==> conf.leftShiftEccBuf == 0)
    && (raw.eccProtectedDataReverse.None? ==> !conf.eccProtectedDataReverse)
    && (raw.eccProtectedDataInvert.None? ==> !conf.eccProtectedDataInvert)
    && (raw.eccReverse.None? ==> !conf.eccReverse)
    && (raw.eccInvert.None? ==> !conf.eccInvert)
    && (raw.eccStrict.None? ==> conf.eccStrict)
    && (raw.eccAlgorithm.None? ==> conf.eccAlgorithm.None?)
    && (raw.etfs.None? ==> conf.etfs.None?)
  }

  /** Augmentation only fills in: what the section sets is kept, what it leaves out
      takes its default, and the written-back section sets every flag. */
  lemma AugmentFillsIn(s: Settings, raw: RawLayout)
    requires AugmentLayout(s, raw).Success?
    ensures Keeps(s, raw, AugmentLayout(s, raw).value)
    ensures Defaults(raw, AugmentLayout(s, raw).value)
    ensures var back := ToRaw(AugmentLayout(s, raw).value);
      && back.blocksize.Some? && back.leftShiftEccBuf.Some? && back.eccStrict.Some?
      && back.eccProtectedDataReverse.Some? && back.eccProtectedDataInvert.Some?
      && back.eccReverse.Some? && back.eccInvert.Some?
  {
  }

  /** Augmenting a section a second time, against any settings, changes nothing: a
      partition that shares an already augmented layout reads the same layout. */
  lemma AugmentIdempotent(s: Settings, t: Settings, raw: RawLayout)
    requires AugmentLayout(s, raw).Success?
    ensures AugmentLayout(t, ToRaw(AugmentLayout(s, raw).value)) == AugmentLayout(s, raw)
  {
  }

  /** The recomputed block size is the raw page size times the pages per block,
      the geometry the partition engine's offset arithmetic relies on. */
  lemma AugmentedBlocksize(s: Settings, raw: RawLayout, codecFor: (int, int) -> Codec)
    requires AugmentLayout(s, raw).Success?
    ensures var l := FromConf(AugmentLayout(s, raw).value, codecFor);
      l.blocksize == l.RawPageSize() * l.pagesPerBlock
  {
  }

  /** The section partition `n` ends up with. */
  ghost predicate Resolvable(s: Settings, n: string) {
    && n in s.parts
    && s.parts[n].layout.ByName?
    && s.parts[n].layout.name in s.layouts
    && AugmentLayout(s, s.layouts[s.parts[n].layout.name]).Success?
  }

  /** The augmented section of a resolvable partition. */
  function Expected(s: Settings, n: string): (c: PartConf)
    requires Resolvable(s, n)
    ensures c.startblock == s.parts[n].startblock && c.endblock == s.parts[n].endblock
  {
    var part := s.parts[n];
    PartConf(AugmentLayout(s, s.layouts[part.layout.name]).value, part.startblock, part.endblock)
  }

  /** The loop of nandtool/config.py:24-62 from the current settings `s`; `acc`
      holds the sections augmented so far, as `NAND` will read them. The
      partition's layout is replaced by the augmented section in place, so a
      partition listed a second time no longer names its layout. */
  function AugmentFrom(names: seq<string>, s: Settings, acc: map<string, PartConf>): (r: Result<map<string, PartConf>>)
    ensures r.Success? ==> r.value.Keys == acc.Keys + (set n | n in names)
    decreases |names|
  {
    if |names| == 0 then Success(acc)
    else
      var n := names[0];
      if n !in s.parts then Failure(MissingKey(n))
      else
        var part := s.parts[n];
        match part.layout
        case Inline(_) => Failure(KeyNotAName)
        case ByName(l) =>
          if l !in s.layouts then Failure(MissingKey(l))
          else
            var conf :- AugmentLayout(s, s.layouts[l]);
            var back := ToRaw(conf);
            var s' := s.(parts := s.parts[n := part.(layout := Inline(back))], layouts := s.layouts[l := back]);
            AugmentFrom(names[1..], s', acc[n := PartConf(conf, part.startblock, part.endblock)])
  }

  /** `check_and_augment_conf(settings)`: the augmented section of every listed
      partition. */
  function CheckAndAugmentConf(s: Settings): (r: Result<map<string, PartConf>>)
    ensures r.Success? ==> r.value.Keys == set n | n in s.partitions
  {
    AugmentFrom(s.partitions, s, map[])
  }

  /** The loop's settings stay equivalent to the original ones `s0`: the same
      algorithm and ETFS sections, every layout either untouched or replaced by its
      own augmentation, and every partition not yet visited untouched. */
  ghost predicate Tracks(s0: Settings, s: Settings, done: set<string>) {
    && s.algorithms == s0.algorithms
    && s.etfsSections == s0.etfsSections
    && s.layouts.Keys == s0.layouts.Keys
    && (forall l | l in s0.layouts ::
          || s.layouts[l] == s0.layouts[l]
          || (AugmentLayout(s0, s0.layouts[l]).Success? && s.layouts[l] == ToRaw(AugmentLayout(s0, s0.layouts[l]).value)))
    && s.parts.Keys == s0.parts.Keys
    && (forall n | n in s0.parts && n !in done :: s.parts[n] == s0.parts[n])
    && (forall n | n in done && n in s.parts :: s.parts[n].layout.Inline?)
  }

  /** Reading a layout section from the loop's settings gives what the original
      section gives. */
  lemma TrackedLayout(s0: Settings, s: Settings, done: set<string>, l: string)
    requires Tracks(s0, s, done)
    requires l in s0.layouts
    ensures AugmentLayout(s, s.layouts[l]) == AugmentLayout(s0, s0.layouts[l])
  {
    if s.layouts[l] != s0.layouts[l] {
      AugmentIdempotent(s0, s, s0.layouts[l]);
    }
  }

  /** The names in `names` are all distinct and none is in `done`. */
  ghost predicate Fresh(names: seq<string>, done: set<string>) {
    forall i | 0 <= i < |names| :: names[i] !in done && forall j | 0 <= j < i :: names[j] != names[i]
  }

  /** Visiting the first name: the rest must be fresh with respect to the names
      done so far and the first one. */
  lemma FreshStep(names: seq<string>, done: set<string>)
    requires |names| > 0
    ensures Fresh(names, done) <==> names[0] !in done && Fresh(names[1..], done + {names[0]})
  {
    if Fresh(names, done) {
      forall i | 0 <= i < |names[1..]|
        ensures names[1..][i] !in done + {names[0]}
      {
        assert names[1..][i] == names[i + 1];
      }
    }
    if names[0] !in done && Fresh(names[1..], done + {names[0]}) {
      forall i | 0 <= i < |names|
        ensures names[i] !in done && forall j | 0 <= j < i :: names[j] != names[i]
      {
        if i > 0 {
          assert names[i] == names[1..][i - 1];
          forall j | 0 <= j < i
            ensures names[j] != names[i]
          {
            if j > 0 {
              assert names[j] == names[1..][j - 1];
            }
          }
        }
      }
    }
  }

  /** Writing a partition's augmented section back keeps the settings tracked. */
  lemma TracksStep(s0: Settings, s: Settings, done: set<string>, n: string)
    requires Tracks(s0, s, done)
    requires n in s.parts && n !in done && s.parts[n].layout.ByName? && s.parts[n].layout.name in s.layouts
    requires AugmentLayout(s, s.layouts[s.parts[n].layout.name]).Success?
    ensures var part := s.parts[n];
      var l := part.layout.name;
      var back := ToRaw(AugmentLayout(s, s.layouts[l]).value);
      Tracks(s0, s.(parts := s.parts[n := part.(layout := Inline(back))], layouts := s.layouts[l := back]), done + {n})
  {
    TrackedLayout(s0, s, done, s.parts[n].layout.name);
  }

  /** One successful visit: the loop goes on from tracked settings, with the
      visited partition's section recorded. */
  lemma Visit(s0: Settings, names: seq<string>, s: Settings, acc: map<string, PartConf>)
      returns (s': Settings, acc': map<string, PartConf>)
    requires Tracks(s0, s, acc.Keys)
    requires |names| > 0 && names[0] !in acc && Resolvable(s0, names[0])
    ensures Tracks(s0, s', acc'.Keys)
    ensures acc' == acc[names[0] := Expected(s0, names[0])]
    ensures AugmentFrom(names, s, acc) == AugmentFrom(names[1..], s', acc')
  {
    var n := names[0];
    var part := s.parts[n];
    var l := part.layout.name;
    TrackedLayout(s0, s, acc.Keys, l);
    var c := AugmentLayout(s, s.layouts[l]);
    var back := ToRaw(c.value);
    s' := s.(parts := s.parts[n := part.(layout := Inline(back))], layouts := s.layouts[l := back]);
    acc' := acc[n := PartConf(c.value, part.startblock, part.endblock)];
    TracksStep(s0, s, acc.Keys, n);
    assert acc'.Keys == acc.Keys + {n};
  }

  /** The loop succeeds exactly when the names left are fresh and each resolves
      against the original settings. */
  lemma {:induction false} AugmentFromAccepts(s0: Settings, names: seq<string>, s: Settings, acc: map<string, PartConf>)
    requires Tracks(s0, s, acc.Keys)
    ensures AugmentFrom(names, s, acc).Success? <==> Fresh(names, acc.Keys) && forall n | n in names :: Resolvable(s0, n)
    decreases |names|
  {
    if |names| > 0 {
      if names[0] !in acc && Resolvable(s0, names[0]) {
        var s', acc' := Visit(s0, names, s, acc);
        AugmentFromAccepts(s0, names[1..], s', acc');
        Accept(s0, names, s, acc, s', acc');
      } else {
        Reject(s0, names, s, acc);
      }
    }
  }

  /** Every name resolves exactly when the first one and all the others do. */
  lemma AllResolvableStep(s0: Settings, names: seq<string>)
    requires |names| > 0
    ensures (forall n | n in names :: Resolvable(s0, n))
            <==> Resolvable(s0, names[0]) && forall n | n in names[1..] :: Resolvable(s0, n)
  {
    assert forall m | m in names :: m == names[0] || m in names[1..];
  }

  /** A first name visited for the first time and resolvable: the loop succeeds
      exactly when it succeeds on the rest from the updated state. */
  lemma Accept(s0: Settings, names: seq<string>, s: Settings, acc: map<string, PartConf>,
               s': Settings, acc': map<string, PartConf>)
    requires |names| > 0 && names[0] !in acc && Resolvable(s0, names[0])
    requires acc'.Keys == acc.Keys + {names[0]}
    requires AugmentFrom(names, s, acc) == AugmentFrom(names[1..], s', acc')
    requires AugmentFrom(names[1..], s', acc').Success?
             <==> Fresh(names[1..], acc'.Keys) && forall n | n in names[1..] :: Resolvable(s0, n)
    ensures AugmentFrom(names, s, acc).Success? <==> Fresh(names, acc.Keys) && forall n | n in names :: Resolvable(s0, n)
  {
    FreshStep(names, acc.Keys);
    AllResolvableStep(s0, names);
  }

  /** The loop stops at a first name visited before or not resolvable against the
      original settings, and then the names are not all fresh and resolvable. */
  lemma Reject(s0: Settings, names: seq<string>, s: Settings, acc: map<string, PartConf>)
    requires Tracks(s0, s, acc.Keys)
    requires |names| > 0 && (names[0] in acc || !Resolvable(s0, names[0]))
    ensures AugmentFrom(names, s, acc).Failure?
    ensures !(Fresh(names, acc.Keys) && forall n | n in names :: Resolvable(s0, n))
  {
    var n := names[0];
    FreshStep(names, acc.Keys);
    assert n in names;
    if n !in s.parts {
      assert !Resolvable(s0, n);
    } else if n in acc {
      assert s.parts[n].layout.Inline?;
    } else {
      var part := s.parts[n];
      assert part == s0.parts[n];
      if part.layout.ByName? && part.layout.name in s.layouts {
        TrackedLayout(s0, s, acc.Keys, part.layout.name);
      }
    }
  }

  /** On success, every name visited gets its own section augmented from the
      original settings, and the sections done before are kept. */
  lemma {:induction false} AugmentFromValues(s0: Settings, names: seq<string>, s: Settings, acc: map<string, PartConf>)
    requires Tracks(s0, s, acc.Keys)
    requires AugmentFrom(names, s, acc).Success?
    ensures var r := AugmentFrom(names, s, acc).value;
      && (forall n | n in names :: Resolvable(s0, n) && r[n] == Expected(s0, n))
      && (forall n | n in acc && n !in names :: r[n] == acc[n])
    decreases |names|
  {
    if |names| > 0 {
      AugmentFromAccepts(s0, names, s, acc);
      var s', acc' := Visit(s0, names, s, acc);
      AugmentFromValues(s0, names[1..], s', acc');
      var r := AugmentFrom(names, s, acc).value;
      assert names[0] !in names[1..] by {
        FreshStep(names, acc.Keys);
      }
      assert r[names[0]] == acc'[names[0]];
      forall m | m in names
        ensures Resolvable(s0, m) && r[m] == Expected(s0, m)
      {
        if m != names[0] {
          assert m in names[1..];
        }
      }
    }
  }

  /** The configuration is accepted exactly when the listed partitions are
      distinct, and each exists, names an existing layout section, and refers only
      to existing algorithm and ETFS sections; then every partition gets its own
      layout section augmented, as if no other partition had been processed. */
  lemma CheckAndAugmentSpec(s: Settings)
    ensures var r := CheckAndAugmentConf(s);
      && (r.Success? <==> Fresh(s.partitions, {}) && forall n | n in s.partitions :: Resolvable(s, n))
      && (r.Success? ==> forall n | n in s.partitions :: r.value[n] == Expected(s, n))
  {
    AugmentFromAccepts(s, s.partitions, s, map[]);
    if CheckAndAugmentConf(s).Success? {
      AugmentFromValues(s, s.partitions, s, map[]);
    }
  }
}

=== FILE: layouts.dfy ===
/** The page layout of one partition (`Layout`, nandtool/nand.py:36-71): which
    byte ranges of a raw page are user data, ECC-protected data and parity, and
    how the buffers are transformed around the decoder. */
module Layouts {
  import opened Outcomes
  import opened PySeq
  import opened Bch

  /** A `(start, end)` pair naming the bytes `page[start:end]`. */
  datatype Region = Region(start: int, end: int) {
    function Length(): int {
      end - start
    }
  }

  /** The ranges of one chunk, concatenated in order before decoding. */
  type Chunk = seq<Region>

  /** The ETFS sub-regions by field name (`fid`, `cluster`, `nclusters`, `sequence`). */
  type EtfsLayout = map<string, Region>

  /** An `ecc_algorithm` section: the parameters of `bchlib.BCH`. */
  datatype EccAlgorithm = EccAlgorithm(poly: int, t: int)

  /** A layout section once the configuration has been augmented: every optional
      field present, `ecc_algorithm` and `etfs` resolved to their sections. */
  datatype LayoutConf = LayoutConf(
    blocksize: int,
    pagesize: int,
    oobsize: int,
    pagesPerBlock: int,
    ecc: Option<seq<Chunk>>,
    eccProtectedData: Option<seq<Chunk>>,
    userData: seq<Chunk>,
    leftShiftEccBuf: int,
    eccProtectedDataReverse: bool,
    eccProtectedDataInvert: bool,
    eccReverse: bool,
    eccInvert: bool,
    eccStrict: bool,
    etfs: Option<EtfsLayout>,
    eccAlgorithm: Option<EccAlgorithm>)

  /** The unpacked layout the engine works from. */
  datatype Layout = Layout(
    blocksize: int,
    pagesize: int,
    oobsize: int,
    pagesPerBlock: int,
    ecc: Option<seq<Chunk>>,
    protectedData: Option<seq<Chunk>>,
    userData: seq<Chunk>,
    leftShift: int,
    dataReverse: bool,
    dataInvert: bool,
    eccReverse: bool,
    eccInvert: bool,
    eccStrict: bool,
    etfsLayout: EtfsLayout,
    bch: Option<Codec>)
  {
    /** Bytes in one raw page, data area plus out-of-band area. */
    function RawPageSize(): int {
      pagesize + oobsize
    }
  }

  /** `Layout.__init__`: copies the section, takes an absent `etfs` as the empty
      mapping, and builds a codec exactly when an algorithm is configured.
      `codecFor` stands for `bchlib.BCH(prim_poly=..., t=...)`. */
  function FromConf(conf: LayoutConf, codecFor: (int, int) -> Codec): (l: Layout)
    ensures conf.etfs.Some? ==> l.etfsLayout == conf.etfs.value
    ensures conf.etfs.None? ==> l.etfsLayout == map[]
    ensures l.bch.Some? <==> conf.eccAlgorithm.Some?
    ensures l.RawPageSize() == conf.pagesize + conf.oobsize
    ensures l.blocksize == conf.blocksize && l.pagesPerBlock == conf.pagesPerBlock
    ensures l.ecc == conf.ecc && l.protectedData == conf.eccProtectedData && l.userData == conf.userData
    ensures l.leftShift == conf.leftShiftEccBuf && l.eccStrict == conf.eccStrict
    ensures l.dataReverse == conf.eccProtectedDataReverse && l.dataInvert == conf.eccProtectedDataInvert
    ensures l.eccReverse == conf.eccReverse && l.eccInvert == conf.eccInvert
  {
    Layout(
      conf.blocksize, conf.pagesize, conf.oobsize, conf.pagesPerBlock,
      conf.ecc, conf.eccProtectedData, conf.userData,
      conf.leftShiftEccBuf,
      conf.eccProtectedDataReverse, conf.eccProtectedDataInvert,
      conf.eccReverse, conf.eccInvert,
      conf.eccStrict,
      if conf.etfs.Some? then conf.etfs.value else map[],
      match conf.eccAlgorithm
      case Some(a) => Some(codecFor(a.poly, a.t))
      case None => None)
  }

  /** Python truthiness of an optional chunk list. */
  predicate Present(chunks: Option<seq<Chunk>>) {
    chunks.Some? && |chunks.value| > 0
  }

  /** The gate of nandtool/nand.py:206: parity, protected data and a codec all configured. */
  predicate EccEnabled(l: Layout) {
    Present(l.ecc) && Present(l.protectedData) && l.bch.Some?
  }

  /** The chunk list, `None` read as no chunks. */
  function ChunksOf(chunks: Option<seq<Chunk>>): seq<Chunk> {
    chunks.GetOr([])
  }

  /** All ranges of a chunk list, in declared order. */
  function Regions(chunks: seq<Chunk>): seq<Region> {
    Join(chunks)
  }

  /** Sum of `end - start` over the ranges, as `sum(...)` computes it. */
  function TotalLength(rs: seq<Region>): int {
    if |rs| == 0 then 0 else rs[0].Length() + TotalLength(rs[1..])
  }

  lemma {:induction false} TotalLengthAppend(rs: seq<Region>, more: seq<Region>)
    ensures TotalLength(rs + more) == TotalLength(rs) + TotalLength(more)
  {
    if |rs| == 0 {
      assert rs + more == more;
    } else {
      assert (rs + more)[0] == rs[0];
      assert (rs + more)[1..] == rs[1..] + more;
      TotalLengthAppend(rs[1..], more);
    }
  }
}

=== FILE: outcomes.dfy ===
/** Failure-compatible wrappers used throughout the model, and the faults the
    correction engine can raise. Each fault stands for the Python exception the
    engine would propagate at that point. */
module Outcomes {

  /** Python `None` versus a present value. */
  datatype Option<+T> = None | Some(value: T) {
    function GetOr(default: T): T {
      match this
      case Some(v) => v
      case None => default
    }
  }

  /** Why a computation stopped. */
  datatype Fault =
    | MissingKey(key: string)        // KeyError: a configuration section or ETFS field is absent
    | KeyNotAName                    // a partition's layout used as a section key when it is not a name
    | BlockSizeZero                  // ZeroDivisionError resolving `endblock == -1`
    | RangeStepZero                  // ValueError from `range(..., 0)`
    | HexOfNone                      // AttributeError: nibble shift of an absent parity buffer
    | OddLengthHex                   // ValueError: `bytes.fromhex` of an odd number of digits
    | NoneToDecoder                  // an absent (empty) buffer handed to the BCH decoder
    | SliceOfNone                    // TypeError: re-splitting an absent corrected buffer
    | LeftoverAfterSplit             // AssertionError: bytes left after re-splitting a chunk
    | UncorrectablePage(offset: int) // ValueError under `ecc_strict`: page offset in the image

  datatype Result<+T> = Success(value: T) | Failure(fault: Fault) {
    predicate IsFailure() {
      Failure?
    }

    function PropagateFailure<U>(): Result<U>
      requires Failure?
    {
      Failure(fault)
    }

    function Extract(): T
      requires Success?
    {
      value
    }
  }
}

=== FILE: page.dfy ===
/** `NAND.correct_page` (nandtool/nand.py:147-193): slice the protected-data and
    parity regions out of a raw page, skip erased pages, correct every pair of
    data and parity chunks, re-split the corrected buffers into their regions and
    rebuild the page. */
module PageCorrection {
  import opened Outcomes
  import opened PySeq
  import opened ByteBuf
  import opened Bch
  import opened Layouts
  import opened ChunkCorrection
  import opened PageBuffer

  /** Every byte of `b` is erased flash (nandtool/nand.py:156). */
  predicate AllFF(b: seq<byte>) {
    forall j | 0 <= j < |b| :: b[j] == 0xFF
  }

  /** The bytes a region names in a page. */
  function Cut(page: seq<byte>, r: Region): seq<byte> {
    Slice(page, r.start, r.end)
  }

  /** `data_map` (nandtool/nand.py:153-158): each region's slice keyed by its start;
      a later region with the same start replaces the earlier slice. */
  function SliceMap(page: seq<byte>, rs: seq<Region>): (m: RegionMap)
    ensures forall r | r in rs :: r.start in m
    ensures forall k | k in m :: exists r | r in rs :: r.start == k
    decreases |rs|
  {
    if |rs| == 0 then map[]
    else
      var last := rs[|rs| - 1];
      var m := SliceMap(page, rs[..|rs| - 1]);
      assert forall r | r in rs :: r == last || r in rs[..|rs| - 1];
      m[last.start := Cut(page, last)]
  }

  /** `all_erased`: every slice of every region is 0xFF (empty slices included). */
  predicate AllErased(page: seq<byte>, rs: seq<Region>) {
    forall i | 0 <= i < |rs| :: AllFF(Cut(page, rs[i]))
  }

  /** Every region's start is a key of `m`. */
  ghost predicate Keyed(m: RegionMap, rs: seq<Region>) {
    forall r | r in rs :: r.start in m
  }

  /** `b"".join(data_map[start] for start, _ in ranges)` (nandtool/nand.py:167-168). */
  function JoinRegions(m: RegionMap, rs: seq<Region>): seq<byte>
    requires Keyed(m, rs)
  {
    if |rs| == 0 then [] else m[rs[0].start] + JoinRegions(m, rs[1..])
  }

  /** The split loops of nandtool/nand.py:178-187 once the buffer is bytes: each
      region takes `buf[:length]` and the loop continues on `buf[length:]`; bytes
      left at the end trip the assertion. */
  function SplitBytes(b: seq<byte>, rs: seq<Region>, into: RegionMap): (r: Result<RegionMap>)
    ensures r.Failure? ==> r.fault == LeftoverAfterSplit
    decreases |rs|
  {
    if |rs| == 0 then
      if |b| > 0 then Failure(LeftoverAfterSplit) else Success(into)
    else
      var len := rs[0].Length();
      SplitBytes(Slice(b, len, |b|), rs[1..], into[rs[0].start := Slice(b, 0, len)])
  }

  /** The split of a buffer that may be `None`: slicing `None` fails, while an
      empty range list leaves `assert not None` to pass. */
  function SplitBack(buf: Buf, rs: seq<Region>, into: RegionMap): Result<RegionMap> {
    match buf
    case None => if |rs| == 0 then Success(into) else Failure(SliceOfNone)
    case Some(b) => SplitBytes(b, rs, into)
  }

  /** The state of the chunk loop: `corrected_data_map`, `uncorrectable_page` and
      the counter. */
  datatype PageAcc = PageAcc(corrected: RegionMap, uncorrectable: bool, bits: int)

  /** Every region of every chunk pair is keyed. */
  ghost predicate PairsKeyed(m: RegionMap, pairs: seq<(Chunk, Chunk)>) {
    forall i | 0 <= i < |pairs| :: Keyed(m, pairs[i].0) && Keyed(m, pairs[i].1)
  }

  /** The raw data and parity of one chunk pair, as handed to `bch_correct_chunk`. */
  function ChunkData(m: RegionMap, pair: (Chunk, Chunk)): seq<byte>
    requires Keyed(m, pair.0)
  {
    JoinRegions(m, pair.0)
  }

  function ChunkEcc(m: RegionMap, pair: (Chunk, Chunk)): seq<byte>
    requires Keyed(m, pair.1)
  {
    JoinRegions(m, pair.1)
  }

  /** One pass of the loop of nandtool/nand.py:163-187: correct the pair, fold its
      flag into the page flag, and split the corrected data and parity back into
      their regions. */
  function ChunkStep(layout: Layout, m: RegionMap, pair: (Chunk, Chunk), acc: PageAcc): Result<PageAcc>
    requires layout.bch.Some?
    requires Keyed(m, pair.0) && Keyed(m, pair.1)
  {
    var out :- BchCorrectChunk(layout, ChunkData(m, pair), ChunkEcc(m, pair), acc.bits);
    var c1 :- SplitBack(out.data, pair.0, acc.corrected);
    var c2 :- SplitBack(out.ecc, pair.1, c1);
    Success(PageAcc(c2, acc.uncorrectable || out.uncorrectable, out.bits))
  }

  /** The loop over the zipped chunk pairs, in order; the first failure ends it. */
  function CorrectChunks(layout: Layout, m: RegionMap, pairs: seq<(Chunk, Chunk)>, acc: PageAcc): Result<PageAcc>
    requires layout.bch.Some?
    requires PairsKeyed(m, pairs)
    decreases |pairs|
  {
    if |pairs| == 0 then Success(acc)
    else
      var acc' :- ChunkStep(layout, m, pairs[0], acc);
      CorrectChunks(layout, m, pairs[1..], acc')
  }

  /** What `correct_page` returns, `(corrected_page, uncorrectable_page)`, with the
      counter after the call. */
  datatype PageOutcome = PageOutcome(page: seq<byte>, uncorrectable: bool, bits: int)

  /** The protected-data regions followed by the parity regions, as `chain` walks them. */
  function PageRegions(layout: Layout): seq<Region>
    requires layout.protectedData.Some? && layout.ecc.Some?
  {
    Regions(layout.protectedData.value) + Regions(layout.ecc.value)
  }

  /** The chunk pairs that are corrected: `zip(protected_data, ecc)`. */
  function ChunkPairs(layout: Layout): seq<(Chunk, Chunk)>
    requires layout.protectedData.Some? && layout.ecc.Some?
  {
    Zip(layout.protectedData.value, layout.ecc.value)
  }

  lemma {:induction false} InJoin<T>(parts: seq<seq<T>>, i: nat, x: T)
    requires i < |parts| && x in parts[i]
    ensures x in Join(parts)
  {
    if i > 0 {
      InJoin(parts[1..], i - 1, x);
    }
  }

  /** Every region of a zipped chunk pair is one of the page's regions. */
  lemma PairRegionsInPage(layout: Layout, i: nat, r: Region)
    requires layout.protectedData.Some? && layout.ecc.Some?
    requires i < |ChunkPairs(layout)|
    requires r in ChunkPairs(layout)[i].0 || r in ChunkPairs(layout)[i].1
    ensures r in PageRegions(layout)
  {
    if r in ChunkPairs(layout)[i].0 {
      InJoin(layout.protectedData.value, i, r);
    } else {
      InJoin(layout.ecc.value, i, r);
    }
  }

  lemma PairsKeyedInPage(layout: Layout, page: seq<byte>)
    requires layout.protectedData.Some? && layout.ecc.Some?
    ensures PairsKeyed(SliceMap(page, PageRegions(layout)), ChunkPairs(layout))
  {
    var m := SliceMap(page, PageRegions(layout));
    var pairs := ChunkPairs(layout);
    forall i, r | 0 <= i < |pairs| && (r in pairs[i].0 || r in pairs[i].1)
      ensures r.start in m
    {
      PairRegionsInPage(layout, i, r);
    }
  }

  /** `correct_page(page)`. It is only called under the gate of
      nandtool/nand.py:206, so both chunk lists and the codec are present. */
  function CorrectPage(layout: Layout, page: seq<byte>, bits: int): (r: Result<PageOutcome>)
    requires layout.protectedData.Some? && layout.ecc.Some? && layout.bch.Some?
    ensures r.Success? ==> |r.value.page| >= layout.RawPageSize()
  {
    var m := SliceMap(page, PageRegions(layout));
    if AllErased(page, PageRegions(layout)) then
      Success(PageOutcome(RebuildBuffer(map[], layout.RawPageSize()), false, bits))
    else
      PairsKeyedInPage(layout, page);
      var acc :- CorrectChunks(layout, m, ChunkPairs(layout), PageAcc(map[], false, bits));
      Success(PageOutcome(RebuildBuffer(acc.corrected, layout.RawPageSize()), acc.uncorrectable, acc.bits))
  }

  /** An erased page is never decoded: whatever the codec, the counter is
      unchanged, the page is not uncorrectable, and it comes back as a full page of
      0xFF, even where the raw page held other bytes outside the regions. */
  lemma CorrectPageErased(layout: Layout, page: seq<byte>, bits: int)
    requires layout.protectedData.Some? && layout.ecc.Some? && layout.bch.Some?
    requires AllErased(page, PageRegions(layout))
    ensures CorrectPage(layout, page, bits)
            == Success(PageOutcome(Erased(layout.RawPageSize()), false, bits))
  {
    RebuildEmpty(layout.RawPageSize());
  }

  /** A chunk pair whose decode reported -1. */
  ghost predicate ChunkUncorrectable(layout: Layout, m: RegionMap, pair: (Chunk, Chunk))
    requires layout.bch.Some?
    requires Keyed(m, pair.0) && Keyed(m, pair.1)
  {
    && DecoderInput(layout, ChunkData(m, pair), ChunkEcc(m, pair)).Success?
    && DecodeVerdict(layout, ChunkData(m, pair), ChunkEcc(m, pair)) == Uncorrectable
  }

  /** The loop's flag is the running OR of the chunk flags. */
  lemma {:induction false} CorrectChunksFlag(layout: Layout, m: RegionMap, pairs: seq<(Chunk, Chunk)>, acc: PageAcc)
    requires layout.bch.Some?
    requires PairsKeyed(m, pairs)
    requires CorrectChunks(layout, m, pairs, acc).Success?
    ensures CorrectChunks(layout, m, pairs, acc).value.uncorrectable
            <==> acc.uncorrectable || exists i | 0 <= i < |pairs| :: ChunkUncorrectable(layout, m, pairs[i])
    decreases |pairs|
  {
    if |pairs| > 0 {
      var acc' := ChunkStep(layout, m, pairs[0], acc).value;
      assert PairsKeyed(m, pairs[1..]);
      assert CorrectChunks(layout, m, pairs, acc) == CorrectChunks(layout, m, pairs[1..], acc');
      CorrectChunksFlag(layout, m, pairs[1..], acc');
      assert acc'.uncorrectable <==> acc.uncorrectable || ChunkUncorrectable(layout, m, pairs[0]);
      SomeUncorrectableSplit(layout, m, pairs);
    }
  }

  /** Some pair is uncorrectable exactly when the first is or some later one is. */
  lemma SomeUncorrectableSplit(layout: Layout, m: RegionMap, pairs: seq<(Chunk, Chunk)>)
    requires layout.bch.Some? && |pairs| > 0
    requires PairsKeyed(m, pairs) && PairsKeyed(m, pairs[1..])
    ensures (exists i | 0 <= i < |pairs| :: ChunkUncorrectable(layout, m, pairs[i]))
      <==> ChunkUncorrectable(layout, m, pairs[0])
           || exists i | 0 <= i < |pairs[1..]| :: ChunkUncorrectable(layout, m, pairs[1..][i])
  {
    if exists i | 0 <= i < |pairs| :: ChunkUncorrectable(layout, m, pairs[i]) {
      var i :| 0 <= i < |pairs| && ChunkUncorrectable(layout, m, pairs[i]);
      if i > 0 {
        assert pairs[1..][i - 1] == pairs[i];
      }
    }
    if exists i | 0 <= i < |pairs[1..]| :: ChunkUncorrectable(layout, m, pairs[1..][i]) {
      var i :| 0 <= i < |pairs[1..]| && ChunkUncorrectable(layout, m, pairs[1..][i]);
      assert pairs[1..][i] == pairs[i + 1];
    }
  }

  /** A page that is not erased is uncorrectable exactly when the decoder reported
      -1 for at least one of the zipped chunk pairs. */
  lemma CorrectPageFlag(layout: Layout, page: seq<byte>, bits: int)
    requires layout.protectedData.Some? && layout.ecc.Some? && layout.bch.Some?
    requires !AllErased(page, PageRegions(layout))
    requires CorrectPage(layout, page, bits).Success?
    ensures PairsKeyed(SliceMap(page, PageRegions(layout)), ChunkPairs(layout))
    ensures var m := SliceMap(page, PageRegions(layout));
      CorrectPage(layout, page, bits).value.uncorrectable
      <==> exists i | 0 <= i < |ChunkPairs(layout)| :: ChunkUncorrectable(layout, m, ChunkPairs(layout)[i])
  {
    PairsKeyedInPage(layout, page);
    var m := SliceMap(page, PageRegions(layout));
    CorrectChunksFlag(layout, m, ChunkPairs(layout), PageAcc(map[], false, bits));
  }

  /** The flips one pair adds to `corrected_bits` (nandtool/nand.py:131-133): the
      count `decode` reported when it led to a repair, nothing otherwise. */
  ghost function ChunkFlips(layout: Layout, m: RegionMap, pair: (Chunk, Chunk)): nat
    requires layout.bch.Some?
    requires Keyed(m, pair.0) && Keyed(m, pair.1)
  {
    var data := ChunkData(m, pair);
    var ecc := ChunkEcc(m, pair);
    if DecoderInput(layout, data, ecc).Success? && Repairs(DecodeVerdict(layout, data, ecc))
    then DecodeVerdict(layout, data, ecc).count
    else 0
  }

  /** The flips of a run of pairs, added up. */
  ghost function PairsFlips(layout: Layout, m: RegionMap, pairs: seq<(Chunk, Chunk)>): nat
    requires layout.bch.Some?
    requires PairsKeyed(m, pairs)
    decreases |pairs|
  {
    if |pairs| == 0 then 0
    else ChunkFlips(layout, m, pairs[0]) + PairsFlips(layout, m, pairs[1..])
  }

  /** The loop adds to the counter exactly the flips of the pairs it corrects. */
  lemma {:induction false} CorrectChunksBits(layout: Layout, m: RegionMap, pairs: seq<(Chunk, Chunk)>, acc: PageAcc)
    requires layout.bch.Some?
    requires PairsKeyed(m, pairs)
    requires CorrectChunks(layout, m, pairs, acc).Success?
    ensures CorrectChunks(layout, m, pairs, acc).value.bits == acc.bits + PairsFlips(layout, m, pairs)
    decreases |pairs|
  {
    if |pairs| > 0 {
      var acc' := ChunkStep(layout, m, pairs[0], acc).value;
      assert PairsKeyed(m, pairs[1..]);
      assert CorrectChunks(layout, m, pairs, acc) == CorrectChunks(layout, m, pairs[1..], acc');
      CorrectChunksBits(layout, m, pairs[1..], acc');
      assert acc'.bits == acc.bits + ChunkFlips(layout, m, pairs[0]);
    }
  }

  /** `correct_page` adds to the counter the flips `decode` repaired in the zipped
      chunk pairs, and nothing for an erased page. */
  lemma CorrectPageBits(layout: Layout, page: seq<byte>, bits: int)
    requires layout.protectedData.Some? && layout.ecc.Some? && layout.bch.Some?
    requires CorrectPage(layout, page, bits).Success?
    ensures PairsKeyed(SliceMap(page, PageRegions(layout)), ChunkPairs(layout))
    ensures CorrectPage(layout, page, bits).value.bits == bits +
      if AllErased(page, PageRegions(layout)) then 0
      else PairsFlips(layout, SliceMap(page, PageRegions(layout)), ChunkPairs(layout))
  {
    PairsKeyedInPage(layout, page);
    if !AllErased(page, PageRegions(layout)) {
      var m := SliceMap(page, PageRegions(layout));
      CorrectChunksBits(layout, m, ChunkPairs(layout), PageAcc(map[], false, bits));
    }
  }

  // ---------------------------------------------------------------------------
  // Re-splitting a corrected buffer

  /** The start offsets of a list of ranges. */
  ghost function StartsOf(rs: seq<Region>): set<int> {
    set r | r in rs :: r.start
  }

  /** A start offset names one range only. */
  ghost predicate StartsDetermine(rs: seq<Region>) {
    forall r1, r2 | r1 in rs && r2 in rs && r1.start == r2.start :: r1 == r2
  }

  /** Ranges that run forwards. */
  ghost predicate Forward(rs: seq<Region>) {
    forall r | r in rs :: r.start <= r.end
  }

  /** A first range that does not recur has a start no later range has. */
  lemma FirstStartUnique(rs: seq<Region>)
    requires |rs| > 0 && StartsDetermine(rs) && rs[0] !in rs[1..]
    ensures rs[0].start !in StartsOf(rs[1..])
  {
  }

  lemma {:induction false} TotalLengthNonNegative(rs: seq<Region>)
    requires Forward(rs)
    ensures TotalLength(rs) >= 0
  {
    if |rs| > 0 {
      TotalLengthNonNegative(rs[1..]);
    }
  }

  /** A buffer exactly as long as the ranges together is consumed exactly by the
      split: the assertion cannot fire, every start gets a piece of its own
      range's length, and no other entry changes. */
  lemma {:induction false} SplitExact(b: seq<byte>, rs: seq<Region>, into: RegionMap)
    requires Forward(rs) && StartsDetermine(rs)
    requires |b| == TotalLength(rs)
    ensures SplitBytes(b, rs, into).Success?
    ensures var out := SplitBytes(b, rs, into).value;
      && out.Keys == into.Keys + StartsOf(rs)
      && (forall k | k in into && k !in StartsOf(rs) :: out[k] == into[k])
      && (forall r | r in rs :: |out[r.start]| == r.Length())
    decreases |rs|
  {
    if |rs| > 0 {
      var len := rs[0].Length();
      TotalLengthNonNegative(rs[1..]);
      assert 0 <= len <= |b|;
      var into' := into[rs[0].start := Slice(b, 0, len)];
      SplitExact(Slice(b, len, |b|), rs[1..], into');
      var out := SplitBytes(b, rs, into).value;
      assert out == SplitBytes(Slice(b, len, |b|), rs[1..], into').value;
      forall r | r in rs
        ensures |out[r.start]| == r.Length()
      {
        if r !in rs[1..] {
          FirstStartUnique(rs);
        }
      }
    }
  }

  /** The entries of `m` at the given starts. */
  ghost function Restricted(m: RegionMap, ks: set<int>): RegionMap {
    map k | k in ks && k in m :: m[k]
  }

  lemma {:induction false} JoinLength(m: RegionMap, rs: seq<Region>)
    requires Keyed(m, rs)
    requires forall r | r in rs :: |m[r.start]| == r.Length()
    ensures |JoinRegions(m, rs)| == TotalLength(rs)
  {
    if |rs| > 0 {
      JoinLength(m, rs[1..]);
    }
  }

  /** Storing one more start and then the restriction to the other starts is the
      restriction to all of them. */
  lemma RestrictedStep(m: RegionMap, into: RegionMap, s0: int, rest: set<int>)
    requires s0 in m
    ensures into[s0 := m[s0]] + Restricted(m, rest) == into + Restricted(m, {s0} + rest)
  {
    var lhs := into[s0 := m[s0]] + Restricted(m, rest);
    var rhs := into + Restricted(m, {s0} + rest);
    assert lhs.Keys == rhs.Keys;
    forall k | k in lhs
      ensures lhs[k] == rhs[k]
    {
    }
  }

  /** The first piece of a joined chunk is its first slice, the rest is the join
      of the others. */
  lemma JoinFront(m: RegionMap, rs: seq<Region>)
    requires |rs| > 0 && Keyed(m, rs)
    requires |m[rs[0].start]| == rs[0].Length()
    ensures var j := JoinRegions(m, rs);
      && Slice(j, 0, rs[0].Length()) == m[rs[0].start]
      && Slice(j, rs[0].Length(), |j|) == JoinRegions(m, rs[1..])
  {
    var j := JoinRegions(m, rs);
    assert j == m[rs[0].start] + JoinRegions(m, rs[1..]);
    assert j[..rs[0].Length()] == m[rs[0].start];
    assert j[rs[0].Length()..] == JoinRegions(m, rs[1..]);
  }

  /** Joining the slices of a chunk and splitting the result by the same ranges
      gives every slice back at its own start. */
  lemma {:induction false} SplitJoinRoundTrip(m: RegionMap, rs: seq<Region>, into: RegionMap)
    requires Keyed(m, rs)
    requires forall r | r in rs :: |m[r.start]| == r.Length()
    ensures SplitBytes(JoinRegions(m, rs), rs, into) == Success(into + Restricted(m, StartsOf(rs)))
    decreases |rs|
  {
    if |rs| == 0 {
      assert Restricted(m, StartsOf(rs)) == map[];
      assert into + map[] == into;
    } else {
      var s0 := rs[0].start;
      JoinFront(m, rs);
      SplitJoinRoundTrip(m, rs[1..], into[s0 := m[s0]]);
      assert StartsOf(rs) == {s0} + StartsOf(rs[1..]);
      RestrictedStep(m, into, s0, StartsOf(rs[1..]));
    }
  }

  // ---------------------------------------------------------------------------
  // The chunk loop on well-formed chunks

  /** Every region of every chunk pair, data before parity, pair after pair. */
  ghost function PairRegions(pairs: seq<(Chunk, Chunk)>): seq<Region> {
    if |pairs| == 0 then [] else pairs[0].0 + pairs[0].1 + PairRegions(pairs[1..])
  }

  /** Each region's slice in `m` is as long as the region. */
  ghost predicate Sized(m: RegionMap, rs: seq<Region>) {
    forall r | r in rs :: r.start in m && |m[r.start]| == r.Length()
  }

  /** Both halves of a pair name some bytes. */
  ghost predicate NonEmptyPair(pair: (Chunk, Chunk)) {
    TotalLength(pair.0) > 0 && TotalLength(pair.1) > 0
  }

  /** A pair whose slices are sized reaches the decoder with its full join. */
  lemma PairReachesDecoder(layout: Layout, m: RegionMap, pair: (Chunk, Chunk))
    requires Sized(m, pair.0) && Sized(m, pair.1)
    requires NonEmptyPair(pair)
    ensures Keyed(m, pair.0) && Keyed(m, pair.1)
    ensures |ChunkData(m, pair)| == TotalLength(pair.0) > 0
    ensures |ChunkEcc(m, pair)| == TotalLength(pair.1) > 0
    ensures DecoderInput(layout, ChunkData(m, pair), ChunkEcc(m, pair)).Success?
  {
    JoinLength(m, pair.0);
    JoinLength(m, pair.1);
  }

  /** `after` is `before` with every start of `rs` keyed to a slice of its own
      region's length, and no other entry changed. */
  ghost predicate Fills(before: RegionMap, after: RegionMap, rs: seq<Region>) {
    && after.Keys == before.Keys + StartsOf(rs)
    && (forall k | k in before && k !in StartsOf(rs) :: after[k] == before[k])
    && (forall r | r in rs :: |after[r.start]| == r.Length())
  }

  /** Filling the starts of `head` and then those of `rest` fills the starts of
      both, as long as a start names one range only. */
  lemma FillsCompose(a: RegionMap, b: RegionMap, c: RegionMap, head: seq<Region>, rest: seq<Region>)
    requires Fills(a, b, head) && Fills(b, c, rest)
    requires StartsDetermine(head + rest)
    ensures Fills(a, c, head + rest)
  {
    assert StartsOf(head + rest) == StartsOf(head) + StartsOf(rest);
    forall r | r in head + rest
      ensures |c[r.start]| == r.Length()
    {
      if r.start in StartsOf(rest) {
        var r' :| r' in rest && r'.start == r.start;
        assert r' in head + rest;
      } else {
        assert r in head;
      }
    }
  }

  /** With a length-preserving codec, one pass over a well-formed pair cannot
      fault: the split of each corrected buffer is exact, every region start gets
      a slice of its region's length, and no other entry changes. */
  lemma StepSucceeds(layout: Layout, m: RegionMap, pair: (Chunk, Chunk), acc: PageAcc)
    requires layout.bch.Some? && LengthPreserving(layout.bch.value)
    requires Sized(m, pair.0) && Sized(m, pair.1) && NonEmptyPair(pair)
    requires Forward(pair.0 + pair.1) && StartsDetermine(pair.0 + pair.1)
    ensures Keyed(m, pair.0) && Keyed(m, pair.1)
    ensures ChunkStep(layout, m, pair, acc).Success?
    ensures Fills(acc.corrected, ChunkStep(layout, m, pair, acc).value.corrected, pair.0 + pair.1)
  {
    PairReachesDecoder(layout, m, pair);
    var data := ChunkData(m, pair);
    var ecc := ChunkEcc(m, pair);
    ChunkPreservesLengths(layout, data, ecc, acc.bits);
    var out := BchCorrectChunk(layout, data, ecc, acc.bits).value;
    SplitExact(out.data.value, pair.0, acc.corrected);
    var c1 := SplitBytes(out.data.value, pair.0, acc.corrected).value;
    SplitExact(out.ecc.value, pair.1, c1);
    var c2 := SplitBytes(out.ecc.value, pair.1, c1).value;
    assert ChunkStep(layout, m, pair, acc).value.corrected == c2;
    FillsCompose(acc.corrected, c1, c2, pair.0, pair.1);
  }

  /** Adding the restriction to one set of starts and then to another is adding
      the restriction to both. */
  lemma RestrictedUnion(m: RegionMap, into: RegionMap, xs: set<int>, ys: set<int>)
    ensures into + Restricted(m, xs) + Restricted(m, ys) == into + Restricted(m, xs + ys)
  {
    var lhs := into + Restricted(m, xs) + Restricted(m, ys);
    var rhs := into + Restricted(m, xs + ys);
    assert lhs.Keys == rhs.Keys;
    forall k | k in lhs
      ensures lhs[k] == rhs[k]
    {
    }
  }

  /** The pair reaches the decoder, and the decoder finds nothing to repair in it. */
  ghost predicate Unrepaired(layout: Layout, m: RegionMap, pair: (Chunk, Chunk))
    requires layout.bch.Some? && Keyed(m, pair.0) && Keyed(m, pair.1)
  {
    && DecoderInput(layout, ChunkData(m, pair), ChunkEcc(m, pair)).Success?
    && !Repairs(DecodeVerdict(layout, ChunkData(m, pair), ChunkEcc(m, pair)))
  }

  /** A pass over a pair the decoder does not repair, without the nibble shift,
      stores every region's own raw slice back, leaves the counter alone, and
      raises the page flag exactly when the decoder reported -1. */
  lemma StepClean(layout: Layout, m: RegionMap, pair: (Chunk, Chunk), acc: PageAcc)
    requires layout.bch.Some? && layout.leftShift != 4
    requires Sized(m, pair.0) && Sized(m, pair.1) && NonEmptyPair(pair)
    requires Keyed(m, pair.0) && Keyed(m, pair.1)
    requires DecoderInput(layout, ChunkData(m, pair), ChunkEcc(m, pair)).Success?
    requires !Repairs(DecodeVerdict(layout, ChunkData(m, pair), ChunkEcc(m, pair)))
    ensures ChunkStep(layout, m, pair, acc) == Success(PageAcc(
      acc.corrected + Restricted(m, StartsOf(pair.0 + pair.1)),
      acc.uncorrectable || DecodeVerdict(layout, ChunkData(m, pair), ChunkEcc(m, pair)) == Uncorrectable,
      acc.bits))
  {
    PairReachesDecoder(layout, m, pair);
    var data := ChunkData(m, pair);
    var ecc := ChunkEcc(m, pair);
    ChunkUntouchedWithoutRepair(layout, data, ecc, acc.bits);
    SplitJoinRoundTrip(m, pair.0, acc.corrected);
    var c1 := acc.corrected + Restricted(m, StartsOf(pair.0));
    SplitJoinRoundTrip(m, pair.1, c1);
    RestrictedUnion(m, acc.corrected, StartsOf(pair.0), StartsOf(pair.1));
    assert StartsOf(pair.0 + pair.1) == StartsOf(pair.0) + StartsOf(pair.1);
  }

  /** The regions of the later pairs are among all of them. */
  lemma PairRegionsSplit(pairs: seq<(Chunk, Chunk)>)
    requires |pairs| > 0
    ensures PairRegions(pairs) == (pairs[0].0 + pairs[0].1) + PairRegions(pairs[1..])
    ensures StartsOf(PairRegions(pairs)) == StartsOf(pairs[0].0 + pairs[0].1) + StartsOf(PairRegions(pairs[1..]))
  {
  }

  /** Well-formed pairs for the loop: sized, non-empty, forward, and one region
      per start across all of them. */
  ghost predicate PairsWellFormed(m: RegionMap, pairs: seq<(Chunk, Chunk)>) {
    && Sized(m, PairRegions(pairs))
    && Forward(PairRegions(pairs))
    && StartsDetermine(PairRegions(pairs))
    && (forall i | 0 <= i < |pairs| :: NonEmptyPair(pairs[i]))
  }

  /** The later pairs of well-formed pairs are well-formed. */
  lemma WellFormedTail(m: RegionMap, pairs: seq<(Chunk, Chunk)>)
    requires |pairs| > 0 && PairsWellFormed(m, pairs)
    ensures PairsWellFormed(m, pairs[1..])
  {
    PairRegionsSplit(pairs);
    forall i | 0 <= i < |pairs[1..]|
      ensures NonEmptyPair(pairs[1..][i])
    {
      assert pairs[1..][i] == pairs[i + 1];
    }
  }

  /** Keys are present for every pair, so the loop may be called. */
  lemma {:induction false} WellFormedKeyed(m: RegionMap, pairs: seq<(Chunk, Chunk)>)
    requires Sized(m, PairRegions(pairs))
    ensures PairsKeyed(m, pairs)
    decreases |pairs|
  {
    if |pairs| > 0 {
      PairRegionsSplit(pairs);
      WellFormedKeyed(m, pairs[1..]);
      forall i | 0 <= i < |pairs|
        ensures Keyed(m, pairs[i].0) && Keyed(m, pairs[i].1)
      {
        if i > 0 {
          assert pairs[i] == pairs[1..][i - 1];
        }
      }
    }
  }

  /** The loop over well-formed pairs with a length-preserving codec never faults,
      and leaves one slice of its region's length at every region start. */
  lemma {:induction false} ChunksSucceed(layout: Layout, m: RegionMap, pairs: seq<(Chunk, Chunk)>, acc: PageAcc)
    requires layout.bch.Some? && LengthPreserving(layout.bch.value)
    requires PairsWellFormed(m, pairs)
    ensures PairsKeyed(m, pairs)
    ensures CorrectChunks(layout, m, pairs, acc).Success?
    ensures Fills(acc.corrected, CorrectChunks(layout, m, pairs, acc).value.corrected, PairRegions(pairs))
    decreases |pairs|
  {
    WellFormedKeyed(m, pairs);
    if |pairs| > 0 {
      PairRegionsSplit(pairs);
      var head := pairs[0].0 + pairs[0].1;
      var rest := PairRegions(pairs[1..]);
      assert NonEmptyPair(pairs[0]);
      StepSucceeds(layout, m, pairs[0], acc);
      var acc' := ChunkStep(layout, m, pairs[0], acc).value;
      WellFormedTail(m, pairs);
      ChunksSucceed(layout, m, pairs[1..], acc');
      var out := CorrectChunks(layout, m, pairs[1..], acc').value.corrected;
      FillsCompose(acc.corrected, acc'.corrected, out, head, rest);
    }
  }

  /** The loop over pairs the decoder does not repair, without the nibble shift,
      stores every region's own raw slice back and leaves the counter alone. */
  lemma {:induction false} ChunksClean(layout: Layout, m: RegionMap, pairs: seq<(Chunk, Chunk)>, acc: PageAcc)
    requires layout.bch.Some? && layout.leftShift != 4
    requires PairsWellFormed(m, pairs)
    requires PairsKeyed(m, pairs)
    requires forall i | 0 <= i < |pairs| :: Unrepaired(layout, m, pairs[i])
    ensures CorrectChunks(layout, m, pairs, acc).Success?
    ensures CorrectChunks(layout, m, pairs, acc).value.corrected
            == acc.corrected + Restricted(m, StartsOf(PairRegions(pairs)))
    ensures CorrectChunks(layout, m, pairs, acc).value.bits == acc.bits
    decreases |pairs|
  {
    if |pairs| == 0 {
      assert Restricted(m, StartsOf(PairRegions(pairs))) == map[];
      assert acc.corrected + map[] == acc.corrected;
    } else {
      PairRegionsSplit(pairs);
      var head := pairs[0].0 + pairs[0].1;
      assert NonEmptyPair(pairs[0]);
      StepClean(layout, m, pairs[0], acc);
      var acc' := ChunkStep(layout, m, pairs[0], acc).value;
      WellFormedTail(m, pairs);
      forall i | 0 <= i < |pairs[1..]|
        ensures Unrepaired(layout, m, pairs[1..][i])
      {
        assert pairs[1..][i] == pairs[i + 1];
      }
      ChunksClean(layout, m, pairs[1..], acc');
      assert CorrectChunks(layout, m, pairs, acc) == CorrectChunks(layout, m, pairs[1..], acc');
      RestrictedUnion(m, acc.corrected, StartsOf(head), StartsOf(PairRegions(pairs[1..])));
    }
  }

  // ---------------------------------------------------------------------------
  // Whole pages

  /** A layout whose regions lie inside the raw page, run forwards, never share a
      start and never overlap, and whose zipped chunk pairs all name some bytes.
      The source checks none of this; it is the condition under which its two
      split assertions are provably silent. */
  ghost predicate WellFormedLayout(layout: Layout) {
    && layout.protectedData.Some? && layout.ecc.Some?
    && var rs := PageRegions(layout);
    && (forall r | r in rs :: 0 <= r.start <= r.end <= layout.RawPageSize())
    && StartsDetermine(rs)
    && (forall r1, r2 | r1 in rs && r2 in rs && r1.start < r2.start :: r1.end <= r2.start)
    && (forall i | 0 <= i < |ChunkPairs(layout)| :: NonEmptyPair(ChunkPairs(layout)[i]))
  }

  /** Offset `i` lies inside a region of some zipped chunk pair. */
  ghost predicate InZipped(layout: Layout, i: int)
    requires layout.protectedData.Some? && layout.ecc.Some?
  {
    exists r | r in PairRegions(ChunkPairs(layout)) :: r.start <= i < r.end
  }

  lemma {:induction false} InPairRegions(pairs: seq<(Chunk, Chunk)>, r: Region)
    requires r in PairRegions(pairs)
    ensures exists i | 0 <= i < |pairs| :: r in pairs[i].0 || r in pairs[i].1
    decreases |pairs|
  {
    if r !in pairs[0].0 + pairs[0].1 {
      InPairRegions(pairs[1..], r);
      var i :| 0 <= i < |pairs[1..]| && (r in pairs[1..][i].0 || r in pairs[1..][i].1);
      assert pairs[1..][i] == pairs[i + 1];
    }
  }

  /** The zipped regions are page regions (the truncated tail is not). */
  lemma ZippedInPage(layout: Layout)
    requires layout.protectedData.Some? && layout.ecc.Some?
    ensures forall r | r in PairRegions(ChunkPairs(layout)) :: r in PageRegions(layout)
  {
    forall r | r in PairRegions(ChunkPairs(layout))
      ensures r in PageRegions(layout)
    {
      InPairRegions(ChunkPairs(layout), r);
      var i :| 0 <= i < |ChunkPairs(layout)| && (r in ChunkPairs(layout)[i].0 || r in ChunkPairs(layout)[i].1);
      PairRegionsInPage(layout, i, r);
    }
  }

  /** With one region per start, each start keys its own region's slice. */
  lemma {:induction false} SliceMapCuts(page: seq<byte>, rs: seq<Region>)
    requires StartsDetermine(rs)
    ensures forall r | r in rs :: SliceMap(page, rs)[r.start] == Cut(page, r)
    decreases |rs|
  {
    if |rs| > 0 {
      var front := rs[..|rs| - 1];
      var last := rs[|rs| - 1];
      assert rs == front + [last];
      assert StartsDetermine(front) by {
        assert forall r | r in front :: r in rs;
      }
      SliceMapCuts(page, front);
      var m := SliceMap(page, front);
      assert SliceMap(page, rs) == m[last.start := Cut(page, last)];
      forall r | r in rs
        ensures SliceMap(page, rs)[r.start] == Cut(page, r)
      {
        if r != last {
          assert r in front;
          assert r.start != last.start;
        }
      }
    }
  }

  /** The slices of a well-formed layout's page satisfy everything the chunk loop
      lemmas ask of them. */
  lemma PairsWellFormedInPage(layout: Layout, page: seq<byte>)
    requires WellFormedLayout(layout) && |page| == layout.RawPageSize()
    ensures PairsWellFormed(SliceMap(page, PageRegions(layout)), ChunkPairs(layout))
    ensures forall r | r in PairRegions(ChunkPairs(layout)) ::
      SliceMap(page, PageRegions(layout))[r.start] == Cut(page, r)
  {
    ZippedInPage(layout);
    SubRegionsSliced(page, PageRegions(layout), PairRegions(ChunkPairs(layout)));
  }

  /** Some of the regions of a page, sliced out of it by all of them: each keeps
      its own slice, of its own length, and they still run forwards with one
      region per start. */
  lemma SubRegionsSliced(page: seq<byte>, rs: seq<Region>, pr: seq<Region>)
    requires forall r | r in rs :: 0 <= r.start <= r.end <= |page|
    requires StartsDetermine(rs)
    requires forall r | r in pr :: r in rs
    ensures Sized(SliceMap(page, rs), pr) && Forward(pr) && StartsDetermine(pr)
    ensures forall r | r in pr :: SliceMap(page, rs)[r.start] == Cut(page, r)
  {
    var m := SliceMap(page, rs);
    SliceMapCuts(page, rs);
    forall r | r in pr
      ensures r.start in m && m[r.start] == Cut(page, r) && |m[r.start]| == r.Length()
    {
      assert r in rs;
    }
  }

  /** A map keyed by the zipped starts, each holding a slice of its region's length,
      lies disjointly inside the raw page and covers exactly the zipped offsets. */
  lemma ZippedMapDisjoint(layout: Layout, c: RegionMap)
    requires WellFormedLayout(layout)
    requires c.Keys == StartsOf(PairRegions(ChunkPairs(layout)))
    requires forall r | r in PairRegions(ChunkPairs(layout)) :: |c[r.start]| == r.Length()
    ensures Disjoint(c, 0, layout.RawPageSize())
    ensures forall i :: Covered(c, i) <==> InZipped(layout, i)
  {
    var pr := PairRegions(ChunkPairs(layout));
    ZippedInPage(layout);
    forall i
      ensures Covered(c, i) <==> InZipped(layout, i)
    {
      if Covered(c, i) {
        var k :| k in c && k <= i < k + |c[k]|;
        var r :| r in pr && r.start == k;
        assert r.start <= i < r.end;
      }
      if InZipped(layout, i) {
        var r :| r in pr && r.start <= i < r.end;
        assert r.start in c;
      }
    }
  }

  /** With a length-preserving codec, a well-formed layout never faults on a raw
      page of its size; the page comes back at the raw size, and every byte
      outside the zipped regions comes back 0xFF, whatever the raw page held
      there. */
  lemma CorrectPageShape(layout: Layout, page: seq<byte>, bits: int)
    requires layout.bch.Some? && LengthPreserving(layout.bch.value)
    requires WellFormedLayout(layout) && |page| == layout.RawPageSize()
    ensures CorrectPage(layout, page, bits).Success?
    ensures var out := CorrectPage(layout, page, bits).value.page;
      && |out| == layout.RawPageSize()
      && forall i | 0 <= i < |out| && !InZipped(layout, i) :: out[i] == 0xFF
  {
    if AllErased(page, PageRegions(layout)) {
      CorrectPageErased(layout, page, bits);
    } else {
      DecodedFills(layout, page, bits);
      var m := SliceMap(page, PageRegions(layout));
      ZippedRebuild(layout, CorrectChunks(layout, m, ChunkPairs(layout), PageAcc(map[], false, bits)).value.corrected);
    }
  }

  /** The decoded half of `CorrectPageShape`: the chunk loop fills the zipped
      starts, and the page is rebuilt from what it stored. */
  lemma DecodedFills(layout: Layout, page: seq<byte>, bits: int)
    requires layout.bch.Some? && LengthPreserving(layout.bch.value)
    requires WellFormedLayout(layout) && |page| == layout.RawPageSize()
    requires !AllErased(page, PageRegions(layout))
    ensures PairsKeyed(SliceMap(page, PageRegions(layout)), ChunkPairs(layout))
    ensures var c := CorrectChunks(layout, SliceMap(page, PageRegions(layout)), ChunkPairs(layout), PageAcc(map[], false, bits));
      && c.Success?
      && Fills(map[], c.value.corrected, PairRegions(ChunkPairs(layout)))
      && CorrectPage(layout, page, bits).Success?
      && CorrectPage(layout, page, bits).value.page == RebuildBuffer(c.value.corrected, layout.RawPageSize())
  {
    PairsWellFormedInPage(layout, page);
    ChunksSucceed(layout, SliceMap(page, PageRegions(layout)), ChunkPairs(layout), PageAcc(map[], false, bits));
  }

  /** A map that fills the zipped starts from nothing rebuilds to a raw-size page
      that is 0xFF outside the zipped regions. */
  lemma ZippedRebuild(layout: Layout, c: RegionMap)
    requires WellFormedLayout(layout) && 0 <= layout.RawPageSize()
    requires Fills(map[], c, PairRegions(ChunkPairs(layout)))
    ensures var out := RebuildBuffer(c, layout.RawPageSize());
      && |out| == layout.RawPageSize()
      && forall i | 0 <= i < |out| && !InZipped(layout, i) :: out[i] == 0xFF
  {
    assert c.Keys == StartsOf(PairRegions(ChunkPairs(layout)));
    ZippedMapDisjoint(layout, c);
    RebuildPlaces(c, layout.RawPageSize());
  }

  /** The decoder repairs none of the zipped pairs of the page. */
  ghost predicate NoRepairs(layout: Layout, page: seq<byte>)
    requires layout.protectedData.Some? && layout.ecc.Some? && layout.bch.Some?
  {
    var m := SliceMap(page, PageRegions(layout));
    var pairs := ChunkPairs(layout);
    forall i | 0 <= i < |pairs| && Keyed(m, pairs[i].0) && Keyed(m, pairs[i].1)
                                && DecoderInput(layout, ChunkData(m, pairs[i]), ChunkEcc(m, pairs[i])).Success? ::
      !Repairs(DecodeVerdict(layout, ChunkData(m, pairs[i]), ChunkEcc(m, pairs[i])))
  }

  /** On an erased page every zipped offset already holds 0xFF. */
  lemma ErasedZipped(layout: Layout, page: seq<byte>, i: int)
    requires WellFormedLayout(layout) && |page| == layout.RawPageSize()
    requires AllErased(page, PageRegions(layout))
    requires 0 <= i < |page| && InZipped(layout, i)
    ensures page[i] == 0xFF
  {
    var rs := PageRegions(layout);
    ZippedInPage(layout);
    var r :| r in PairRegions(ChunkPairs(layout)) && r.start <= i < r.end;
    assert r in rs;
    ErasedRegion(page, rs, r, i);
  }

  /** An offset inside one of the regions of an erased page holds 0xFF. */
  lemma ErasedRegion(page: seq<byte>, rs: seq<Region>, r: Region, i: int)
    requires AllErased(page, rs) && r in rs
    requires 0 <= r.start <= i < r.end <= |page|
    ensures page[i] == 0xFF
  {
    var j :| 0 <= j < |rs| && rs[j] == r;
    assert AllFF(Cut(page, rs[j]));
    assert Cut(page, r)[i - r.start] == page[i];
  }

  /** Every zipped pair of a well-formed page reaches the decoder. */
  lemma PairsReachDecoder(layout: Layout, page: seq<byte>)
    requires WellFormedLayout(layout) && |page| == layout.RawPageSize()
    ensures PairsKeyed(SliceMap(page, PageRegions(layout)), ChunkPairs(layout))
    ensures var m := SliceMap(page, PageRegions(layout));
      forall i | 0 <= i < |ChunkPairs(layout)| ::
        DecoderInput(layout, ChunkData(m, ChunkPairs(layout)[i]), ChunkEcc(m, ChunkPairs(layout)[i])).Success?
  {
    var m := SliceMap(page, PageRegions(layout));
    var pairs := ChunkPairs(layout);
    PairsWellFormedInPage(layout, page);
    WellFormedKeyed(m, pairs);
    forall i | 0 <= i < |pairs|
      ensures DecoderInput(layout, ChunkData(m, pairs[i]), ChunkEcc(m, pairs[i])).Success?
    {
      assert NonEmptyPair(pairs[i]);
      forall r | r in pairs[i].0 || r in pairs[i].1
        ensures r in PairRegions(pairs)
      {
        InPairRegionsOf(pairs, i, r);
      }
      PairReachesDecoder(layout, m, pairs[i]);
    }
  }

  /** The raw slices of the zipped regions, keyed by start. */
  ghost function RawSlices(layout: Layout, page: seq<byte>): RegionMap
    requires layout.protectedData.Some? && layout.ecc.Some?
  {
    Restricted(SliceMap(page, PageRegions(layout)), StartsOf(PairRegions(ChunkPairs(layout))))
  }

  lemma RawSlicesShape(layout: Layout, page: seq<byte>)
    requires WellFormedLayout(layout) && |page| == layout.RawPageSize()
    ensures RawSlices(layout, page).Keys == StartsOf(PairRegions(ChunkPairs(layout)))
    ensures forall r | r in PairRegions(ChunkPairs(layout)) :: 0 <= r.start <= r.end <= |page|
    ensures forall r | r in PairRegions(ChunkPairs(layout)) ::
      RawSlices(layout, page)[r.start] == page[r.start..r.end]
  {
    var pr := PairRegions(ChunkPairs(layout));
    PairsWellFormedInPage(layout, page);
    ZippedInPage(layout);
    forall r | r in pr
      ensures RawSlices(layout, page)[r.start] == page[r.start..r.end]
    {
      assert r in PageRegions(layout);
    }
  }

  /** Rebuilding disjoint slices of a page gives the page back where they cover it
      and 0xFF elsewhere. */
  lemma RebuildOwnSlices(c: RegionMap, page: seq<byte>)
    requires Disjoint(c, 0, |page|)
    requires forall k | k in c :: 0 <= k && k + |c[k]| <= |page| && c[k] == page[k..k + |c[k]|]
    ensures |RebuildBuffer(c, |page|)| == |page|
    ensures forall i | 0 <= i < |page| ::
      RebuildBuffer(c, |page|)[i] == if Covered(c, i) then page[i] else 0xFF
  {
    RebuildPlaces(c, |page|);
    var out := RebuildBuffer(c, |page|);
    forall i | 0 <= i < |page| && Covered(c, i)
      ensures out[i] == page[i]
    {
      var k :| k in c && k <= i < k + |c[k]|;
      PlacedSlice(out, page, k, k + |c[k]|, c[k], i);
    }
  }

  lemma PlacedSlice(out: seq<byte>, page: seq<byte>, lo: int, hi: int, b: seq<byte>, i: int)
    requires 0 <= lo <= i < hi <= |page|
    requires b == page[lo..hi] && PlacedAt(out, lo, b)
    ensures out[i] == page[i]
  {
    assert out[lo + (i - lo)] == b[i - lo];
  }

  /** Slices keyed by region start, each the page's bytes of its region, are the
      page's bytes from their key on. */
  lemma SlicesFromRegions(c: RegionMap, rs: seq<Region>, page: seq<byte>)
    requires c.Keys == StartsOf(rs)
    requires forall r | r in rs :: 0 <= r.start <= r.end <= |page|
    requires forall r | r in rs :: c[r.start] == page[r.start..r.end]
    ensures forall k | k in c :: 0 <= k && k + |c[k]| <= |page| && c[k] == page[k..k + |c[k]|]
  {
    forall k | k in c
      ensures 0 <= k && k + |c[k]| <= |page| && c[k] == page[k..k + |c[k]|]
    {
      var r :| r in rs && r.start == k;
      assert k + |c[k]| == r.end;
    }
  }

  /** Rebuilding the raw slices of the zipped regions gives the raw page back inside
      them and 0xFF elsewhere. */
  lemma RebuildRawSlices(layout: Layout, page: seq<byte>)
    requires WellFormedLayout(layout) && |page| == layout.RawPageSize()
    ensures var out := RebuildBuffer(RawSlices(layout, page), layout.RawPageSize());
      && |out| == |page|
      && forall i | 0 <= i < |page| :: out[i] == if InZipped(layout, i) then page[i] else 0xFF
  {
    RawSlicesShape(layout, page);
    RebuildZippedSlices(layout, RawSlices(layout, page), page);
  }

  /** Rebuilding a map that holds, at each zipped start, the page's bytes of that
      region gives the page back inside the zipped regions and 0xFF elsewhere. */
  lemma RebuildZippedSlices(layout: Layout, c: RegionMap, page: seq<byte>)
    requires WellFormedLayout(layout) && |page| == layout.RawPageSize()
    requires c.Keys == StartsOf(PairRegions(ChunkPairs(layout)))
    requires forall r | r in PairRegions(ChunkPairs(layout)) :: 0 <= r.start <= r.end <= |page|
    requires forall r | r in PairRegions(ChunkPairs(layout)) :: c[r.start] == page[r.start..r.end]
    ensures var out := RebuildBuffer(c, layout.RawPageSize());
      && |out| == |page|
      && forall i | 0 <= i < |page| :: out[i] == if InZipped(layout, i) then page[i] else 0xFF
  {
    var pr := PairRegions(ChunkPairs(layout));
    SlicesFromRegions(c, pr, page);
    ZippedMapDisjoint(layout, c);
    RebuildOwnSlices(c, page);
    var out := RebuildBuffer(c, |page|);
    forall i | 0 <= i < |page|
      ensures out[i] == if InZipped(layout, i) then page[i] else 0xFF
    {
      assert Covered(c, i) <==> InZipped(layout, i);
    }
  }

  /** On a well-formed page the decoder repairs nothing in, every zipped pair is
      unrepaired. */
  lemma PagePairsUnrepaired(layout: Layout, page: seq<byte>)
    requires layout.bch.Some?
    requires WellFormedLayout(layout) && |page| == layout.RawPageSize()
    requires NoRepairs(layout, page)
    ensures PairsKeyed(SliceMap(page, PageRegions(layout)), ChunkPairs(layout))
    ensures forall i | 0 <= i < |ChunkPairs(layout)| ::
      Unrepaired(layout, SliceMap(page, PageRegions(layout)), ChunkPairs(layout)[i])
  {
    PairsReachDecoder(layout, page);
  }

  /** On a page the decoder repairs nothing in, the chunk loop stores the raw
      slices back and leaves the counter alone. */
  lemma CleanChunks(layout: Layout, page: seq<byte>, bits: int)
    requires layout.bch.Some? && layout.leftShift != 4
    requires WellFormedLayout(layout) && |page| == layout.RawPageSize()
    requires NoRepairs(layout, page)
    ensures PairsKeyed(SliceMap(page, PageRegions(layout)), ChunkPairs(layout))
    ensures var r := CorrectChunks(layout, SliceMap(page, PageRegions(layout)), ChunkPairs(layout), PageAcc(map[], false, bits));
      r.Success? && r.value.corrected == RawSlices(layout, page) && r.value.bits == bits
  {
    PairsWellFormedInPage(layout, page);
    PagePairsUnrepaired(layout, page);
    ChunksCleanFromEmpty(layout, SliceMap(page, PageRegions(layout)), ChunkPairs(layout), bits);
  }

  /** `ChunksClean` from the loop's initial state. */
  lemma ChunksCleanFromEmpty(layout: Layout, m: RegionMap, pairs: seq<(Chunk, Chunk)>, bits: int)
    requires layout.bch.Some? && layout.leftShift != 4
    requires PairsWellFormed(m, pairs)
    requires PairsKeyed(m, pairs)
    requires forall i | 0 <= i < |pairs| :: Unrepaired(layout, m, pairs[i])
    ensures var r := CorrectChunks(layout, m, pairs, PageAcc(map[], false, bits));
      r.Success? && r.value.corrected == Restricted(m, StartsOf(PairRegions(pairs))) && r.value.bits == bits
  {
    ChunksClean(layout, m, pairs, PageAcc(map[], false, bits));
    var c := Restricted(m, StartsOf(PairRegions(pairs)));
    assert map[] + c == c;
  }

  /** The decoded half of `CorrectPageClean`. */
  lemma CleanDecoded(layout: Layout, page: seq<byte>, bits: int)
    requires layout.bch.Some? && layout.leftShift != 4
    requires WellFormedLayout(layout) && |page| == layout.RawPageSize()
    requires NoRepairs(layout, page)
    requires !AllErased(page, PageRegions(layout))
    ensures CorrectPage(layout, page, bits).Success?
    ensures CorrectPage(layout, page, bits).value.page == RebuildBuffer(RawSlices(layout, page), layout.RawPageSize())
    ensures CorrectPage(layout, page, bits).value.bits == bits
  {
    CleanChunks(layout, page, bits);
  }

  /** A page the decoder finds nothing to repair in, without the nibble shift,
      reads back as itself inside the zipped regions and as 0xFF everywhere else,
      with the counter unchanged; `correct` is never consulted, so no assumption
      on the codec is needed. */
  lemma CorrectPageClean(layout: Layout, page: seq<byte>, bits: int)
    requires layout.bch.Some? && layout.leftShift != 4
    requires WellFormedLayout(layout) && |page| == layout.RawPageSize()
    requires NoRepairs(layout, page)
    ensures CorrectPage(layout, page, bits).Success?
    ensures var out := CorrectPage(layout, page, bits).value;
      && out.bits == bits
      && |out.page| == |page|
      && forall i | 0 <= i < |page| :: out.page[i] == if InZipped(layout, i) then page[i] else 0xFF
  {
    if AllErased(page, PageRegions(layout)) {
      forall i | 0 <= i < |page| && InZipped(layout, i)
        ensures page[i] == 0xFF
      {
        ErasedZipped(layout, page, i);
      }
    } else {
      CleanDecoded(layout, page, bits);
      RebuildRawSlices(layout, page);
    }
  }

  /** With a length-preserving codec and a well-formed layout, a raw page that is
      not erased is corrected without fault, and the counter grows by exactly the
      flips `decode` repaired in its zipped chunk pairs. */
  lemma CorrectPageCount(layout: Layout, page: seq<byte>, bits: int)
    requires layout.bch.Some? && LengthPreserving(layout.bch.value)
    requires WellFormedLayout(layout) && |page| == layout.RawPageSize()
    requires !AllErased(page, PageRegions(layout))
    ensures PairsKeyed(SliceMap(page, PageRegions(layout)), ChunkPairs(layout))
    ensures CorrectPage(layout, page, bits).Success?
    ensures CorrectPage(layout, page, bits).value.bits
            == bits + PairsFlips(layout, SliceMap(page, PageRegions(layout)), ChunkPairs(layout))
  {
    CorrectPageShape(layout, page, bits);
    CorrectPageBits(layout, page, bits);
  }

  /** Every region of a pair is among the pairs' regions. */
  lemma {:induction false} InPairRegionsOf(pairs: seq<(Chunk, Chunk)>, i: nat, r: Region)
    requires i < |pairs| && (r in pairs[i].0 || r in pairs[i].1)
    ensures r in PairRegions(pairs)
    decreases i
  {
    if i > 0 {
      InPairRegionsOf(pairs[1..], i - 1, r);
    }
  }

  // ---------------------------------------------------------------------------
  // The counter

  /** The faults a page correction can raise. */
  predicate PageFault(f: Fault) {
    f.HexOfNone? || f.NoneToDecoder? || f.OddLengthHex? || f.SliceOfNone? || f.LeftoverAfterSplit?
  }

  lemma StepFaults(layout: Layout, m: RegionMap, pair: (Chunk, Chunk), acc: PageAcc)
    requires layout.bch.Some?
    requires Keyed(m, pair.0) && Keyed(m, pair.1)
    ensures ChunkStep(layout, m, pair, acc).Failure? ==> PageFault(ChunkStep(layout, m, pair, acc).fault)
  {
  }

  /** One pass from any count is the pass from zero shifted by that count. */
  lemma StepBitsShift(layout: Layout, m: RegionMap, pair: (Chunk, Chunk), acc: PageAcc, d: int)
    requires layout.bch.Some?
    requires Keyed(m, pair.0) && Keyed(m, pair.1)
    ensures var r := ChunkStep(layout, m, pair, acc);
      var s := ChunkStep(layout, m, pair, acc.(bits := acc.bits + d));
      && r.Success? == s.Success?
      && (r.Failure? ==> r.fault == s.fault)
      && (r.Success? ==> s.value == r.value.(bits := r.value.bits + d))
  {
    ChunkBitsShift(layout, ChunkData(m, pair), ChunkEcc(m, pair), acc.bits);
    ChunkBitsShift(layout, ChunkData(m, pair), ChunkEcc(m, pair), acc.bits + d);
  }

  /** The shape of the chunk loop over any step function: apply the step to each
      item in order, threading the state; the first failure ends it. */
  function FoldSteps<P>(step: (P, PageAcc) --> Result<PageAcc>, ps: seq<P>, acc: PageAcc): Result<PageAcc>
    requires forall p, a | p in ps :: step.requires(p, a)
    decreases |ps|
  {
    if |ps| == 0 then Success(acc)
    else
      var acc' :- step(ps[0], acc);
      FoldSteps(step, ps[1..], acc')
  }

  /** One pass of the chunk loop as a step function. */
  function StepOf(layout: Layout, m: RegionMap): ((Chunk, Chunk), PageAcc) --> Result<PageAcc> {
    (pair: (Chunk, Chunk), a: PageAcc) requires layout.bch.Some? && Keyed(m, pair.0) && Keyed(m, pair.1) =>
      ChunkStep(layout, m, pair, a)
  }

  /** The chunk loop is the fold of its step. */
  lemma {:induction false} ChunksAsFold(layout: Layout, m: RegionMap, pairs: seq<(Chunk, Chunk)>, acc: PageAcc)
    requires layout.bch.Some?
    requires PairsKeyed(m, pairs)
    ensures forall p, a | p in pairs :: StepOf(layout, m).requires(p, a)
    ensures CorrectChunks(layout, m, pairs, acc) == FoldSteps(StepOf(layout, m), pairs, acc)
    decreases |pairs|
  {
    forall p, a | p in pairs
      ensures StepOf(layout, m).requires(p, a)
    {
      var i :| 0 <= i < |pairs| && pairs[i] == p;
    }
    if |pairs| > 0 {
      var step := ChunkStep(layout, m, pairs[0], acc);
      assert PairsKeyed(m, pairs[1..]);
      if step.Success? {
        ChunksAsFold(layout, m, pairs[1..], step.value);
      }
    }
  }

  /** A fold of steps that raise only page faults raises only page faults. */
  lemma {:induction false} FoldFaults<P>(step: (P, PageAcc) --> Result<PageAcc>, ps: seq<P>, acc: PageAcc)
    requires forall p, a | p in ps :: step.requires(p, a)
    requires forall p, a | p in ps :: step(p, a).Failure? ==> PageFault(step(p, a).fault)
    ensures FoldSteps(step, ps, acc).Failure? ==> PageFault(FoldSteps(step, ps, acc).fault)
    decreases |ps|
  {
    if |ps| > 0 {
      assert ps[0] in ps;
      var r := step(ps[0], acc);
      if r.Success? {
        assert forall p | p in ps[1..] :: p in ps;
        FoldFaults(step, ps[1..], r.value);
      }
    }
  }

  /** Starting the step from a count `d` higher only raises its resulting count by
      `d`: success, fault and everything else are unchanged. */
  ghost predicate ShiftsBy<P>(step: (P, PageAcc) --> Result<PageAcc>, p: P, a: PageAcc, d: int)
    requires step.requires(p, a) && step.requires(p, a.(bits := a.bits + d))
  {
    var r := step(p, a);
    var s := step(p, a.(bits := a.bits + d));
    && r.Success? == s.Success?
    && (r.Failure? ==> r.fault == s.fault)
    && (r.Success? ==> s.value == r.value.(bits := r.value.bits + d))
  }

  /** A fold of steps that only add to the counter only adds to the counter. */
  lemma {:induction false} FoldShift<P>(step: (P, PageAcc) --> Result<PageAcc>, ps: seq<P>, acc: PageAcc, d: int)
    requires forall p, a | p in ps :: step.requires(p, a)
    requires forall p, a | p in ps :: ShiftsBy(step, p, a, d)
    ensures var r := FoldSteps(step, ps, acc);
      var s := FoldSteps(step, ps, acc.(bits := acc.bits + d));
      && r.Success? == s.Success?
      && (r.Failure? ==> r.fault == s.fault)
      && (r.Success? ==> s.value == r.value.(bits := r.value.bits + d))
    decreases |ps|
  {
    if |ps| > 0 {
      assert ps[0] in ps;
      assert ShiftsBy(step, ps[0], acc, d);
      var r := step(ps[0], acc);
      if r.Success? {
        assert forall p | p in ps[1..] :: p in ps;
        FoldShift(step, ps[1..], r.value, d);
      }
    }
  }

  /** The loop only raises page faults. */
  lemma ChunksFaults(layout: Layout, m: RegionMap, pairs: seq<(Chunk, Chunk)>, acc: PageAcc)
    requires layout.bch.Some?
    requires PairsKeyed(m, pairs)
    ensures CorrectChunks(layout, m, pairs, acc).Failure? ==> PageFault(CorrectChunks(layout, m, pairs, acc).fault)
  {
    ChunksAsFold(layout, m, pairs, acc);
    forall p, a | p in pairs
      ensures StepOf(layout, m)(p, a).Failure? ==> PageFault(StepOf(layout, m)(p, a).fault)
    {
      StepFaults(layout, m, p, a);
    }
    FoldFaults(StepOf(layout, m), pairs, acc);
  }

  /** The loop from any count is the loop from zero shifted by that count. */
  lemma ChunksBitsShift(layout: Layout, m: RegionMap, pairs: seq<(Chunk, Chunk)>, acc: PageAcc, d: int)
    requires layout.bch.Some?
    requires PairsKeyed(m, pairs)
    ensures var r := CorrectChunks(layout, m, pairs, acc);
      var s := CorrectChunks(layout, m, pairs, acc.(bits := acc.bits + d));
      && r.Success? == s.Success?
      && (r.Failure? ==> r.fault == s.fault)
      && (r.Success? ==> s.value == r.value.(bits := r.value.bits + d))
  {
    ChunksAsFold(layout, m, pairs, acc);
    ChunksAsFold(layout, m, pairs, acc.(bits := acc.bits + d));
    forall p, a | p in pairs
      ensures ShiftsBy(StepOf(layout, m), p, a, d)
    {
      StepBitsShift(layout, m, p, a, d);
    }
    FoldShift(StepOf(layout, m), pairs, acc, d);
  }

  /** The page outcome does not depend on the count it starts from: success, fault,
      page and flag are those of the call from zero, and the count is shifted. A
      failure is always a page fault. */
  lemma CorrectPageBitsShift(layout: Layout, page: seq<byte>, bits: int)
    requires layout.protectedData.Some? && layout.ecc.Some? && layout.bch.Some?
    ensures var r := CorrectPage(layout, page, bits);
      var z := CorrectPage(layout, page, 0);
      && r.Success? == z.Success?
      && (r.Failure? ==> r.fault == z.fault && PageFault(r.fault))
      && (r.Success? ==> r.value == z.value.(bits := bits + z.value.bits))
  {
    if !AllErased(page, PageRegions(layout)) {
      PairsKeyedInPage(layout, page);
      var m := SliceMap(page, PageRegions(layout));
      var rc := CorrectChunks(layout, m, ChunkPairs(layout), PageAcc(map[], false, bits));
      var zc := CorrectChunks(layout, m, ChunkPairs(layout), PageAcc(map[], false, 0));
      FreshChunksBitsShift(layout, m, ChunkPairs(layout), bits);
      if rc.Success? {
        assert CorrectPage(layout, page, bits).value
          == PageOutcome(RebuildBuffer(rc.value.corrected, layout.RawPageSize()), rc.value.uncorrectable, rc.value.bits);
        assert CorrectPage(layout, page, 0).value
          == PageOutcome(RebuildBuffer(zc.value.corrected, layout.RawPageSize()), zc.value.uncorrectable, zc.value.bits);
      } else {
        assert CorrectPage(layout, page, bits) == Failure(rc.fault);
        assert CorrectPage(layout, page, 0) == Failure(zc.fault);
      }
    }
  }

  /** The counter shift of the chunk loop from its initial state. */
  lemma FreshChunksBitsShift(layout: Layout, m: RegionMap, pairs: seq<(Chunk, Chunk)>, bits: int)
    requires layout.bch.Some? && PairsKeyed(m, pairs)
    ensures var r := CorrectChunks(layout, m, pairs, PageAcc(map[], false, bits));
      var z := CorrectChunks(layout, m, pairs, PageAcc(map[], false, 0));
      && r.Success? == z.Success?
      && (r.Failure? ==> r.fault == z.fault && PageFault(r.fault))
      && (r.Success? ==> r.value == z.value.(bits := bits + z.value.bits))
  {
    var zero := PageAcc(map[], false, 0);
    assert zero.(bits := zero.bits + bits) == PageAcc(map[], false, bits);
    ChunksBitsShift(layout, m, pairs, zero, bits);
    ChunksFaults(layout, m, pairs, zero);
  }

  // ---------------------------------------------------------------------------
  // Repaired pages

  /** Where range `t` of a chunk begins in the chunk's joined buffer: the lengths
      of the ranges before it, added up as the re-split walks the list. */
  function Offset(rs: seq<Region>, t: nat): int
    requires t <= |rs|
  {
    if t == 0 then 0 else rs[0].Length() + Offset(rs[1..], t - 1)
  }

  /** The piece of a chunk's buffer that the re-split of nandtool/nand.py:178-187
      hands to range `t`: `buf[offset:offset + length]`. */
  function Piece(b: seq<byte>, rs: seq<Region>, t: nat): seq<byte>
    requires t < |rs|
  {
    Slice(b, Offset(rs, t), Offset(rs, t) + rs[t].Length())
  }

  /** No start offset is listed twice, so no range is overwritten by a later one. */
  ghost predicate DistinctStarts(rs: seq<Region>) {
    forall i, k | 0 <= i < k < |rs| :: rs[i].start != rs[k].start
  }

  /** Both parts of a list without repeated starts are without repeated starts,
      and they share no start. */
  lemma DistinctSplit(a: seq<Region>, b: seq<Region>)
    requires DistinctStarts(a + b)
    ensures DistinctStarts(a) && DistinctStarts(b)
    ensures forall r | r in a :: r.start !in StartsOf(b)
  {
    forall i, k | 0 <= i < k < |a|
      ensures a[i].start != a[k].start
    {
      assert (a + b)[i] == a[i] && (a + b)[k] == a[k];
    }
    forall i, k | 0 <= i < k < |b|
      ensures b[i].start != b[k].start
    {
      assert (a + b)[|a| + i] == b[i] && (a + b)[|a| + k] == b[k];
    }
    forall r | r in a
      ensures r.start !in StartsOf(b)
    {
      var i :| 0 <= i < |a| && a[i] == r;
      forall r2 | r2 in b
        ensures r2.start != r.start
      {
        var k :| 0 <= k < |b| && b[k] == r2;
        assert (a + b)[i] == r && (a + b)[|a| + k] == r2;
      }
    }
  }

  /** A forward range's piece lies inside the joined buffer. */
  lemma {:induction false} OffsetBounds(rs: seq<Region>, t: nat)
    requires Forward(rs) && t < |rs|
    ensures 0 <= Offset(rs, t) && Offset(rs, t) + rs[t].Length() <= TotalLength(rs)
  {
    assert rs[0] in rs;
    TotalLengthNonNegative(rs[1..]);
    if t > 0 {
      OffsetBounds(rs[1..], t - 1);
      assert rs[1..][t - 1] == rs[t];
    }
  }

  /** Range `t` of the list takes the same piece as range `t - 1` of its tail
      takes from what follows the first piece, when the pieces fit the buffer. */
  lemma PieceTail(b: seq<byte>, rs: seq<Region>, t: nat)
    requires 0 < t < |rs|
    requires 0 <= rs[0].Length() && 0 <= Offset(rs[1..], t - 1) && 0 <= rs[t].Length()
    requires rs[0].Length() + Offset(rs[1..], t - 1) + rs[t].Length() <= |b|
    ensures Piece(b, rs, t) == Piece(Slice(b, rs[0].Length(), |b|), rs[1..], t - 1)
  {
    assert rs[1..][t - 1] == rs[t];
    WindowShift(b, rs[0].Length(), Offset(rs[1..], t - 1), rs[t].Length());
  }

  /** A window of what follows the first `len` elements is the window `len`
      further on. */
  lemma WindowShift<T>(b: seq<T>, len: int, o: int, n: int)
    requires 0 <= len && 0 <= o && 0 <= n && len + o + n <= |b|
    ensures Slice(Slice(b, len, |b|), o, o + n) == Slice(b, len + o, len + o + n)
  {
    assert Slice(b, len, |b|) == b[len..];
  }

  /** The split leaves alone an entry none of its ranges starts at. */
  lemma SplitKeeps(b: seq<byte>, rs: seq<Region>, into: RegionMap, k: int)
    requires Forward(rs) && StartsDetermine(rs) && |b| == TotalLength(rs)
    requires k in into && k !in StartsOf(rs)
    ensures SplitBytes(b, rs, into).Success?
    ensures k in SplitBytes(b, rs, into).value && SplitBytes(b, rs, into).value[k] == into[k]
  {
    SplitExact(b, rs, into);
  }

  /** The first step of the split: the first range's piece is stored, and the
      rest of the buffer goes to the rest of the ranges. */
  lemma SplitFirst(b: seq<byte>, rs: seq<Region>, into: RegionMap)
    requires Forward(rs) && StartsDetermine(rs) && |b| == TotalLength(rs) && |rs| > 0
    ensures 0 <= rs[0].Length() <= |b|
    ensures Forward(rs[1..]) && StartsDetermine(rs[1..])
    ensures |Slice(b, rs[0].Length(), |b|)| == TotalLength(rs[1..])
    ensures SplitBytes(b, rs, into)
            == SplitBytes(Slice(b, rs[0].Length(), |b|), rs[1..], into[rs[0].start := Piece(b, rs, 0)])
  {
    assert rs[0] in rs;
    TotalLengthNonNegative(rs[1..]);
  }

  /** The re-split gives range `t` its piece of the buffer, when no later range
      shares its start. */
  lemma {:induction false} SplitPiece(b: seq<byte>, rs: seq<Region>, into: RegionMap, t: nat)
    requires Forward(rs) && StartsDetermine(rs)
    requires |b| == TotalLength(rs) && t < |rs|
    requires forall u | t < u < |rs| :: rs[u].start != rs[t].start
    ensures SplitBytes(b, rs, into).Success?
    ensures rs[t].start in SplitBytes(b, rs, into).value
    ensures SplitBytes(b, rs, into).value[rs[t].start] == Piece(b, rs, t)
    decreases |rs|
  {
    SplitFirst(b, rs, into);
    var b' := Slice(b, rs[0].Length(), |b|);
    var into' := into[rs[0].start := Piece(b, rs, 0)];
    if t == 0 {
      forall r | r in rs[1..]
        ensures r.start != rs[0].start
      {
        var u :| 0 <= u < |rs[1..]| && rs[1..][u] == r;
        assert rs[u + 1] == r;
      }
      SplitKeeps(b', rs[1..], into', rs[0].start);
    } else {
      SplitPiece(b', rs[1..], into', t - 1);
      assert rs[t] in rs && rs[1..][t - 1] == rs[t];
      OffsetBounds(rs[1..], t - 1);
      PieceTail(b, rs, t);
    }
  }

  /** One half of a pair: its data ranges, or its parity ranges. */
  function Half(pair: (Chunk, Chunk), parity: bool): Chunk {
    if parity then pair.1 else pair.0
  }

  /** The corrected buffer of that half. */
  function HalfOut(out: ChunkOutcome, parity: bool): Buf {
    if parity then out.ecc else out.data
  }

  /** What `bch_correct_chunk` returns for a pair; its buffers do not depend on
      the counter it is called with. */
  ghost function PairOutcome(layout: Layout, m: RegionMap, pair: (Chunk, Chunk)): Result<ChunkOutcome>
    requires layout.bch.Some? && Keyed(m, pair.0) && Keyed(m, pair.1)
  {
    BchCorrectChunk(layout, ChunkData(m, pair), ChunkEcc(m, pair), 0)
  }

  /** One pass over a well-formed pair splits the pair's own corrected buffers,
      which do not depend on the counter the pass starts from. */
  lemma StepSplits(layout: Layout, m: RegionMap, pair: (Chunk, Chunk), acc: PageAcc)
    requires layout.bch.Some? && LengthPreserving(layout.bch.value)
    requires Sized(m, pair.0) && Sized(m, pair.1) && NonEmptyPair(pair)
    requires Forward(pair.0 + pair.1) && StartsDetermine(pair.0 + pair.1)
    ensures Keyed(m, pair.0) && Keyed(m, pair.1)
    ensures PairOutcome(layout, m, pair).Success?
    ensures var z := PairOutcome(layout, m, pair).value;
      && z.data.Some? && |z.data.value| == TotalLength(pair.0)
      && z.ecc.Some? && |z.ecc.value| == TotalLength(pair.1)
      && SplitBytes(z.data.value, pair.0, acc.corrected).Success?
      && var c1 := SplitBytes(z.data.value, pair.0, acc.corrected).value;
         && SplitBytes(z.ecc.value, pair.1, c1).Success?
         && ChunkStep(layout, m, pair, acc).Success?
         && ChunkStep(layout, m, pair, acc).value.corrected == SplitBytes(z.ecc.value, pair.1, c1).value
  {
    StepSucceeds(layout, m, pair, acc);
    PairReachesDecoder(layout, m, pair);
    var data := ChunkData(m, pair);
    var ecc := ChunkEcc(m, pair);
    ChunkPreservesLengths(layout, data, ecc, acc.bits);
    ChunkBitsShift(layout, data, ecc, acc.bits);
    var z := PairOutcome(layout, m, pair).value;
    SplitExact(z.data.value, pair.0, acc.corrected);
    SplitExact(z.ecc.value, pair.1, SplitBytes(z.data.value, pair.0, acc.corrected).value);
  }

  /** One pass stores, at the start of range `t` of either half, that range's
      piece of the half's corrected buffer, when no start of the pair is listed
      twice. */
  lemma StepPiece(layout: Layout, m: RegionMap, pair: (Chunk, Chunk), acc: PageAcc, parity: bool, t: nat)
    requires layout.bch.Some? && LengthPreserving(layout.bch.value)
    requires Sized(m, pair.0) && Sized(m, pair.1) && NonEmptyPair(pair)
    requires Forward(pair.0 + pair.1) && StartsDetermine(pair.0 + pair.1)
    requires DistinctStarts(pair.0 + pair.1)
    requires t < |Half(pair, parity)|
    ensures Keyed(m, pair.0) && Keyed(m, pair.1)
    ensures ChunkStep(layout, m, pair, acc).Success?
    ensures PairOutcome(layout, m, pair).Success? && HalfOut(PairOutcome(layout, m, pair).value, parity).Some?
    ensures Half(pair, parity)[t].start in ChunkStep(layout, m, pair, acc).value.corrected
    ensures ChunkStep(layout, m, pair, acc).value.corrected[Half(pair, parity)[t].start]
            == Piece(HalfOut(PairOutcome(layout, m, pair).value, parity).value, Half(pair, parity), t)
  {
    StepSplits(layout, m, pair, acc);
    var z := PairOutcome(layout, m, pair).value;
    var c1 := SplitBytes(z.data.value, pair.0, acc.corrected).value;
    DistinctSplit(pair.0, pair.1);
    if parity {
      SplitPiece(z.ecc.value, pair.1, c1, t);
    } else {
      SplitPiece(z.data.value, pair.0, acc.corrected, t);
      assert pair.0[t] in pair.0;
      SplitKeeps(z.ecc.value, pair.1, c1, pair.0[t].start);
    }
  }

  /** The state holds `v` at `k`. */
  predicate Stores(a: PageAcc, k: int, v: seq<byte>) {
    k in a.corrected && a.corrected[k] == v
  }

  /** A fold whose step `j` stores `v` at `k`, from whatever state, and whose later
      steps keep what is stored at `k`, ends with `v` at `k`; a negative `j` means
      the entry is stored before the fold begins. */
  lemma {:induction false} FoldStores<P>(step: (P, PageAcc) --> Result<PageAcc>, ps: seq<P>, acc: PageAcc,
                                         j: int, k: int, v: seq<byte>)
    requires forall p, a | p in ps :: step.requires(p, a)
    requires j < |ps|
    requires j < 0 ==> Stores(acc, k, v)
    requires 0 <= j ==> forall a | step.requires(ps[j], a) ::
      step(ps[j], a).Success? ==> Stores(step(ps[j], a).value, k, v)
    requires forall i, a | 0 <= i < |ps| && j < i && step.requires(ps[i], a) && Stores(a, k, v) ::
      step(ps[i], a).Success? ==> Stores(step(ps[i], a).value, k, v)
    ensures FoldSteps(step, ps, acc).Success? ==> Stores(FoldSteps(step, ps, acc).value, k, v)
    decreases |ps|
  {
    if |ps| > 0 {
      assert ps[0] in ps;
      var r := step(ps[0], acc);
      if r.Success? {
        if j <= 0 {
          assert Stores(r.value, k, v);
        }
        assert forall p | p in ps[1..] :: p in ps;
        forall i, a | 0 <= i < |ps[1..]| && j - 1 < i && step.requires(ps[1..][i], a) && Stores(a, k, v)
          ensures step(ps[1..][i], a).Success? ==> Stores(step(ps[1..][i], a).value, k, v)
        {
          assert ps[1..][i] == ps[i + 1];
        }
        if j > 0 {
          assert ps[1..][j - 1] == ps[j];
        }
        FoldStores(step, ps[1..], r.value, j - 1, k, v);
      }
    }
  }

  /** Every pair of well-formed pairs is well-formed on its own. */
  lemma PairWellFormedAt(m: RegionMap, pairs: seq<(Chunk, Chunk)>, j: nat)
    requires PairsWellFormed(m, pairs) && j < |pairs|
    ensures var pair := pairs[j];
      && Sized(m, pair.0) && Sized(m, pair.1) && NonEmptyPair(pair)
      && Forward(pair.0 + pair.1) && StartsDetermine(pair.0 + pair.1)
  {
    forall r | r in pairs[j].0 + pairs[j].1
      ensures r in PairRegions(pairs)
    {
      InPairRegionsOf(pairs, j, r);
    }
  }

  /** No start is listed twice within one pair when none is across the pairs. */
  lemma {:induction false} PairDistinctAt(pairs: seq<(Chunk, Chunk)>, j: nat)
    requires DistinctStarts(PairRegions(pairs)) && j < |pairs|
    ensures DistinctStarts(pairs[j].0 + pairs[j].1)
    decreases j
  {
    PairRegionsSplit(pairs);
    DistinctSplit(pairs[0].0 + pairs[0].1, PairRegions(pairs[1..]));
    if j > 0 {
      assert pairs[1..][j - 1] == pairs[j];
      PairDistinctAt(pairs[1..], j - 1);
    }
  }

  /** Without repeated starts, no region of pair `j` starts where a region of a
      later pair does. */
  lemma {:induction false} LaterStartsDiffer(pairs: seq<(Chunk, Chunk)>, j: nat, i: nat, r: Region)
    requires DistinctStarts(PairRegions(pairs))
    requires j < i < |pairs| && r in pairs[j].0 + pairs[j].1
    ensures r.start !in StartsOf(pairs[i].0 + pairs[i].1)
    decreases j
  {
    PairRegionsSplit(pairs);
    DistinctSplit(pairs[0].0 + pairs[0].1, PairRegions(pairs[1..]));
    assert pairs[1..][i - 1] == pairs[i];
    if j == 0 {
      forall r2 | r2 in pairs[i].0 + pairs[i].1
        ensures r2.start != r.start
      {
        InPairRegionsOf(pairs[1..], i - 1, r2);
      }
    } else {
      assert pairs[1..][j - 1] == pairs[j];
      LaterStartsDiffer(pairs[1..], j - 1, i - 1, r);
    }
  }

  /** After the loop, the start of range `t` of either half of pair `j` holds that
      range's piece of the pair's corrected buffer, when no start is listed twice
      across the pairs. */
  lemma ChunksPiece(layout: Layout, m: RegionMap, pairs: seq<(Chunk, Chunk)>, acc: PageAcc,
                    j: nat, parity: bool, t: nat)
    requires layout.bch.Some? && LengthPreserving(layout.bch.value)
    requires PairsWellFormed(m, pairs) && DistinctStarts(PairRegions(pairs))
    requires j < |pairs| && t < |Half(pairs[j], parity)|
    ensures PairsKeyed(m, pairs)
    ensures CorrectChunks(layout, m, pairs, acc).Success?
    ensures PairOutcome(layout, m, pairs[j]).Success?
    ensures HalfOut(PairOutcome(layout, m, pairs[j]).value, parity).Some?
    ensures Half(pairs[j], parity)[t].start in CorrectChunks(layout, m, pairs, acc).value.corrected
    ensures CorrectChunks(layout, m, pairs, acc).value.corrected[Half(pairs[j], parity)[t].start]
            == Piece(HalfOut(PairOutcome(layout, m, pairs[j]).value, parity).value, Half(pairs[j], parity), t)
  {
    ChunksSucceed(layout, m, pairs, acc);
    ChunksAsFold(layout, m, pairs, acc);
    PairWellFormedAt(m, pairs, j);
    PairDistinctAt(pairs, j);
    StepPiece(layout, m, pairs[j], acc, parity, t);
    var r := Half(pairs[j], parity)[t];
    var v := Piece(HalfOut(PairOutcome(layout, m, pairs[j]).value, parity).value, Half(pairs[j], parity), t);
    var step := StepOf(layout, m);
    forall a | step.requires(pairs[j], a)
      ensures step(pairs[j], a).Success? ==> Stores(step(pairs[j], a).value, r.start, v)
    {
      StepPiece(layout, m, pairs[j], a, parity, t);
    }
    assert r in pairs[j].0 + pairs[j].1;
    forall i, a | j < i < |pairs| && step.requires(pairs[i], a) && Stores(a, r.start, v)
      ensures step(pairs[i], a).Success? ==> Stores(step(pairs[i], a).value, r.start, v)
    {
      PairWellFormedAt(m, pairs, i);
      StepSucceeds(layout, m, pairs[i], a);
      LaterStartsDiffer(pairs, j, i, r);
    }
    FoldStores(step, pairs, acc, j, r.start, v);
  }

  /** Bytes placed at `k` are the window of the output at `k`. */
  lemma PlacedWindow(out: seq<byte>, k: int, b: seq<byte>)
    requires PlacedAt(out, k, b)
    ensures out[k..k + |b|] == b
  {
  }

  /** A map that fills the zipped starts from nothing rebuilds to a page holding,
      over each zipped region, what the map stores at its start. */
  lemma RebuiltWindows(layout: Layout, c: RegionMap)
    requires WellFormedLayout(layout) && 0 <= layout.RawPageSize()
    requires Fills(map[], c, PairRegions(ChunkPairs(layout)))
    ensures var out := RebuildBuffer(c, layout.RawPageSize());
      forall r | r in PairRegions(ChunkPairs(layout)) ::
        && 0 <= r.start <= r.end <= |out|
        && r.start in c && out[r.start..r.end] == c[r.start]
  {
    ZippedInPage(layout);
    ZippedMapDisjoint(layout, c);
    RebuildPlaces(c, layout.RawPageSize());
    var out := RebuildBuffer(c, layout.RawPageSize());
    forall r | r in PairRegions(ChunkPairs(layout))
      ensures 0 <= r.start <= r.end <= |out| && r.start in c && out[r.start..r.end] == c[r.start]
    {
      assert r in PageRegions(layout);
      PlacedWindow(out, r.start, c[r.start]);
    }
  }

  /** Range `t` of the data (or, with `parity`, the parity) half of zipped pair
      `j` holds, in `out`, its piece of what `bch_correct_chunk` returned for the
      pair's slices in `m`. */
  ghost predicate RangeRepaired(layout: Layout, m: RegionMap, pairs: seq<(Chunk, Chunk)>, out: seq<byte>,
                                j: int, parity: bool, t: int)
    requires layout.bch.Some? && PairsKeyed(m, pairs)
    requires 0 <= j < |pairs| && 0 <= t < |Half(pairs[j], parity)|
  {
    var pair := pairs[j];
    assert Keyed(m, pair.0) && Keyed(m, pair.1);
    var z := PairOutcome(layout, m, pair);
    var half := Half(pair, parity);
    && z.Success? && HalfOut(z.value, parity).Some?
    && 0 <= half[t].start <= half[t].end <= |out|
    && out[half[t].start..half[t].end] == Piece(HalfOut(z.value, parity).value, half, t)
  }

  /** One range of one zipped pair holds, in the corrected page, its piece of the
      pair's corrected buffer. */
  lemma PageRangeRepaired(layout: Layout, page: seq<byte>, bits: int, j: nat, parity: bool, t: nat)
    requires layout.bch.Some? && LengthPreserving(layout.bch.value)
    requires WellFormedLayout(layout) && |page| == layout.RawPageSize()
    requires DistinctStarts(PairRegions(ChunkPairs(layout)))
    requires !AllErased(page, PageRegions(layout))
    requires j < |ChunkPairs(layout)| && t < |Half(ChunkPairs(layout)[j], parity)|
    ensures PairsKeyed(SliceMap(page, PageRegions(layout)), ChunkPairs(layout))
    ensures CorrectPage(layout, page, bits).Success?
    ensures RangeRepaired(layout, SliceMap(page, PageRegions(layout)), ChunkPairs(layout),
                          CorrectPage(layout, page, bits).value.page, j, parity, t)
  {
    var m := SliceMap(page, PageRegions(layout));
    var pairs := ChunkPairs(layout);
    var acc := PageAcc(map[], false, bits);
    DecodedFills(layout, page, bits);
    PairsWellFormedInPage(layout, page);
    var c := CorrectChunks(layout, m, pairs, acc).value.corrected;
    RebuiltWindows(layout, c);
    ChunksPiece(layout, m, pairs, acc, j, parity, t);
    InPairRegionsOf(pairs, j, Half(pairs[j], parity)[t]);
  }

  /** A well-formed page that is not erased, with a length-preserving codec and no
      range listed twice among the zipped pairs: every range of every zipped pair,
      data or parity, holds in the corrected page its own piece of the buffer
      `bch_correct_chunk` returned for that pair. */
  lemma CorrectPageRepaired(layout: Layout, page: seq<byte>, bits: int)
    requires layout.bch.Some? && LengthPreserving(layout.bch.value)
    requires WellFormedLayout(layout) && |page| == layout.RawPageSize()
    requires DistinctStarts(PairRegions(ChunkPairs(layout)))
    requires !AllErased(page, PageRegions(layout))
    ensures PairsKeyed(SliceMap(page, PageRegions(layout)), ChunkPairs(layout))
    ensures CorrectPage(layout, page, bits).Success?
    ensures forall j, parity, t | 0 <= j < |ChunkPairs(layout)| && 0 <= t < |Half(ChunkPairs(layout)[j], parity)| ::
      RangeRepaired(layout, SliceMap(page, PageRegions(layout)), ChunkPairs(layout),
                    CorrectPage(layout, page, bits).value.page, j, parity, t)
  {
    PairsKeyedInPage(layout, page);
    CorrectPageShape(layout, page, bits);
    forall j, parity, t | 0 <= j < |ChunkPairs(layout)| && 0 <= t < |Half(ChunkPairs(layout)[j], parity)|
      ensures RangeRepaired(layout, SliceMap(page, PageRegions(layout)), ChunkPairs(layout),
                          CorrectPage(layout, page, bits).value.page, j, parity, t)
    {
      PageRangeRepaired(layout, page, bits, j, parity, t);
    }
  }
}

=== FILE: partition.dfy ===
/** One partition (`NAND`, nandtool/nand.py:74-100 and 195-243) and the loop over
    all partitions (`build_partitions`, nandtool/nand.py:24-33): the geometry of a
    block range, the page loop that corrects every page and keeps its user data,
    and the ETFS transaction record appended to each page's user data. */
module Partition {
  import opened Outcomes
  import opened PySeq
  import opened ByteBuf
  import opened Bch
  import opened Layouts
  import opened PageCorrection

  /** A partition section once augmented: its layout and its block range. */
  datatype PartConf = PartConf(layout: LayoutConf, startblock: int, endblock: int)

  /** A `NAND` object after `__init__`: the image, the unpacked layout, the resolved
      block range and the sizes derived from it. */
  datatype Nand = Nand(
    data: seq<byte>,
    layout: Layout,
    start: int,
    end: int,
    numBlocks: int,
    rawPartitionSize: int,
    correctedPartitionSize: int)

  /** What `correct_partition` leaves behind: `corrected` and `corrected_bits`. */
  datatype Corrected = Corrected(corrected: seq<byte>, correctedBits: int)

  /** The bytes per page the size computation of nandtool/nand.py:89-93 counts: the
      user ranges, and 16 more when an ETFS layout is configured. */
  function ExpectedPageYield(layout: Layout): int {
    TotalLength(Regions(layout.userData)) + (if |layout.etfsLayout| > 0 then 16 else 0)
  }

  /** `endblock`, with -1 meaning the last block the image holds in full. */
  function ResolveEnd(dataLen: nat, blocksize: int, endblock: int): (r: Result<int>)
    ensures r.Failure? <==> endblock == -1 && blocksize == 0
    ensures r.Failure? ==> r.fault == BlockSizeZero
    ensures r.Success? && endblock != -1 ==> r.value == endblock
    ensures r.Success? && endblock == -1 && blocksize > 0 ==>
      (r.value + 1) * blocksize <= dataLen < (r.value + 2) * blocksize
  {
    if endblock != -1 then Success(endblock)
    else if blocksize == 0 then Failure(BlockSizeZero)
    else
      var q := FloorDiv(dataLen, blocksize);
      assert (q - 1 + 2) * blocksize == blocksize * q + blocksize;
      Success(q - 1)
  }

  /** `NAND(data, part_conf)`. `codecFor` stands for `bchlib.BCH`. The block range
      is inclusive, so it holds `end + 1 - start` blocks. */
  function NewNand(data: seq<byte>, conf: PartConf, codecFor: (int, int) -> Codec): (r: Result<Nand>)
    ensures r.Success? <==> ResolveEnd(|data|, conf.layout.blocksize, conf.endblock).Success?
    ensures r.Failure? ==> r.fault == BlockSizeZero
    ensures r.Success? ==>
      && r.value.data == data
      && r.value.layout == FromConf(conf.layout, codecFor)
      && r.value.start == conf.startblock
      && r.value.end == ResolveEnd(|data|, conf.layout.blocksize, conf.endblock).value
      && r.value.start + r.value.numBlocks == r.value.end + 1
      && r.value.rawPartitionSize == r.value.numBlocks * r.value.layout.blocksize
      && r.value.correctedPartitionSize
         == r.value.numBlocks * r.value.layout.pagesPerBlock * ExpectedPageYield(r.value.layout)
  {
    var layout := FromConf(conf.layout, codecFor);
    var end :- ResolveEnd(|data|, layout.blocksize, conf.endblock);
    var numBlocks := end + 1 - conf.startblock;
    Success(Nand(data, layout, conf.startblock, end, numBlocks,
                 numBlocks * layout.blocksize,
                 numBlocks * layout.pagesPerBlock * ExpectedPageYield(layout)))
  }

  // ---------------------------------------------------------------------------
  // One page's output

  /** The user ranges of a page, concatenated (nandtool/nand.py:218-221). */
  function UserBytes(page: seq<byte>, rs: seq<Region>): seq<byte> {
    if |rs| == 0 then [] else Slice(page, rs[0].start, rs[0].end) + UserBytes(page, rs[1..])
  }

  /** Ranges that run forwards inside a page of `n` bytes. */
  predicate InsidePage(rs: seq<Region>, n: int) {
    forall r | r in rs :: 0 <= r.start <= r.end <= n
  }

  /** User ranges inside the page contribute exactly their summed lengths. */
  lemma {:induction false} UserBytesLength(page: seq<byte>, rs: seq<Region>)
    requires InsidePage(rs, |page|)
    ensures |UserBytes(page, rs)| == TotalLength(rs)
  {
    if |rs| > 0 {
      UserBytesLength(page, rs[1..]);
    }
  }

  /** The bytes of one ETFS field, `page[start:end]` of `etfs_layout[key]`. */
  function Field(etfs: EtfsLayout, page: seq<byte>, key: string): (r: Result<seq<byte>>)
    ensures r.Success? <==> key in etfs
    ensures r.Failure? ==> r.fault == MissingKey(key)
  {
    if key in etfs then Success(Slice(page, etfs[key].start, etfs[key].end))
    else Failure(MissingKey(key))
  }

  /** The four fields of an ETFS transaction record. */
  datatype Transaction = Transaction(fid: seq<byte>, cluster: seq<byte>, nclusters: seq<byte>, sequence: seq<byte>)

  /** Every field the record needs is configured. */
  predicate HasEtfsFields(etfs: EtfsLayout) {
    "fid" in etfs && "cluster" in etfs && "nclusters" in etfs && "sequence" in etfs
  }

  /** `build_transaction(page)` (nandtool/nand.py:232-243): `fid`, two zero bytes,
      `cluster`, `nclusters`, two zero bytes, `sequence`. The first absent field, in
      that order, raises. */
  function BuildTransaction(etfs: EtfsLayout, page: seq<byte>): (r: Result<seq<byte>>)
    ensures r.Success? <==> HasEtfsFields(etfs)
    ensures r.Failure? ==> r.fault == MissingKey(
      if "fid" !in etfs then "fid"
      else if "cluster" !in etfs then "cluster"
      else if "nclusters" !in etfs then "nclusters"
      else "sequence")
    ensures r.Success? ==> |r.value| == 4 + |Field(etfs, page, "fid").value| + |Field(etfs, page, "cluster").value|
                                          + |Field(etfs, page, "nclusters").value| + |Field(etfs, page, "sequence").value|
  {
    var fid :- Field(etfs, page, "fid");
    var cluster :- Field(etfs, page, "cluster");
    var nclusters :- Field(etfs, page, "nclusters");
    var sequence :- Field(etfs, page, "sequence");
    Success(fid + [0, 0] + cluster + nclusters + [0, 0] + sequence)
  }

  /** Reading a record back, given the lengths of its first three fields: the two
      padding pairs must be zero, and `sequence` is what remains. */
  function ParseTransaction(rec: seq<byte>, fidLen: nat, clusterLen: nat, nclustersLen: nat): (r: Option<Transaction>)
    ensures r.Some? ==> |rec| == fidLen + clusterLen + nclustersLen + 4 + |r.value.sequence|
  {
    var a := fidLen;
    var b := a + 2 + clusterLen;
    var c := b + nclustersLen;
    if |rec| < c + 2 || rec[a..a + 2] != [0, 0] || rec[c..c + 2] != [0, 0] then None
    else Some(Transaction(rec[..a], rec[a + 2..b], rec[b..c], rec[c + 2..]))
  }

  /** Any four fields laid out as the record lays them out parse back. */
  lemma ParseLayout(fid: seq<byte>, cluster: seq<byte>, nclusters: seq<byte>, sequence: seq<byte>)
    ensures ParseTransaction(fid + [0, 0] + cluster + nclusters + [0, 0] + sequence, |fid|, |cluster|, |nclusters|)
            == Some(Transaction(fid, cluster, nclusters, sequence))
  {
    var rec := fid + [0, 0] + cluster + nclusters + [0, 0] + sequence;
    var a := |fid|;
    var b := a + 2 + |cluster|;
    var c := b + |nclusters|;
    assert rec[..a] == fid;
    assert rec[a..a + 2] == [0, 0];
    assert rec[a + 2..b] == cluster;
    assert rec[b..c] == nclusters;
    assert rec[c..c + 2] == [0, 0];
    assert rec[c + 2..] == sequence;
  }

  /** The record parses back into exactly the four field slices of the page. */
  lemma TransactionRoundTrip(etfs: EtfsLayout, page: seq<byte>)
    requires HasEtfsFields(etfs)
    ensures var fid := Field(etfs, page, "fid").value;
      var cluster := Field(etfs, page, "cluster").value;
      var nclusters := Field(etfs, page, "nclusters").value;
      var sequence := Field(etfs, page, "sequence").value;
      ParseTransaction(BuildTransaction(etfs, page).value, |fid|, |cluster|, |nclusters|)
        == Some(Transaction(fid, cluster, nclusters, sequence))
  {
    var fid := Field(etfs, page, "fid").value;
    var cluster := Field(etfs, page, "cluster").value;
    var nclusters := Field(etfs, page, "nclusters").value;
    var sequence := Field(etfs, page, "sequence").value;
    assert BuildTransaction(etfs, page).value == fid + [0, 0] + cluster + nclusters + [0, 0] + sequence;
    ParseLayout(fid, cluster, nclusters, sequence);
  }

  /** The bytes a page contributes to the corrected partition
      (nandtool/nand.py:217-225). */
  function PageRecord(layout: Layout, page: seq<byte>): (r: Result<seq<byte>>)
    ensures r.Success? <==> |layout.etfsLayout| == 0 || HasEtfsFields(layout.etfsLayout)
    ensures r.Failure? ==> r == Failure(BuildTransaction(layout.etfsLayout, page).fault)
    ensures r.Success? ==>
      var user := UserBytes(page, Regions(layout.userData));
      && |user| <= |r.value| && r.value[..|user|] == user
      && r.value[|user|..] == if |layout.etfsLayout| > 0 then BuildTransaction(layout.etfsLayout, page).value else []
  {
    var user := UserBytes(page, Regions(layout.userData));
    if |layout.etfsLayout| > 0 then
      var t :- BuildTransaction(layout.etfsLayout, page);
      assert (user + t)[..|user|] == user && (user + t)[|user|..] == t;
      Success(user + t)
    else Success(user)
  }

  /** What follows the user bytes of a page's record reads back, with the ETFS
      field lengths, as exactly the page's four transaction fields. */
  lemma PageRecordRoundTrip(layout: Layout, page: seq<byte>)
    requires |layout.etfsLayout| > 0 && HasEtfsFields(layout.etfsLayout)
    ensures PageRecord(layout, page).Success?
    ensures var etfs := layout.etfsLayout;
      var user := UserBytes(page, Regions(layout.userData));
      var fid := Field(etfs, page, "fid").value;
      var cluster := Field(etfs, page, "cluster").value;
      var nclusters := Field(etfs, page, "nclusters").value;
      ParseTransaction(PageRecord(layout, page).value[|user|..], |fid|, |cluster|, |nclusters|)
        == Some(Transaction(fid, cluster, nclusters, Field(etfs, page, "sequence").value))
  {
    TransactionRoundTrip(layout.etfsLayout, page);
  }

  /** The length of a page's record when its ranges lie inside the page: the user
      ranges, and the four ETFS fields plus four padding bytes. */
  function RecordLength(layout: Layout): int
    requires |layout.etfsLayout| > 0 ==> HasEtfsFields(layout.etfsLayout)
  {
    var etfs := layout.etfsLayout;
    TotalLength(Regions(layout.userData))
      + (if |etfs| > 0
         then 4 + etfs["fid"].Length() + etfs["cluster"].Length()
                + etfs["nclusters"].Length() + etfs["sequence"].Length()
         else 0)
  }

  /** An ETFS layout is usable on pages of `n` bytes: empty, or every field present
      and inside the page. */
  predicate EtfsInside(etfs: EtfsLayout, n: int) {
    |etfs| > 0 ==>
      && HasEtfsFields(etfs)
      && InsidePage([etfs["fid"], etfs["cluster"], etfs["nclusters"], etfs["sequence"]], n)
  }

  /** A page at least as long as every range yields a record of the length the
      ranges add up to. */
  lemma PageRecordLength(layout: Layout, page: seq<byte>)
    requires InsidePage(Regions(layout.userData), |page|)
    requires EtfsInside(layout.etfsLayout, |page|)
    ensures PageRecord(layout, page).Success?
    ensures |PageRecord(layout, page).value| == RecordLength(layout)
  {
    UserBytesLength(page, Regions(layout.userData));
    if |layout.etfsLayout| > 0 {
      var etfs := layout.etfsLayout;
      var fields := [etfs["fid"], etfs["cluster"], etfs["nclusters"], etfs["sequence"]];
      assert fields[0] in fields && fields[1] in fields && fields[2] in fields && fields[3] in fields;
      FieldLength(etfs, page, "fid");
      FieldLength(etfs, page, "cluster");
      FieldLength(etfs, page, "nclusters");
      FieldLength(etfs, page, "sequence");
    }
  }

  /** A field inside the page is read whole. */
  lemma FieldLength(etfs: EtfsLayout, page: seq<byte>, key: string)
    requires key in etfs && 0 <= etfs[key].start <= etfs[key].end <= |page|
    ensures Field(etfs, page, key).Success? && |Field(etfs, page, key).value| == etfs[key].Length()
  {
  }

  /** An ETFS layout whose four fields span 12 bytes, the record length the size
      computation assumes. */
  predicate TwelveByteFields(etfs: EtfsLayout) {
    HasEtfsFields(etfs) &&
    etfs["fid"].Length() + etfs["cluster"].Length() + etfs["nclusters"].Length() + etfs["sequence"].Length() == 12
  }

  /** The record length agrees with the hard-coded 16 exactly when the fields span
      12 bytes. */
  lemma RecordLengthAsExpected(layout: Layout)
    requires |layout.etfsLayout| > 0 ==> HasEtfsFields(layout.etfsLayout)
    ensures RecordLength(layout) == ExpectedPageYield(layout)
            <==> |layout.etfsLayout| == 0 || TwelveByteFields(layout.etfsLayout)
  {
  }

  // ---------------------------------------------------------------------------
  // The page loop

  /** The page after the correction step of nandtool/nand.py:205-215, with the
      counter: corrected when the gate is open, passed through otherwise. Under
      `ecc_strict` an uncorrectable page stops the loop with its offset; otherwise
      it is kept as corrected. */
  function CorrectedPage(layout: Layout, page: seq<byte>, offset: int, bits: int): (r: Result<(seq<byte>, int)>)
    ensures !EccEnabled(layout) ==> r == Success((page, bits))
  {
    if EccEnabled(layout) then StrictGate(layout, CorrectPage(layout, page, bits), offset)
    else Success((page, bits))
  }

  /** What follows `correct_page` (nandtool/nand.py:207-213): under `ecc_strict`, an
      uncorrectable page raises with its offset; otherwise the corrected page and
      the counter go on. */
  function StrictGate(layout: Layout, out: Result<PageOutcome>, offset: int): (r: Result<(seq<byte>, int)>)
    ensures r.Failure? <==> out.Failure? || (layout.eccStrict && out.value.uncorrectable)
    ensures r.Failure? && out.Failure? ==> r.fault == out.fault
    ensures r.Failure? && out.Success? ==> r.fault == UncorrectablePage(offset)
    ensures r.Success? ==> r.value == (out.value.page, out.value.bits)
  {
    var o :- out;
    if layout.eccStrict && o.uncorrectable then Failure(UncorrectablePage(offset))
    else Success((o.page, o.bits))
  }

  /** Two results, the second the first with its counter shifted by `d`. */
  ghost predicate ShiftedBy<T>(r: Result<(T, int)>, z: Result<(T, int)>, d: int) {
    && r.Success? == z.Success?
    && (r.Failure? ==> r.fault == z.fault)
    && (r.Success? ==> r.value == (z.value.0, d + z.value.1))
  }

  /** The gate keeps a counter shift of the page outcome. */
  lemma StrictGateShift(layout: Layout, out: Result<PageOutcome>, zout: Result<PageOutcome>, offset: int, d: int)
    requires out.Success? == zout.Success?
    requires out.Failure? ==> out.fault == zout.fault
    requires out.Success? ==> out.value == zout.value.(bits := d + zout.value.bits)
    ensures ShiftedBy(StrictGate(layout, out, offset), StrictGate(layout, zout, offset), d)
  {
  }

  /** Only an open gate, `ecc_strict` and a page reported uncorrectable stop the
      loop at a page's offset; without `ecc_strict` the only faults are those of
      the correction itself. */
  lemma CorrectedPageAbort(layout: Layout, page: seq<byte>, offset: int, bits: int)
    ensures var r := CorrectedPage(layout, page, offset, bits);
      r.Failure? && r.fault.UncorrectablePage? ==>
        && r.fault.offset == offset
        && layout.eccStrict && EccEnabled(layout)
        && CorrectPage(layout, page, 0).Success? && CorrectPage(layout, page, 0).value.uncorrectable
    ensures var r := CorrectedPage(layout, page, offset, bits);
      r.Failure? && !layout.eccStrict ==> PageFault(r.fault)
  {
    if EccEnabled(layout) {
      assert CorrectedPage(layout, page, offset, bits) == StrictGate(layout, CorrectPage(layout, page, bits), offset);
      CorrectPageBitsShift(layout, page, bits);
    }
  }

  /** One iteration of the loop of nandtool/nand.py:201-227 at image offset `i`. */
  function ProcessPage(nand: Nand, i: int, bits: int): (r: Result<(seq<byte>, int)>)
    ensures !EccEnabled(nand.layout) && r.Success? ==> r.value.1 == bits
  {
    WithRecord(nand.layout, CorrectedPage(nand.layout, PageAt(nand, i), i, bits))
  }

  /** The raw page at image offset `i`, `self.data[i:i + raw_pagesize]`. */
  function PageAt(nand: Nand, i: int): (page: seq<byte>)
    ensures 0 <= i && i + RawPageSize(nand) <= |nand.data| && 0 <= RawPageSize(nand) ==>
      page == nand.data[i..i + RawPageSize(nand)]
  {
    Slice(nand.data, i, i + RawPageSize(nand))
  }

  /** The user data and transaction record of a corrected page (nandtool/nand.py:217-225),
      with the counter carried along. */
  function WithRecord(layout: Layout, corrected: Result<(seq<byte>, int)>): (r: Result<(seq<byte>, int)>)
    ensures r.Success? <==> corrected.Success? && PageRecord(layout, corrected.value.0).Success?
    ensures r.Success? ==> r.value == (PageRecord(layout, corrected.value.0).value, corrected.value.1)
    ensures r.Failure? && corrected.Failure? ==> r.fault == corrected.fault
  {
    var c :- corrected;
    var rec :- PageRecord(layout, c.0);
    Success((rec, c.1))
  }

  /** Reading the record keeps a counter shift. */
  lemma WithRecordShift(layout: Layout, c: Result<(seq<byte>, int)>, cz: Result<(seq<byte>, int)>, d: int)
    requires ShiftedBy(c, cz, d)
    ensures ShiftedBy(WithRecord(layout, c), WithRecord(layout, cz), d)
  {
  }

  /** A page stops the loop for being uncorrectable only under `ecc_strict`, and
      only when its correction reports it so. */
  lemma ProcessPageAbort(nand: Nand, i: int, bits: int)
    ensures var r := ProcessPage(nand, i, bits);
      r.Failure? && r.fault.UncorrectablePage? ==>
        && r.fault.offset == i && nand.layout.eccStrict && EccEnabled(nand.layout)
        && var page := PageAt(nand, i);
        CorrectPage(nand.layout, page, 0).Success? && CorrectPage(nand.layout, page, 0).value.uncorrectable
    ensures var r := ProcessPage(nand, i, bits);
      r.Failure? && !nand.layout.eccStrict ==> !r.fault.UncorrectablePage?
  {
    var page := PageAt(nand, i);
    ProcessPageUnfold(nand, i, bits);
    CorrectedPageAbort(nand.layout, page, i, bits);
  }

  /** The corrected page does not depend on the count before it. */
  lemma CorrectedPageBitsShift(layout: Layout, page: seq<byte>, offset: int, bits: int)
    ensures ShiftedBy(CorrectedPage(layout, page, offset, bits), CorrectedPage(layout, page, offset, 0), bits)
  {
    if EccEnabled(layout) {
      var out := CorrectPage(layout, page, bits);
      var zout := CorrectPage(layout, page, 0);
      assert CorrectedPage(layout, page, offset, bits) == StrictGate(layout, out, offset);
      assert CorrectedPage(layout, page, offset, 0) == StrictGate(layout, zout, offset);
      CorrectPageBitsShift(layout, page, bits);
      StrictGateShift(layout, out, zout, offset, bits);
    }
  }

  /** A page's output does not depend on the count before it, and its count is
      only shifted by it. */
  lemma ProcessPageBitsShift(nand: Nand, i: int, bits: int)
    ensures ShiftedBy(ProcessPage(nand, i, bits), ProcessPage(nand, i, 0), bits)
  {
    var page := PageAt(nand, i);
    ProcessPageUnfold(nand, i, bits);
    ProcessPageUnfold(nand, i, 0);
    CorrectedPageBitsShift(nand.layout, page, i, bits);
    WithRecordShift(nand.layout, CorrectedPage(nand.layout, page, i, bits), CorrectedPage(nand.layout, page, i, 0), bits);
  }

  /** One iteration, as its definition takes it. */
  lemma ProcessPageUnfold(nand: Nand, i: int, bits: int)
    ensures ProcessPage(nand, i, bits) == WithRecord(nand.layout, CorrectedPage(nand.layout, PageAt(nand, i), i, bits))
  {
  }

  /** The loop over the given offsets, in order, with `step` as one iteration; the
      first failure ends it. */
  function PageLoop(step: (int, int) -> Result<(seq<byte>, int)>, offsets: seq<int>, bits: int): (r: Result<(seq<seq<byte>>, int)>)
    ensures r.Success? ==> |r.value.0| == |offsets|
  {
    if |offsets| == 0 then Success(([], bits))
    else
      var first :- step(offsets[0], bits);
      var rest :- PageLoop(step, offsets[1..], first.1);
      Success(([first.0] + rest.0, rest.1))
  }

  /** One iteration of the page loop of a partition. */
  function PageStep(nand: Nand): (int, int) -> Result<(seq<byte>, int)> {
    (i, bits) => ProcessPage(nand, i, bits)
  }

  /** The page loop of a partition over the given offsets. */
  function CorrectPages(nand: Nand, offsets: seq<int>, bits: int): (r: Result<(seq<seq<byte>>, int)>)
    ensures r.Success? ==> |r.value.0| == |offsets|
  {
    PageLoop(PageStep(nand), offsets, bits)
  }

  /** The bytes one raw page spans in the image. */
  function RawPageSize(nand: Nand): int {
    nand.layout.RawPageSize()
  }

  /** The page offsets `correct_partition` visits (nandtool/nand.py:197-203). */
  function Offsets(nand: Nand): seq<int>
    requires RawPageSize(nand) != 0
  {
    var raw := RawPageSize(nand);
    var startOffset := nand.start * (raw * nand.layout.pagesPerBlock);
    Range(startOffset, startOffset + nand.rawPartitionSize, raw)
  }

  /** `correct_partition()`, from a counter of zero. A raw page size of zero is
      `range` with step zero. */
  function CorrectPartition(nand: Nand): (r: Result<Corrected>)
    ensures RawPageSize(nand) == 0 ==> r == Failure(RangeStepZero)
    ensures r.Success? ==> RawPageSize(nand) != 0
  {
    if RawPageSize(nand) == 0 then Failure(RangeStepZero)
    else Joined(CorrectPages(nand, Offsets(nand), 0))
  }

  /** The page records joined into the corrected partition
      (nandtool/nand.py:226), with the counter. */
  function Joined(pages: Result<(seq<seq<byte>>, int)>): (r: Result<Corrected>)
    ensures r.Failure? <==> pages.Failure?
    ensures r.Failure? ==> r.fault == pages.fault
    ensures r.Success? ==> r.value == Corrected(Join(pages.value.0), pages.value.1)
  {
    var p :- pages;
    Success(Corrected(Join(p.0), p.1))
  }

  /** The partition loop, as its definition takes it. */
  lemma CorrectPartitionUnfold(nand: Nand)
    ensures CorrectPartition(nand).Failure? && !CorrectPartition(nand).fault.RangeStepZero? ==> RawPageSize(nand) != 0
    ensures CorrectPartition(nand).Success? ==> RawPageSize(nand) != 0
    ensures RawPageSize(nand) != 0 ==> CorrectPartition(nand) == Joined(CorrectPages(nand, Offsets(nand), 0))
  {
  }

  /** With the derived block size, the loop visits `num_blocks * pages_per_block`
      pages, one raw page apart, in ascending order from the first page of the
      start block. */
  lemma PartitionOffsets(nand: Nand)
    requires RawPageSize(nand) > 0 && nand.layout.pagesPerBlock >= 0 && nand.numBlocks >= 0
    requires nand.layout.blocksize == RawPageSize(nand) * nand.layout.pagesPerBlock
    requires nand.rawPartitionSize == nand.numBlocks * nand.layout.blocksize
    ensures var raw := RawPageSize(nand);
      var first := nand.start * nand.layout.blocksize;
      Offsets(nand) == seq(nand.numBlocks * nand.layout.pagesPerBlock, k => first + k * raw)
  {
    var raw := RawPageSize(nand);
    var n := nand.numBlocks * nand.layout.pagesPerBlock;
    var first := nand.start * (raw * nand.layout.pagesPerBlock);
    assert nand.rawPartitionSize == n * raw;
    RangeSteps(first, n, raw);
  }

  /** The counts of the iterations at the given offsets, each from zero, added up. */
  function CountTotal(step: (int, int) -> Result<(seq<byte>, int)>, offsets: seq<int>): int {
    if |offsets| == 0 then 0
    else
      var z := step(offsets[0], 0);
      (if z.Success? then z.value.1 else 0) + CountTotal(step, offsets[1..])
  }

  /** The counts of the pages at the given offsets, each from zero, added up. */
  function BitsTotal(nand: Nand, offsets: seq<int>): int {
    CountTotal(PageStep(nand), offsets)
  }

  /** A loop whose iterations only shift the count they are given is a map over
      the offsets: it succeeds exactly when every iteration does on its own; its
      pieces are the iterations' outputs in order; its count is the starting count
      plus every iteration's own count; and a failure is the failure of the first
      iteration that fails. */
  lemma {:induction false} PageLoopMap(step: (int, int) -> Result<(seq<byte>, int)>, offsets: seq<int>, bits: int)
    requires forall i, b | i in offsets :: ShiftedBy(step(i, b), step(i, 0), b)
    ensures var r := PageLoop(step, offsets, bits);
      && (r.Success? <==> forall k | 0 <= k < |offsets| :: step(offsets[k], 0).Success?)
      && (r.Success? ==>
            && (forall k | 0 <= k < |offsets| :: r.value.0[k] == step(offsets[k], 0).value.0)
            && r.value.1 == bits + CountTotal(step, offsets))
      && (r.Failure? ==> exists k | 0 <= k < |offsets| ::
            && (forall j | 0 <= j < k :: step(offsets[j], 0).Success?)
            && step(offsets[k], 0) == Failure(r.fault))
    decreases |offsets|
  {
    if |offsets| > 0 {
      assert offsets[0] in offsets;
      var o := offsets[0];
      assert forall b :: ShiftedBy(step(o, b), step(o, 0), b);
      assert ShiftedBy(step(o, bits), step(o, 0), bits);
      var first := step(offsets[0], bits);
      var r := PageLoop(step, offsets, bits);
      if first.Failure? {
        assert step(offsets[0], 0) == Failure(r.fault);
      } else {
        assert forall i | i in offsets[1..] :: i in offsets;
        PageLoopMap(step, offsets[1..], first.value.1);
        var rest := PageLoop(step, offsets[1..], first.value.1);
        forall k | 1 <= k < |offsets|
          ensures offsets[1..][k - 1] == offsets[k]
        {
        }
        if rest.Failure? {
          var k :| 0 <= k < |offsets[1..]|
            && (forall j | 0 <= j < k :: step(offsets[1..][j], 0).Success?)
            && step(offsets[1..][k], 0) == Failure(rest.fault);
          assert forall j | 0 <= j < k + 1 :: step(offsets[j], 0).Success?;
          assert step(offsets[k + 1], 0) == Failure(r.fault);
        } else {
          assert r.value.0 == [first.value.0] + rest.value.0;
        }
      }
    }
  }

  /** The page loop is a map over the offsets: it succeeds exactly when every page
      does on its own; its pieces are the pages' records in order; its count is
      the starting count plus every page's own count; and a failure is the
      failure of the first page that fails. */
  lemma CorrectPagesMap(nand: Nand, offsets: seq<int>, bits: int)
    ensures var r := CorrectPages(nand, offsets, bits);
      && (r.Success? <==> forall k | 0 <= k < |offsets| :: ProcessPage(nand, offsets[k], 0).Success?)
      && (r.Success? ==>
            && (forall k | 0 <= k < |offsets| :: r.value.0[k] == ProcessPage(nand, offsets[k], 0).value.0)
            && r.value.1 == bits + BitsTotal(nand, offsets))
      && (r.Failure? ==> exists k | 0 <= k < |offsets| ::
            && (forall j | 0 <= j < k :: ProcessPage(nand, offsets[j], 0).Success?)
            && ProcessPage(nand, offsets[k], 0) == Failure(r.fault))
  {
    forall i, b | i in offsets
      ensures ShiftedBy(PageStep(nand)(i, b), PageStep(nand)(i, 0), b)
    {
      ProcessPageBitsShift(nand, i, b);
    }
    PageLoopMap(PageStep(nand), offsets, bits);
  }

  /** A correction stopped for an uncorrectable page happens only under
      `ecc_strict`, at an offset the loop visits, and only when that page's
      correction reports it uncorrectable; without `ecc_strict` an uncorrectable
      page never stops the loop. */
  lemma StrictAbort(nand: Nand, offset: int)
    requires CorrectPartition(nand) == Failure(UncorrectablePage(offset))
    ensures nand.layout.eccStrict && EccEnabled(nand.layout)
    ensures RawPageSize(nand) != 0 && offset in Offsets(nand)
    ensures var page := PageAt(nand, offset);
      CorrectPage(nand.layout, page, 0).Success? && CorrectPage(nand.layout, page, 0).value.uncorrectable
  {
    CorrectPartitionUnfold(nand);
    var offs := Offsets(nand);
    assert CorrectPages(nand, offs, 0) == PageLoop(PageStep(nand), offs, 0);
    PageStepShifts(nand);
    var k := LoopStop(PageStep(nand), offs, 0);
    assert PageStep(nand)(offs[k], 0) == ProcessPage(nand, offs[k], 0);
    PageAbortAt(nand, offs[k], offset);
  }

  /** Every iteration of a partition's page loop only shifts the count it is given. */
  lemma PageStepShifts(nand: Nand)
    ensures forall i, b :: ShiftedBy(PageStep(nand)(i, b), PageStep(nand)(i, 0), b)
  {
    forall i, b
      ensures ShiftedBy(PageStep(nand)(i, b), PageStep(nand)(i, 0), b)
    {
      ProcessPageBitsShift(nand, i, b);
    }
  }

  /** A failed loop whose iterations only shift the count failed at an offset it
      visits, where the iteration from zero fails the same way. */
  lemma LoopStop(step: (int, int) -> Result<(seq<byte>, int)>, offsets: seq<int>, bits: int) returns (k: int)
    requires forall i, b :: ShiftedBy(step(i, b), step(i, 0), b)
    requires PageLoop(step, offsets, bits).Failure?
    ensures 0 <= k < |offsets| && step(offsets[k], 0) == Failure(PageLoop(step, offsets, bits).fault)
  {
    PageLoopMap(step, offsets, bits);
    k :| 0 <= k < |offsets| && step(offsets[k], 0) == Failure(PageLoop(step, offsets, bits).fault);
  }

  /** A page that stops the loop as uncorrectable names its own offset, under
      `ecc_strict`, and its correction reports it so. */
  lemma PageAbortAt(nand: Nand, i: int, offset: int)
    requires ProcessPage(nand, i, 0) == Failure(UncorrectablePage(offset))
    ensures i == offset
    ensures nand.layout.eccStrict && EccEnabled(nand.layout)
    ensures var page := PageAt(nand, i);
      CorrectPage(nand.layout, page, 0).Success? && CorrectPage(nand.layout, page, 0).value.uncorrectable
  {
    var page := PageAt(nand, i);
    ProcessPageUnfold(nand, i, 0);
    if EccEnabled(nand.layout) {
      var out := CorrectPage(nand.layout, page, 0);
      assert CorrectedPage(nand.layout, page, i, 0) == StrictGate(nand.layout, out, i);
      CorrectPageBitsShift(nand.layout, page, 0);
      GateAbort(nand.layout, out, i, offset);
    }
  }

  /** Only the strict gate turns an outcome into a stop for an uncorrectable page,
      and only for an outcome that reports one. */
  lemma GateAbort(layout: Layout, out: Result<PageOutcome>, i: int, offset: int)
    requires out.Failure? ==> PageFault(out.fault)
    requires WithRecord(layout, StrictGate(layout, out, i)) == Failure(UncorrectablePage(offset))
    ensures i == offset && layout.eccStrict && out.Success? && out.value.uncorrectable
  {
  }

  /** Pieces that all have length `n` make a join of `|parts| * n` bytes. */
  lemma {:induction false} JoinUniformLength(parts: seq<seq<byte>>, n: nat)
    requires forall k | 0 <= k < |parts| :: |parts[k]| == n
    ensures |Join(parts)| == |parts| * n
  {
    if |parts| > 0 {
      JoinUniformLength(parts[1..], n);
      assert |parts| * n == n + (|parts| - 1) * n;
    }
  }

  /** A join splits at any piece boundary. */
  lemma {:induction false} JoinSplit(parts: seq<seq<byte>>, k: nat)
    requires k <= |parts|
    ensures Join(parts) == Join(parts[..k]) + Join(parts[k..])
    decreases k
  {
    if k > 0 {
      JoinSplit(parts[1..], k - 1);
      assert parts[..k][1..] == parts[1..][..k - 1];
      assert parts[1..][k - 1..] == parts[k..];
    } else {
      assert parts[..0] == [];
      assert parts[0..] == parts;
    }
  }

  /** In a join, piece `k` sits right after the join of the pieces before it. */
  lemma JoinPiece(parts: seq<seq<byte>>, k: nat)
    requires k < |parts|
    ensures var o := |Join(parts[..k])|;
      o + |parts[k]| <= |Join(parts)| && Join(parts)[o..o + |parts[k]|] == parts[k]
  {
    JoinSplit(parts, k);
    var tail := parts[k..];
    assert Join(tail) == parts[k] + Join(tail[1..]);
    SliceMiddle(Join(parts[..k]), parts[k], Join(tail[1..]));
  }

  /** In a join of pieces of length `n`, piece `k` sits at `k * n`. */
  lemma JoinUniformPiece(parts: seq<seq<byte>>, n: nat, k: nat)
    requires forall j | 0 <= j < |parts| :: |parts[j]| == n
    requires k < |parts|
    ensures 0 <= k * n && k * n + n <= |Join(parts)|
    ensures Join(parts)[k * n..k * n + n] == parts[k]
  {
    JoinPiece(parts, k);
    JoinUniformLength(parts[..k], n);
  }

  lemma SliceMiddle(a: seq<byte>, b: seq<byte>, c: seq<byte>)
    ensures (a + (b + c))[|a|..|a| + |b|] == b
  {
  }

  // ---------------------------------------------------------------------------
  // The whole partition

  /** The geometry `NAND.__init__` and the configuration set up: a positive raw page,
      a block range inside the image, and the block size derived from the page
      geometry. */
  ghost predicate Geometry(nand: Nand) {
    var raw := RawPageSize(nand);
    && raw > 0 && nand.layout.pagesPerBlock >= 0
    && 0 <= nand.start && 0 <= nand.numBlocks
    && nand.layout.blocksize == raw * nand.layout.pagesPerBlock
    && nand.rawPartitionSize == nand.numBlocks * nand.layout.blocksize
    && (nand.start + nand.numBlocks) * nand.layout.blocksize <= |nand.data|
  }

  /** The arithmetic behind `OffsetInImage`. */
  lemma PageBounds(start: int, numBlocks: int, ppb: int, raw: int, blocksize: int, k: int)
    requires raw > 0 && ppb >= 0 && start >= 0 && numBlocks >= 0
    requires blocksize == raw * ppb
    requires 0 <= k < numBlocks * ppb
    ensures 0 <= start * blocksize + k * raw
    ensures start * blocksize + k * raw + raw <= (start + numBlocks) * blocksize
  {
    assert blocksize >= 0;
    assert start * blocksize >= 0;
    assert k * raw >= 0;
    assert k + 1 <= numBlocks * ppb;
    assert (k + 1) * raw <= (numBlocks * ppb) * raw;
    assert (numBlocks * ppb) * raw == numBlocks * blocksize;
    assert (start + numBlocks) * blocksize == start * blocksize + numBlocks * blocksize;
  }

  /** Every visited page lies inside the image. */
  lemma OffsetInImage(nand: Nand, k: int)
    requires Geometry(nand)
    requires 0 <= k < nand.numBlocks * nand.layout.pagesPerBlock
    ensures var i := nand.start * nand.layout.blocksize + k * RawPageSize(nand);
      0 <= i && i + RawPageSize(nand) <= |nand.data|
  {
    PageBounds(nand.start, nand.numBlocks, nand.layout.pagesPerBlock, RawPageSize(nand), nand.layout.blocksize, k);
  }

  /** The page handed on is never shorter than the raw page. */
  lemma CorrectedPageLength(layout: Layout, page: seq<byte>, offset: int, bits: int)
    requires |page| == layout.RawPageSize()
    requires CorrectedPage(layout, page, offset, bits).Success?
    ensures |CorrectedPage(layout, page, offset, bits).value.0| >= |page|
  {
  }

  /** A page's record, read off its corrected page. */
  lemma ProcessPageRecord(nand: Nand, i: int)
    requires ProcessPage(nand, i, 0).Success?
    ensures var page := PageAt(nand, i);
      && CorrectedPage(nand.layout, page, i, 0).Success?
      && var c := CorrectedPage(nand.layout, page, i, 0).value.0;
      && PageRecord(nand.layout, c).Success?
      && ProcessPage(nand, i, 0).value.0 == PageRecord(nand.layout, c).value
  {
    ProcessPageUnfold(nand, i, 0);
  }

  /** A page at least as long as the raw page yields a record of the configured
      length when the user and ETFS ranges lie inside the raw page. */
  lemma RecordOfLongPage(layout: Layout, c: seq<byte>, raw: int)
    requires InsidePage(Regions(layout.userData), raw)
    requires EtfsInside(layout.etfsLayout, raw)
    requires raw <= |c|
    ensures PageRecord(layout, c).Success?
    ensures |PageRecord(layout, c).value| == RecordLength(layout)
  {
    InsideGrows(Regions(layout.userData), raw, |c|);
    EtfsInsideGrows(layout.etfsLayout, raw, |c|);
    PageRecordLength(layout, c);
  }

  /** A page inside the image yields a record of the configured length, corrected
      or passed through. */
  lemma PageYieldLength(nand: Nand, i: int)
    requires 0 <= i && i + RawPageSize(nand) <= |nand.data| && RawPageSize(nand) >= 0
    requires InsidePage(Regions(nand.layout.userData), RawPageSize(nand))
    requires EtfsInside(nand.layout.etfsLayout, RawPageSize(nand))
    requires ProcessPage(nand, i, 0).Success?
    ensures |ProcessPage(nand, i, 0).value.0| == RecordLength(nand.layout)
  {
    ProcessPageRecord(nand, i);
    var page := PageAt(nand, i);
    CorrectedPageLength(nand.layout, page, i, 0);
    RecordOfLongPage(nand.layout, CorrectedPage(nand.layout, page, i, 0).value.0, RawPageSize(nand));
  }

  lemma InsideGrows(rs: seq<Region>, n: int, m: int)
    requires InsidePage(rs, n) && n <= m
    ensures InsidePage(rs, m)
  {
  }

  lemma EtfsInsideGrows(etfs: EtfsLayout, n: int, m: int)
    requires EtfsInside(etfs, n) && n <= m
    ensures EtfsInside(etfs, m)
  {
    if |etfs| > 0 {
      InsideGrows([etfs["fid"], etfs["cluster"], etfs["nclusters"], etfs["sequence"]], n, m);
    }
  }

  /** The corrected partition is the join of the pages' records in ascending page
      order, and the counter is the sum of the pages' own counts. */
  lemma CorrectPartitionPieces(nand: Nand)
    requires CorrectPartition(nand).Success?
    ensures RawPageSize(nand) != 0
    ensures CorrectPartition(nand).value.correctedBits == BitsTotal(nand, Offsets(nand))
    ensures exists parts: seq<seq<byte>> ::
      && CorrectPartition(nand).value.corrected == Join(parts)
      && |parts| == |Offsets(nand)|
      && forall k | 0 <= k < |parts| ::
           ProcessPage(nand, Offsets(nand)[k], 0).Success? &&
           parts[k] == ProcessPage(nand, Offsets(nand)[k], 0).value.0
  {
    CorrectPagesMap(nand, Offsets(nand), 0);
    var parts := CorrectPages(nand, Offsets(nand), 0).value.0;
  }

  /** Records of one length, joined: the total is their number times the length,
      and record `k` sits at `k` times the length. */
  lemma UniformJoin(parts: seq<seq<byte>>, len: int)
    requires forall j | 0 <= j < |parts| :: |parts[j]| == len
    ensures |Join(parts)| == |parts| * len
    ensures forall k | 0 <= k < |parts| :: Slice(Join(parts), k * len, k * len + len) == parts[k]
  {
    if |parts| == 0 {
      assert Join(parts) == [];
    } else {
      assert len == |parts[0]|;
      JoinUniformLength(parts, len);
      forall k | 0 <= k < |parts|
        ensures Slice(Join(parts), k * len, k * len + len) == parts[k]
      {
        JoinUniformPiece(parts, len, k);
        var o := k * len;
        assert Slice(Join(parts), o, o + len) == Join(parts)[o..o + len];
      }
    }
  }

  /** The pages the partition loop visits, each one inside the image. */
  lemma OffsetsInImage(nand: Nand)
    requires Geometry(nand)
    ensures var offs := Offsets(nand);
      && |offs| == nand.numBlocks * nand.layout.pagesPerBlock
      && forall k | 0 <= k < |offs| ::
           && offs[k] == nand.start * nand.layout.blocksize + k * RawPageSize(nand)
           && 0 <= offs[k] && offs[k] + RawPageSize(nand) <= |nand.data|
  {
    PartitionOffsets(nand);
    forall k | 0 <= k < nand.numBlocks * nand.layout.pagesPerBlock
      ensures var i := nand.start * nand.layout.blocksize + k * RawPageSize(nand);
        0 <= i && i + RawPageSize(nand) <= |nand.data|
    {
      OffsetInImage(nand, k);
    }
  }

  /** Every record the loop collects from inside the image has the configured length. */
  lemma RecordsUniform(nand: Nand, offs: seq<int>, parts: seq<seq<byte>>)
    requires InsidePage(Regions(nand.layout.userData), RawPageSize(nand)) && RawPageSize(nand) >= 0
    requires EtfsInside(nand.layout.etfsLayout, RawPageSize(nand))
    requires |parts| == |offs|
    requires forall k | 0 <= k < |offs| :: 0 <= offs[k] && offs[k] + RawPageSize(nand) <= |nand.data|
    requires forall k | 0 <= k < |offs| ::
      ProcessPage(nand, offs[k], 0).Success? && parts[k] == ProcessPage(nand, offs[k], 0).value.0
    ensures forall k | 0 <= k < |parts| :: |parts[k]| == RecordLength(nand.layout)
  {
    forall k | 0 <= k < |parts|
      ensures |parts[k]| == RecordLength(nand.layout)
    {
      PageYieldLength(nand, offs[k]);
    }
  }

  /** The records the partition is joined from, one per page of the partition, all
      of the configured length. */
  lemma PartitionRecords(nand: Nand) returns (parts: seq<seq<byte>>)
    requires CorrectPartition(nand).Success?
    requires Geometry(nand)
    requires InsidePage(Regions(nand.layout.userData), RawPageSize(nand))
    requires EtfsInside(nand.layout.etfsLayout, RawPageSize(nand))
    ensures CorrectPartition(nand).value.corrected == Join(parts)
    ensures |parts| == nand.numBlocks * nand.layout.pagesPerBlock
    ensures forall k | 0 <= k < |parts| :: |parts[k]| == RecordLength(nand.layout)
    ensures |Offsets(nand)| == |parts|
    ensures forall k | 0 <= k < |parts| ::
      ProcessPage(nand, Offsets(nand)[k], 0).Success? && parts[k] == ProcessPage(nand, Offsets(nand)[k], 0).value.0
  {
    var offs := Offsets(nand);
    OffsetsInImage(nand);
    CorrectPagesMap(nand, offs, 0);
    parts := CorrectPages(nand, offs, 0).value.0;
    RecordsUniform(nand, offs, parts);
  }

  /** Record `k` of the corrected partition sits at `k` times the record length and
      is the record of the page at `start * blocksize + k * raw_pagesize`. */
  lemma CorrectPartitionRecord(nand: Nand, k: int)
    requires CorrectPartition(nand).Success?
    requires Geometry(nand)
    requires InsidePage(Regions(nand.layout.userData), RawPageSize(nand))
    requires EtfsInside(nand.layout.etfsLayout, RawPageSize(nand))
    requires 0 <= k < nand.numBlocks * nand.layout.pagesPerBlock
    ensures var out := CorrectPartition(nand).value.corrected;
      var len := RecordLength(nand.layout);
      var i := nand.start * nand.layout.blocksize + k * RawPageSize(nand);
      ProcessPage(nand, i, 0).Success? && Slice(out, k * len, k * len + len) == ProcessPage(nand, i, 0).value.0
  {
    var parts := PartitionRecords(nand);
    var len := RecordLength(nand.layout);
    var i := nand.start * nand.layout.blocksize + k * RawPageSize(nand);
    OffsetsInImage(nand);
    assert Offsets(nand)[k] == i;
    assert ProcessPage(nand, i, 0).Success? && parts[k] == ProcessPage(nand, i, 0).value.0;
    UniformJoin(parts, len);
    assert Slice(Join(parts), k * len, k * len + len) == parts[k];
  }

  /** Size of the corrected partition: with the geometry of `__init__` and user and
      ETFS ranges inside the raw page, it is one record per page, `num_blocks *
      pages_per_block` records, record `k` at offset `k` times the record length,
      holding the page at `start * blocksize + k * raw_pagesize`. */
  lemma CorrectPartitionSize(nand: Nand)
    requires CorrectPartition(nand).Success?
    requires Geometry(nand)
    requires InsidePage(Regions(nand.layout.userData), RawPageSize(nand))
    requires EtfsInside(nand.layout.etfsLayout, RawPageSize(nand))
    ensures var out := CorrectPartition(nand).value.corrected;
      var n := nand.numBlocks * nand.layout.pagesPerBlock;
      var len := RecordLength(nand.layout);
      && |out| == n * len
      && forall k | 0 <= k < n ::
           var i := nand.start * nand.layout.blocksize + k * RawPageSize(nand);
           ProcessPage(nand, i, 0).Success? && Slice(out, k * len, k * len + len) == ProcessPage(nand, i, 0).value.0
  {
    var parts := PartitionRecords(nand);
    UniformJoin(parts, RecordLength(nand.layout));
    forall k | 0 <= k < nand.numBlocks * nand.layout.pagesPerBlock {
      CorrectPartitionRecord(nand, k);
    }
  }

  /** With ETFS fields spanning 12 bytes (or no ETFS layout), the corrected
      partition is as long as `corrected_partition_size` says. */
  lemma CorrectedSizeAsDeclared(nand: Nand)
    requires CorrectPartition(nand).Success?
    requires Geometry(nand)
    requires nand.correctedPartitionSize
             == nand.numBlocks * nand.layout.pagesPerBlock * ExpectedPageYield(nand.layout)
    requires InsidePage(Regions(nand.layout.userData), RawPageSize(nand))
    requires EtfsInside(nand.layout.etfsLayout, RawPageSize(nand))
    requires |nand.layout.etfsLayout| > 0 ==> TwelveByteFields(nand.layout.etfsLayout)
    ensures |CorrectPartition(nand).value.corrected| == nand.correctedPartitionSize
  {
    CorrectPartitionSize(nand);
    RecordLengthAsExpected(nand.layout);
  }

  /** The counts are zero when every page passes through. */
  lemma {:induction false} BitsTotalZero(nand: Nand, offsets: seq<int>)
    requires !EccEnabled(nand.layout)
    ensures BitsTotal(nand, offsets) == 0
  {
    if |offsets| > 0 {
      BitsTotalZero(nand, offsets[1..]);
    }
  }

  /** With the gate closed no page is decoded: the counter stays zero and every
      page's record is cut from the raw page as the image holds it. */
  lemma PassThrough(nand: Nand)
    requires !EccEnabled(nand.layout)
    requires CorrectPartition(nand).Success?
    ensures CorrectPartition(nand).value.correctedBits == 0
    ensures forall k | 0 <= k < |Offsets(nand)| ::
      var i := Offsets(nand)[k];
      var raw := PageAt(nand, i);
      && PageRecord(nand.layout, raw).Success?
      && ProcessPage(nand, i, 0) == Success((PageRecord(nand.layout, raw).value, 0))
  {
    CorrectPartitionPieces(nand);
    BitsTotalZero(nand, Offsets(nand));
  }

  // ---------------------------------------------------------------------------
  // All partitions

  /** A partition once built: the `NAND` object and what its correction produced. */
  datatype Built = Built(nand: Nand, corrected: Corrected)

  /** Build and correct one partition section. */
  function BuildOne(data: seq<byte>, conf: PartConf, codecFor: (int, int) -> Codec): Result<Built> {
    var nand :- NewNand(data, conf, codecFor);
    var c :- CorrectPartition(nand);
    Success(Built(nand, c))
  }

  /** The loop of `build_partitions` from the dictionary built so far; `build`
      constructs and corrects one section. */
  function BuildFrom(names: seq<string>, parts: map<string, PartConf>,
                     build: PartConf -> Result<Built>, acc: map<string, Built>): (r: Result<map<string, Built>>)
    ensures r.Success? ==> r.value.Keys == acc.Keys + (set n | n in names)
  {
    if |names| == 0 then Success(acc)
    else if names[0] !in parts then Failure(MissingKey(names[0]))
    else
      var b :- build(parts[names[0]]);
      BuildFrom(names[1..], parts, build, acc[names[0] := b])
  }

  /** `build_partitions(image_data, conf)`: every listed partition, in order; the
      first section that is missing or fails stops the loop. */
  function BuildPartitions(data: seq<byte>, names: seq<string>, parts: map<string, PartConf>,
                           codecFor: (int, int) -> Codec): (r: Result<map<string, Built>>)
    ensures r.Success? ==> r.value.Keys == set n | n in names
  {
    BuildFrom(names, parts, conf => BuildOne(data, conf, codecFor), map[])
  }

  /** The partitions are built independently of one another: the loop succeeds
      exactly when every listed section exists and builds on its own, and then
      every name maps to its own section's partition. */
  lemma {:induction false} BuildFromSpec(names: seq<string>, parts: map<string, PartConf>,
                                          build: PartConf -> Result<Built>, acc: map<string, Built>)
    ensures var r := BuildFrom(names, parts, build, acc);
      && (r.Success? <==> forall n | n in names :: n in parts && build(parts[n]).Success?)
      && (r.Success? ==> forall n | n in names :: r.value[n] == build(parts[n]).value)
      && (r.Success? ==> forall n | n in acc && n !in names :: r.value[n] == acc[n])
    decreases |names|
  {
    if |names| > 0 && names[0] in parts {
      var b := build(parts[names[0]]);
      if b.Success? {
        BuildFromSpec(names[1..], parts, build, acc[names[0] := b.value]);
        assert forall n | n in names :: n == names[0] || n in names[1..];
      }
    }
  }

  lemma BuildPartitionsSpec(data: seq<byte>, names: seq<string>, parts: map<string, PartConf>,
                            codecFor: (int, int) -> Codec)
    ensures var r := BuildPartitions(data, names, parts, codecFor);
      && (r.Success? <==> forall n | n in names :: n in parts && BuildOne(data, parts[n], codecFor).Success?)
      && (r.Success? ==> forall n | n in names :: r.value[n] == BuildOne(data, parts[n], codecFor).value)
  {
    BuildFromSpec(names, parts, conf => BuildOne(data, conf, codecFor), map[]);
  }
}

=== FILE: pyseq.dfy ===
/** Python sequence semantics the engine relies on: clamping slices, floor
    division, `range` with a step, and `b"".join`. */
module PySeq {

  /** Python's normalisation of one slice bound against a sequence of length `n`:
      negative bounds count from the end, and every bound is clamped to `[0, n]`. */
  function SliceIndex(i: int, n: nat): (k: nat)
    ensures k <= n
  {
    if i < 0 then (if i + n < 0 then 0 else i + n)
    else if i > n then n
    else i
  }

  /** `s[lo:hi]` with Python semantics: never fails, returns fewer elements (or none)
      when the bounds fall outside `s`. */
  function Slice<T>(s: seq<T>, lo: int, hi: int): (r: seq<T>)
    ensures |r| <= |s|
    ensures 0 <= lo <= hi <= |s| ==> r == s[lo..hi]
    ensures 0 <= hi <= lo ==> r == []
  {
    var a := SliceIndex(lo, |s|);
    var b := SliceIndex(hi, |s|);
    if a < b then s[a..b] else []
  }

  /** A non-negative window that starts inside `s` is cut at the end of `s`. */
  lemma SliceClamped<T>(s: seq<T>, lo: int, hi: int)
    requires 0 <= lo <= hi
    ensures lo <= |s| ==> Slice(s, lo, hi) == s[lo..if hi <= |s| then hi else |s|]
    ensures lo > |s| ==> Slice(s, lo, hi) == []
  {
  }

  /** Python's `a // b`: the quotient rounded towards negative infinity. */
  function FloorDiv(a: int, b: int): (q: int)
    requires b != 0
    ensures b > 0 ==> b * q <= a < b * q + b
    ensures b < 0 ==> b * q + b < a <= b * q
  {
    if b > 0 then
      a / b
    else
      var c := -b;
      var q := -(a / c) - (if a % c == 0 then 0 else 1);
      assert a == c * (a / c) + a % c;
      q
  }

  /** `list(range(a, b, step))`. */
  function Range(a: int, b: int, step: int): (r: seq<int>)
    requires step != 0
    decreases if step > 0 then b - a else a - b
  {
    if (step > 0 && a < b) || (step < 0 && a > b) then [a] + Range(a + step, b, step)
    else []
  }

  /** With a positive step and a span of exactly `n` steps, `range` visits
      `a, a + step, ..., a + (n - 1) * step` in ascending order. */
  lemma {:induction false} RangeSteps(a: int, n: nat, step: int)
    requires step > 0
    ensures Range(a, a + n * step, step) == seq(n, k => a + k * step)
    decreases n
  {
    if n == 0 {
    } else {
      assert a + n * step == (a + step) + (n - 1) * step;
      RangeSteps(a + step, n - 1, step);
      var tail := seq(n - 1, k => (a + step) + k * step);
      assert Range(a, a + n * step, step) == [a] + tail;
      forall k | 0 <= k < n
        ensures ([a] + tail)[k] == a + k * step
      {
        if k > 0 {
          assert tail[k - 1] == (a + step) + (k - 1) * step;
        }
      }
    }
  }

  /** A positive step over an empty or reversed span visits nothing. */
  lemma RangeEmpty(a: int, b: int, step: int)
    requires step > 0 && b <= a
    ensures Range(a, b, step) == []
  {
  }

  /** `b"".join(parts)`. */
  function Join<T>(parts: seq<seq<T>>): seq<T>
  {
    if |parts| == 0 then [] else parts[0] + Join(parts[1..])
  }

  lemma {:induction false} JoinAppend<T>(parts: seq<seq<T>>, last: seq<T>)
    ensures Join(parts + [last]) == Join(parts) + last
  {
    if |parts| == 0 {
      assert parts + [last] == [last];
    } else {
      assert (parts + [last])[1..] == parts[1..] + [last];
      JoinAppend(parts[1..], last);
    }
  }

  /** `zip(xs, ys)`: pairs in order, the longer list silently truncated. */
  function Zip<X, Y>(xs: seq<X>, ys: seq<Y>): (r: seq<(X, Y)>)
    ensures |r| == if |xs| <= |ys| then |xs| else |ys|
    ensures forall i | 0 <= i < |r| :: r[i] == (xs[i], ys[i])
  {
    if |xs| == 0 || |ys| == 0 then [] else [(xs[0], ys[0])] + Zip(xs[1..], ys[1..])
  }
}

=== FILE: rebuild.dfy ===
/** `NAND.rebuild_buffer` (nandtool/nand.py:102-114): lay the region buffers of a
    page out by offset, filling every gap, and the tail up to the raw page size,
    with erased-flash bytes. */
module PageBuffer {
  import opened ByteBuf

  /** `n` erased bytes, `b"\xff" * n` (empty for `n <= 0`). */
  function Erased(n: int): (r: seq<byte>)
    ensures |r| == (if n < 0 then 0 else n)
    ensures forall i | 0 <= i < |r| :: r[i] == 0xFF
  {
    if n <= 0 then [] else seq(n, _ => 0xFF)
  }

  /** A page buffer keyed by region start offset, as the source's dict. */
  type RegionMap = map<int, seq<byte>>

  lemma HasLeast(s: set<int>)
    requires s != {}
    ensures exists m :: m in s && forall x | x in s :: m <= x
  {
    assert exists x :: x in s by {
      if forall x :: x !in s {
        assert false;
      }
    }
    var x :| x in s;
    if s != {x} {
      HasLeast(s - {x});
      var y :| y in s - {x} && forall z | z in s - {x} :: y <= z;
      var least := if y < x then y else x;
      forall z | z in s
        ensures least <= z
      {
        if z != x {
          assert z in s - {x};
        }
      }
      assert least in s;
    }
  }

  /** The smallest offset, the next one `sorted(mapping.items())` yields. */
  function LeastKey(s: set<int>): (m: int)
    requires s != {}
    ensures m in s && forall x | x in s :: m <= x
  {
    HasLeast(s);
    var m :| m in s && forall x | x in s :: m <= x;
    m
  }

  /** The loop of nandtool/nand.py:106-111 from the state `out`: take the entries in
      ascending offset order, pad with 0xFF up to an offset that lies ahead of the
      cursor, and append the buffer. The cursor always equals `len(out)`; an
      offset behind the cursor is appended without padding. */
  function Emit(m: RegionMap, out: seq<byte>): seq<byte>
    decreases m.Keys
  {
    if m.Keys == {} then out
    else
      var k := LeastKey(m.Keys);
      var padded := if k > |out| then out + Erased(k - |out|) else out;
      Emit(m - {k}, padded + m[k])
  }

  /** `rebuild_buffer(mapping, raw_pagesize)`: never shorter than the raw page
      size, and never truncated. */
  function RebuildBuffer(m: RegionMap, rawPagesize: int): (r: seq<byte>)
    ensures |r| >= rawPagesize
  {
    var out := Emit(m, []);
    if |out| < rawPagesize then out + Erased(rawPagesize - |out|) else out
  }

  /** The loop only appends: what was written stays in front. */
  lemma {:induction false} EmitExtends(m: RegionMap, out: seq<byte>)
    ensures |Emit(m, out)| >= |out| && Emit(m, out)[..|out|] == out
    decreases m.Keys
  {
    if m.Keys != {} {
      var k := LeastKey(m.Keys);
      var padded := if k > |out| then out + Erased(k - |out|) else out;
      var out' := padded + m[k];
      EmitExtends(m - {k}, out');
      assert out'[..|out|] == out;
    }
  }

  /** `r` holds `b` at offset `k`. */
  ghost predicate PlacedAt(r: seq<byte>, k: int, b: seq<byte>) {
    0 <= k && k + |b| <= |r| && forall j | 0 <= j < |b| :: r[k + j] == b[j]
  }

  /** Offset `i` lies inside the region stored at some key of `m`. */
  ghost predicate Covered(m: RegionMap, i: int) {
    exists k :: k in m && k <= i < k + |m[k]|
  }

  /** Regions inside `[lo, hi)` that do not overlap one another. */
  ghost predicate Disjoint(m: RegionMap, lo: int, hi: int) {
    && (forall k | k in m :: lo <= k && k + |m[k]| <= hi)
    && (forall k1, k2 | k1 in m && k2 in m && k1 < k2 :: k1 + |m[k1]| <= k2)
  }

  /** One step of the loop, as its definition takes it. */
  lemma EmitUnfold(m: RegionMap, out: seq<byte>)
    requires m.Keys != {}
    ensures var k := LeastKey(m.Keys);
      var padded := if k > |out| then out + Erased(k - |out|) else out;
      Emit(m, out) == Emit(m - {k}, padded + m[k])
  {
  }

  /** One step of the loop on disjoint regions ahead of the cursor: the least
      region lands at its own offset, and the rest stay ahead of the new cursor. */
  lemma EmitStep(m: RegionMap, out: seq<byte>, hi: int)
    requires |out| <= hi
    requires Disjoint(m, |out|, hi)
    requires m.Keys != {}
    ensures var k := LeastKey(m.Keys);
      var padded := if k > |out| then out + Erased(k - |out|) else out;
      && |padded| == k
      && |padded + m[k]| <= hi
      && Disjoint(m - {k}, |padded + m[k]|, hi)
      && Emit(m, out) == Emit(m - {k}, padded + m[k])
  {
    var k := LeastKey(m.Keys);
    assert k in m;
    var padded := if k > |out| then out + Erased(k - |out|) else out;
    assert |out| <= k && k + |m[k]| <= hi;
    assert |padded| == k;
    var rest := m - {k};
    forall k2 | k2 in rest
      ensures k + |m[k]| <= k2 && k2 + |rest[k2]| <= hi
    {
      assert k2 in m && k <= k2 && k != k2;
    }
    EmitUnfold(m, out);
  }

  /** Disjoint regions ahead of the cursor never push the output past `hi`. */
  lemma {:induction false} EmitBounded(m: RegionMap, out: seq<byte>, hi: int)
    requires |out| <= hi
    requires Disjoint(m, |out|, hi)
    ensures |Emit(m, out)| <= hi
    decreases m.Keys
  {
    if m.Keys != {} {
      var k := LeastKey(m.Keys);
      var padded := if k > |out| then out + Erased(k - |out|) else out;
      EmitStep(m, out, hi);
      EmitBounded(m - {k}, padded + m[k], hi);
    }
  }

  /** Bytes placed in a prefix stay placed in any extension of it. */
  lemma PlacedInPrefix(r: seq<byte>, prefix: seq<byte>, k: int, b: seq<byte>)
    requires |prefix| <= |r| && r[..|prefix|] == prefix
    requires PlacedAt(prefix, k, b)
    ensures PlacedAt(r, k, b)
  {
    forall j | 0 <= j < |b|
      ensures r[k + j] == b[j]
    {
      assert r[k + j] == r[..|prefix|][k + j];
    }
  }

  /** Appending `b` to a buffer of length `k` places it at `k`. */
  lemma PlacedAtEnd(padded: seq<byte>, b: seq<byte>)
    ensures PlacedAt(padded + b, |padded|, b)
  {
  }

  /** Every region ahead of the cursor ends up at its own offset. */
  lemma {:induction false} EmitPlaces(m: RegionMap, out: seq<byte>, hi: int)
    requires |out| <= hi
    requires Disjoint(m, |out|, hi)
    ensures forall k | k in m :: PlacedAt(Emit(m, out), k, m[k])
    decreases m.Keys
  {
    if m.Keys != {} {
      var k := LeastKey(m.Keys);
      var padded := if k > |out| then out + Erased(k - |out|) else out;
      var out' := padded + m[k];
      var rest := m - {k};
      EmitStep(m, out, hi);
      EmitPlaces(rest, out', hi);
      EmitExtends(rest, out');
      var r := Emit(m, out);
      PlacedAtEnd(padded, m[k]);
      PlacedInPrefix(r, out', k, m[k]);
      forall k2 | k2 in m && k2 != k
        ensures PlacedAt(r, k2, m[k2])
      {
        assert k2 in rest && rest[k2] == m[k2];
      }
    }
  }

  /** Every position past the cursor that no region covers ends up 0xFF. */
  lemma {:induction false} EmitFillsGaps(m: RegionMap, out: seq<byte>, hi: int)
    requires |out| <= hi
    requires Disjoint(m, |out|, hi)
    ensures var r := Emit(m, out);
      forall i | |out| <= i < |r| && !Covered(m, i) :: r[i] == 0xFF
    decreases m.Keys
  {
    if m.Keys != {} {
      var k := LeastKey(m.Keys);
      var padded := if k > |out| then out + Erased(k - |out|) else out;
      var out' := padded + m[k];
      var rest := m - {k};
      EmitStep(m, out, hi);
      EmitFillsGaps(rest, out', hi);
      EmitExtends(rest, out');
      var r := Emit(m, out);
      assert r[..|out'|] == out';
      forall i | |out| <= i < |r| && !Covered(m, i)
        ensures r[i] == 0xFF
      {
        if i < |out'| {
          assert i < k;
          assert r[i] == out'[i] == padded[i];
        } else {
          assert !Covered(rest, i);
        }
      }
    }
  }

  /** For well-placed regions inside the raw page, the rebuilt page has exactly the
      raw size, every region's bytes at its offset, and 0xFF everywhere else. */
  lemma RebuildPlaces(m: RegionMap, rawPagesize: int)
    requires 0 <= rawPagesize
    requires Disjoint(m, 0, rawPagesize)
    ensures var r := RebuildBuffer(m, rawPagesize);
      && |r| == rawPagesize
      && (forall k | k in m :: PlacedAt(r, k, m[k]))
      && (forall i | 0 <= i < rawPagesize && !Covered(m, i) :: r[i] == 0xFF)
  {
    EmitBounded(m, [], rawPagesize);
    EmitPlaces(m, [], rawPagesize);
    EmitFillsGaps(m, [], rawPagesize);
    EmitExtends(m, []);
    var out := Emit(m, []);
    var r := RebuildBuffer(m, rawPagesize);
    assert r[..|out|] == out;
    forall k | k in m
      ensures PlacedAt(r, k, m[k])
    {
      assert PlacedAt(out, k, m[k]);
      forall j | 0 <= j < |m[k]|
        ensures r[k + j] == m[k][j]
      {
        assert r[k + j] == out[k + j];
      }
    }
  }

  /** An empty mapping rebuilds to an all-erased page. */
  lemma RebuildEmpty(rawPagesize: int)
    ensures RebuildBuffer(map[], rawPagesize) == Erased(rawPagesize)
  {
  }
}
